=== FILE: README.md ===
# Athlete scripts — a Dafny model

This project models the decision logic of the coaching-pipeline scripts in
`athletes/scripts/`. The scripts turn an intake form into an athlete profile
and a training plan, and then into a guide and a dashboard. Five parts are
modelled:

* **Intake** (`create_profile_from_form.py`):
  * the athlete id slug;
  * the goal label;
  * the weekly-volume parser;
  * per-day availability;
  * equipment and health-condition mapping;
  * B-priority events;
  * how the profile is assembled from these readings.
* **Submission validation** (`validate_submission.py`):
  * e-mail shape and disposable domains;
  * the age, weekly-hours, required-field and three-day schedule checks;
  * the order in which `validate_submission` collects its messages, and its JSON and `int()` failures.
* **Periodization**:
  * the Annual Training Plan table of the HTML guide, which covers phase ranges, phase lookup, focus rotation, volume labels, the generic week and key days;
  * the strength phases of the athlete guide, which cover phase per week, the per-phase sections and the schedule cells.
* **Dashboard classifiers** (`generate_dashboard.py`):
  * days until the race, the current plan week and the FTP test age;
  * rider ability, tier reasoning and training system;
  * the primary limiter, coaching priorities and risk level;
  * the consistency and days-since-ride status classes.
* **HTML guide lookups** (`generate_html_guide.py`):
  * tier hour ranges;
  * age from birthday;
  * the seven blindspot checks with their fallback card;
  * the A/B/C race timeline and its stable date sort.

Shared modules:

* `Common` holds Python string behaviour: `lower`, `strip`, `split`, `join`, `replace`, `int()` on text, and digit strings.
* `Dates` holds `strptime("%Y-%m-%d")`, date order and ordinal day counts.
* `FormValues` holds the loosely typed JSON/YAML values (`Value`) and Python truthiness.

Today's date is a parameter wherever the scripts call `datetime.now()` or
`date.today()`. An exception a script catches becomes `None`. An exception
it lets escape becomes `Err`.

## Behaviour worth knowing

* The ATP table:
  * A plan of zero or fewer weeks gives no rows (`WeekRows`).
  * In plans of six weeks or fewer the Peak range is empty. In plans of five weeks or fewer the last week also falls in Build, so no week is Peak or Taper (`ShortPlanHasNoPeakOrTaper`).
  * In the Taper phase, every fourth week is labelled `Low`, not `Recovery` (`TaperQuarterWeekIsLow`).
* There are three different masters thresholds:
  * the dashboard's ability classes use age 40;
  * the guide's age blindspot fires at 45;
  * the guide's `_is_masters` uses 50 (`MastersThresholdsDiffer`).
* The dashboard passes only `current_injuries` to `get_risk_level`.
* The two volume parsers do not agree on every input:
  * `parse_weekly_volume` reads `"-5+"` as `(-5, 40)`;
  * `validate_submission` fails with a `ValueError` on the same text (`VolumeParsersDisagree`).
* Intake age counts `days // 365`, which differs from the guide's calendar age (`DaysAgeDiffersFromCompletedYears`).
* `create_profile_from_form` raises on a `group_rides_per_week` given as text, even numeric text such as `"2"`: its `int()` reading succeeds, but the later `> 0` comparison of the raw value fails (`GroupRidesTextRaises`).
* A `null` or numeric `equipment`, `devices` or `limitations` answer makes profile creation raise, because the profile literal tests membership on the raw value (`NullEquipmentRaises`, `NumericLimitationsRaise`).
* A valid submission on the first seven days of a month makes `validate_submission` raise: `record_submission` computes its cut-off as `now.replace(day=now.day - 7)`, and day 0 or less does not exist (`RecordCutoff`).
* A primary goal that is not text makes profile creation raise: the goal's fallback `.lower()` runs whatever the goal table finds (`NullGoalRaises`).
* Any optional number the intake form gives as unreadable text, such as a `mobility_rating` of `"high"`, makes profile creation raise (`UnreadableMobilityRaises`).

## Model

| member | source | states |
|---|---|---|
| Common.LowerIdempotent | athletes/scripts/generate_html_guide.py:853 | Lower-casing a tier name twice gives the same text as once. |
| Common.StripIsSlice | athletes/scripts/create_profile_from_form.py:191 | `strip()` returns a contiguous slice of the line, and everything it removed on either side is whitespace. |
| Common.SplitJoin | athletes/scripts/create_profile_from_form.py:190 | Splitting the newline-joined text of separator-free lines gives back exactly those lines. |
| Common.JoinSplit | athletes/scripts/create_profile_from_form.py:190 | Joining the pieces of `split` with the separator rebuilds the original text. |
| Common.SplitCount | athletes/scripts/validate_submission.py:200 | `split('-')` yields one more piece than there are dashes. |
| Common.ParseDigits | athletes/scripts/create_profile_from_form.py:53 | `int()` of a non-empty digit string succeeds with its decimal value. |
| Common.ParseIntToString | athletes/scripts/create_profile_from_form.py:53 | `int()` reads back the decimal text of any integer, negative ones included. |
| Dates.DaysInMonth | athletes/scripts/generate_dashboard.py:27 | The day bound `strptime` enforces: 31 exactly for the long months, and 29 in February exactly in leap years. |
| Dates.BeforeIsStrictTotal | athletes/scripts/generate_html_guide.py:1070 | The date order used to sort events is irreflexive, transitive and total. |
| Dates.ParseIsoDate | athletes/scripts/generate_dashboard.py:27 | Whatever `%Y-%m-%d` accepts is a real calendar date. |
| Dates.FormatIsoDate | athletes/scripts/create_profile_from_form.py:280 | The `YYYY-MM-DD` text of a date is ten characters with dashes at positions 4 and 7. |
| Dates.ParseFormat | athletes/scripts/create_profile_from_form.py:280 | Every valid date printed as `YYYY-MM-DD` is read back unchanged by `strptime`. |
| Dates.OrdinalMonotone | athletes/scripts/generate_dashboard.py:29 | Day differences follow the calendar: `(b - a).days` is positive exactly when a is before b, and zero exactly when they are the same date. |
| FormValues.ToInt | athletes/scripts/create_profile_from_form.py:82 | `int()` keeps an integer unchanged, and fails on None, lists and dicts. |
| FormValues.AsList | athletes/scripts/create_profile_from_form.py:128-130 | A list is kept as it is; a single truthy value becomes a one-element list; a falsy one becomes empty. |
| Validation.DisposableDecidedByDomain | athletes/scripts/validate_submission.py:15-35 | An address is disposable exactly when the lower-cased text after its first `@` is on the provider list, whatever follows a second `@`. |
| Validation.NoAtNotDisposable | athletes/scripts/validate_submission.py:32-35 | An address without `@` is never disposable. |
| Validation.EmailShapeIsPattern | athletes/scripts/validate_submission.py:102 | The shape check accepts exactly the addresses `local@host.tld` with non-empty parts and no further `@`, which is what `^[^@]+@[^@]+\.[^@]+$` matches. |
| Validation.ValidateEmail | athletes/scripts/validate_submission.py:97-108 | An address passes exactly when it is non-empty, well-formed and not disposable; otherwise it returns the first failing check's message. |
| Validation.ValidateAge | athletes/scripts/validate_submission.py:111-115 | Age passes exactly when it is 0 (not given) or 18 to 99. |
| Validation.ValidateWeeklyHours | athletes/scripts/validate_submission.py:118-122 | Hours pass exactly when they are in 0..40. |
| Validation.ValidateRequiredFields | athletes/scripts/validate_submission.py:125-140 | A missing-field message appears for exactly the falsy required fields; the race message appears exactly when a specific-race goal lacks a race name or date; messages follow field order; valid means no messages. |
| Validation.ValidateSchedule | athletes/scripts/validate_submission.py:143-155 | The schedule passes exactly when at least three of the seven days are marked available. |
| Validation.CountAtLeastThree | athletes/scripts/validate_submission.py:149-153 | A count of at least three available days is the same as three distinct available positions. |
| Validation.MaxHoursFromVolume | athletes/scripts/validate_submission.py:196-204 | Dash-free text ending in `+` means 40 hours; a range whose upper piece is empty means 40; an integer value is used as it is; a missing or falsy volume means 0. |
| Validation.MaxHoursOfRange | athletes/scripts/validate_submission.py:199-200 | For a range `lower-upper` with a digit upper bound, the maximum is that upper bound's value. |
| Validation.ValidateSubmission | athletes/scripts/validate_submission.py:158-219 | Unreadable JSON gives only the invalid-JSON message; an `int()` failure on age or hours escapes as an error; a valid submission on the first seven days of a month also ends in an error, from the recording cut-off; otherwise valid means no messages, and the submission is recorded exactly when it is valid. |
| Validation.RecordCutoff | athletes/scripts/validate_submission.py:84-85 | The cut-off is the same month's date seven days earlier, a valid earlier date; it raises exactly when today's day of the month is 7 or less. |
| Validation.CollectMessages | athletes/scripts/validate_submission.py:175-213 | The collected messages report every failing check and nothing else, in e-mail, rate-limit, required-field, age, hours, schedule order. |
| Validation.SubmissionAssembled | athletes/scripts/validate_submission.py:175-213 | Concatenating the six stages' outputs gives a list ordered by stage, with required-field messages in field order, that reports each failed check and no other message. |
| Validation.SubmissionMessagesDetermined | athletes/scripts/validate_submission.py:175-213 | Two message lists that both meet the collection promise are equal, so the promise fixes the list, its order and its multiplicities. |
| Validation.AssembledSorted | athletes/scripts/validate_submission.py:175-213 | Messages appended stage by stage come out sorted by stage. |
| Slug.KeepSlugChars | athletes/scripts/create_profile_from_form.py:19 | Removing characters outside `[a-z0-9-]` leaves only slug characters and never lengthens the text. |
| Slug.CollapseDashes | athletes/scripts/create_profile_from_form.py:21 | After collapsing `-+`, no two dashes are adjacent, the first character is kept, and no new characters appear. |
| Slug.DropLeadingDashes | athletes/scripts/create_profile_from_form.py:23 | `lstrip('-')` removes exactly a run of dashes and leaves a suffix that does not start with one. |
| Slug.DropTrailingDashes | athletes/scripts/create_profile_from_form.py:23 | `rstrip('-')` removes exactly a run of dashes and leaves a prefix that does not end with one. |
| Slug.StripDashesShape | athletes/scripts/create_profile_from_form.py:21-23 | Stripping dashes from collapsed slug text gives a slug: only `[a-z0-9-]`, no double dash, no dash at either end. |
| Slug.AthleteIdIsSlug | athletes/scripts/create_profile_from_form.py:16-24 | Every athlete id is a slug. |
| Slug.AthleteIdIdempotent | athletes/scripts/create_profile_from_form.py:16-24 | Generating an id from an id gives the same id. |
| Slug.AthleteIdKeepsAlnums | athletes/scripts/create_profile_from_form.py:16-24 | The id keeps every lower-case letter and digit of the lower-cased name, in order, and drops nothing else of that kind. |
| Intake.ConvertPrimaryGoal | athletes/scripts/create_profile_from_form.py:27-37 | The goal key never contains a space or an upper-case letter; an unlisted label keeps its length. |
| Intake.ConvertPrimaryGoalIdempotent | athletes/scripts/create_profile_from_form.py:27-37 | Converting an already converted goal changes nothing. |
| Intake.ParseWeeklyVolume | athletes/scripts/create_profile_from_form.py:40-53 | Empty volume is `(0, 0)`; text ending in `+` has a maximum of 40; a single number is both minimum and maximum. |
| Intake.VolumeRangeRoundTrip | athletes/scripts/create_profile_from_form.py:49-51 | The text `a-b` of two naturals parses back to `(a, b)`. |
| Intake.VolumeOpenRoundTrip | athletes/scripts/create_profile_from_form.py:46-48 | The text `n+` parses back to `(n, 40)`. |
| Intake.VolumeSingleRoundTrip | athletes/scripts/create_profile_from_form.py:53 | The text of a single natural parses back to `(n, n)`. |
| Intake.VolumeParsersAgree | athletes/scripts/create_profile_from_form.py:40-53 | Wherever the intake parser succeeds, apart from text with both a dash and a final `+`, the submission validator reads the same maximum hours. |
| Intake.VolumeParsersDisagree | athletes/scripts/validate_submission.py:199-202 | `"-5+"` is accepted by the intake parser as `(-5, 40)` but makes the validator's `int()` fail. |
| Intake.SlotsFor | athletes/scripts/create_profile_from_form.py:71-79 | An available day gets AM unless the time is afternoon or evening, and PM exactly for afternoon, evening or flexible; it never gets no slot. |
| Intake.ConvertDayAvailability | athletes/scripts/create_profile_from_form.py:56-89 | An unavailable day is the fixed unavailable record. An available one succeeds exactly when its duration is empty or readable by `int()`; it is key-day capable, its slots are those of the day's time field, and its duration is the given number or 60 minutes. |
| Intake.DayAvailabilityAgrees | athletes/scripts/create_profile_from_form.py:58-62 | A converted day is available exactly when the validator counts it as available. |
| Intake.ConvertDays | athletes/scripts/create_profile_from_form.py:300-303 | All seven days convert, or the first failure escapes; each converted day is that day's own conversion. |
| Intake.MapItem | athletes/scripts/create_profile_from_form.py:94-114 | An item maps to a strength-equipment name only through the equipment table; an unhashable item (list or dict) raises. |
| Intake.MapEquipment | athletes/scripts/create_profile_from_form.py:106-115 | The mapped list is no longer than the input and holds only known strength equipment. |
| Intake.MapEquipmentMembership | athletes/scripts/create_profile_from_form.py:106-115 | A name is in the mapped list exactly when some input item maps to it. |
| Intake.MapEquipmentPositions | athletes/scripts/create_profile_from_form.py:106-115 | The mapped list is the mapping of exactly the items that map, in input order, one entry per such item, duplicates included. |
| Intake.PowerMetersKept | athletes/scripts/create_profile_from_form.py:96-97 | Two power-meter options both map to `power_meter_bike`, and both entries are kept. |
| Intake.ConvertHealthConditions | athletes/scripts/create_profile_from_form.py:126-134 | With more than one condition and a `none` among them, exactly the first `none` is removed; otherwise the list is unchanged. |
| Intake.ParseBEvents | athletes/scripts/create_profile_from_form.py:184-198 | Each event name is a non-empty stripped line, and there are no more names than lines. |
| Intake.NonEmptyLinesKeep | athletes/scripts/create_profile_from_form.py:190-193 | Lines that are already non-empty and unpadded are kept unchanged and in order. |
| Intake.BEventsRoundTrip | athletes/scripts/create_profile_from_form.py:184-198 | Writing unpadded event names one per line and parsing the text gives back exactly those names. |
| Intake.BEventRecords | athletes/scripts/create_profile_from_form.py:192-195 | Each name becomes one B-priority record, in order. |
| Intake.SessionsFor | athletes/scripts/create_profile_from_form.py:297 | Two strength sessions exactly for `eager`, one exactly for `willing`, otherwise none. |
| FormValues.IntTextIsFloatText | athletes/scripts/create_profile_from_form.py:355 | Any text `int()` reads is also read by `float()`. |
| Intake.ReadEntries | athletes/scripts/create_profile_from_form.py:205-248 | The volume, race-distance, B-event and primary-goal readings succeed exactly when each of their conversions does; the race distance is converted only when the form itself supplies the target race. |
| Intake.ReadNumbers | athletes/scripts/create_profile_from_form.py:266-279 | Years of structure and sport level must convert; races last year and FTP are converted only when given. |
| Intake.ReadSchedule | athletes/scripts/create_profile_from_form.py:300-348 | The days, the equipment and the movement limitations succeed exactly when every day converts, the `equipment`, `devices` and `limitations` values (absent counts as an empty list) are text, lists or objects that a membership test accepts, and no equipment item is a list or an object. |
| Intake.MembershipTests | athletes/scripts/create_profile_from_form.py:315-348 | A membership test on a form value succeeds exactly when the value, or the empty list for an absent key, is text, a list or an object; `None`, numbers and booleans raise. |
| Intake.ReadingsAgree | athletes/scripts/create_profile_from_form.py:300-321 | Converting all days, or all equipment, succeeds exactly when each element's conversion does. |
| Intake.ReadHistory | athletes/scripts/create_profile_from_form.py:266-348 | The training history, days, equipment, device and limitation readings succeed exactly when each of their conversions and membership tests does. |
| Intake.ReadFront | athletes/scripts/create_profile_from_form.py:205-348 | The first half of the readings succeeds exactly when all its conversions do, with each value its own converter's. |
| Intake.ReadHealth | athletes/scripts/create_profile_from_form.py:353-368 | Age, sleep, job stress, the conditions join and mobility succeed exactly when each conversion does; a given sleep value must be text `float()` reads, or a number. |
| Intake.ReadLife | athletes/scripts/create_profile_from_form.py:378-436 | Work hours, fluid intake and the group-ride numbers are converted when given, and the raw group-ride count must be a number for the `> 0` comparison. |
| Intake.ReadBack | athletes/scripts/create_profile_from_form.py:353-436 | The second half of the readings succeeds exactly when all its conversions do, with each value its own converter's. |
| Intake.Read | athletes/scripts/create_profile_from_form.py:205-436 | All readings succeed exactly when every conversion and membership test the profile literal performs succeeds, and each reading is the value its own converter gives. |
| Intake.GroupRidesAgree | athletes/scripts/create_profile_from_form.py:405-436 | Group rides are marked available exactly when the stored count is positive. |
| Intake.UnreadableMobilityRaises | athletes/scripts/create_profile_from_form.py:368 | A form with a race name and a mobility rating of `"high"` does not become a profile. |
| Intake.GroupRidesTextRaises | athletes/scripts/create_profile_from_form.py:436 | A form with a race name and group rides given as the text `"2"` does not become a profile. |
| Intake.NullGoalRaises | athletes/scripts/create_profile_from_form.py:37 | A form with a race name and a primary goal of `null` does not become a profile. |
| Intake.GoalOf | athletes/scripts/create_profile_from_form.py:27-37 | The primary goal converts exactly when the form's value, or the empty default, is text, and then it is that text's profile goal name. |
| Intake.NullEquipmentRaises | athletes/scripts/create_profile_from_form.py:315 | A form with a race name and an equipment value of `null` does not become a profile. |
| Intake.NumericLimitationsRaise | athletes/scripts/create_profile_from_form.py:345 | A form with a race name and limitations given as a number does not become a profile. |
| Intake.CreateProfile | athletes/scripts/create_profile_from_form.py:201-477 | The profile exists exactly when every conversion and membership test on the form succeeds and there is a target race; its hours come from the volume, the total is the maximum plus two, and its goal is the converted primary goal. |
| Intake.ProfileFields | athletes/scripts/create_profile_from_form.py:252-436 | Strength sessions, stress level, strength background, secondary races (B events first, then the extra primary races), target-race name and all seven preferred days follow the form, and group rides are available exactly when the stored count is positive. |
| Intake.ValidScheduleCarriesOver | athletes/scripts/create_profile_from_form.py:300-303 | A form that passes the three-day schedule check yields a profile with at least three available days. |
| Intake.DaysAgeDiffersFromCompletedYears | athletes/scripts/create_profile_from_form.py:226-231 | Intake's `days // 365` age and the guide's calendar age disagree for a birthday of 2023-03-01 seen on 2024-02-29. |
| Periodization.PhaseRanges | athletes/scripts/generate_html_guide.py:1494-1514 | There are four ranges, in Base, Build, Peak, Taper order, starting at week 1. |
| Periodization.FirstMatch | athletes/scripts/generate_html_guide.py:1516-1520 | A phase is found exactly when some range contains the week. |
| Periodization.PhaseCovered | athletes/scripts/generate_html_guide.py:1494-1520 | Every plan week falls in some range, so the `Build` default is never used, and the phase is given by the length thresholds. |
| Periodization.FirstMatchOfFour | athletes/scripts/generate_html_guide.py:1516-1520 | The lookup picks the first of the four ranges that contains the week. |
| Periodization.PhaseMonotone | athletes/scripts/generate_html_guide.py:1494-1520 | Phases never go backwards as the weeks advance. |
| Periodization.LastWeekIsTaper | athletes/scripts/generate_html_guide.py:1494-1514 | In plans of six weeks or more, the final week is Taper. |
| Periodization.ShortPlanHasNoPeakOrTaper | athletes/scripts/generate_html_guide.py:1508-1514 | In plans of five weeks or fewer, every week is Base or Build. |
| Periodization.PhaseWeekNumNonnegative | athletes/scripts/generate_html_guide.py:1558 | The week number within a phase is never negative, because a week's phase range starts at or before it. |
| Periodization.FocusIndex | athletes/scripts/generate_html_guide.py:1559-1560 | The focus text index is always within the phase's focus list. |
| Periodization.FocusCycles | athletes/scripts/generate_html_guide.py:1523-1560 | Within a phase, the next week shows the next focus text, wrapping to the first after the last; a week one list length later in the same phase shows the same text; the first weeks of a phase show the texts in order. |
| Periodization.VolumeLabel | athletes/scripts/generate_html_guide.py:1563-1564 | A week is labelled Recovery exactly when it is a fourth week outside Taper; other weeks cycle Low, Medium, High, Peak by `week % 4`. |
| Periodization.TaperQuarterWeekIsLow | athletes/scripts/generate_html_guide.py:1563-1564 | A fourth week in Taper is labelled Low, while the same week in Build is Recovery. |
| Periodization.WeekRows | athletes/scripts/generate_html_guide.py:1554-1556 | There is one row per plan week, numbered from 1, each with its phase; a non-positive length gives none. |
| Periodization.RowsOrdered | athletes/scripts/generate_html_guide.py:1554-1556 | The table's phases are in non-decreasing order down the rows. |
| Periodization.GenericWeek | athletes/scripts/generate_html_guide.py:1661-1677 | A generic week has seven day cells with the phase's workouts, and no rest, recovery or easy day is ever marked key. |
| Periodization.GenericKeyDays | athletes/scripts/generate_html_guide.py:1662-1675 | The key days are exactly Thursday and Saturday in Base, Tuesday, Thursday and Saturday in Build and Peak, and only Saturday in Taper, whose Thursday is an easy ride and so never key. |
| StrengthPhases.PhaseMonotone | athletes/scripts/generate_athlete_guide.py:68-96 | Strength phases never go backwards as the weeks advance. |
| StrengthPhases.LastWeekMaintains | athletes/scripts/generate_athlete_guide.py:68-96 | In plans of five weeks or more, the final week is "Don't Lose It". |
| StrengthPhases.ShortPlanPhases | athletes/scripts/generate_athlete_guide.py:89-96 | Plans of four weeks or fewer never reach "Don't Lose It", and plans of five weeks or fewer never reach "Lift Fast". |
| StrengthPhases.WeeksFrom | athletes/scripts/generate_athlete_guide.py:213-216 | The collected weeks are exactly the plan weeks in the phase, in increasing order. |
| StrengthPhases.SectionsOf | athletes/scripts/generate_athlete_guide.py:211-221 | A phase gets a section exactly when it has weeks, and that section covers exactly its weeks; phases without weeks are skipped. |
| StrengthPhases.SectionsOfOrdered | athletes/scripts/generate_athlete_guide.py:211-221 | Sections keep the order of the phases they come from. |
| StrengthPhases.SectionsInPhaseOrder | athletes/scripts/generate_athlete_guide.py:211-221 | The guide's sections follow the phase order of the details table, one per phase that has weeks, each covering exactly that phase's weeks. |
| StrengthPhases.SectionsDetermined | athletes/scripts/generate_athlete_guide.py:211-221 | Any list of sections in phase order with the same members is the guide's list, so order and membership fix it. |
| StrengthPhases.PhaseWeeksContiguous | athletes/scripts/generate_athlete_guide.py:68-96 | A phase's weeks have no gaps. |
| StrengthPhases.SectionIsInterval | athletes/scripts/generate_athlete_guide.py:213-221 | A section's weeks are the whole interval from its first to its last week, and the heading is a span exactly when there is more than one week. |
| StrengthPhases.WeeksCovered | athletes/scripts/generate_athlete_guide.py:211-221 | Each plan week belongs to exactly one phase, and that phase's section is listed. |
| StrengthPhases.WorkoutCell | athletes/scripts/generate_athlete_guide.py:172-181 | The cell starts with the AM workout if there is one, otherwise the PM one; it ends with `(PM)` whenever there is a PM workout; a PM-only cell is exactly the PM workout followed by ` (PM)`; an AM-only cell is the AM workout; it reads `Rest` when both are empty. |
| StrengthPhases.WorkoutCellBoth | athletes/scripts/generate_athlete_guide.py:176-177 | With both sessions, the cell is the AM workout, then ` (AM) + `, then exactly the PM workout, then ` (PM)`. |
| StrengthPhases.KeyMarker | athletes/scripts/generate_athlete_guide.py:171 | The key marker is present exactly on key days. |
| StrengthPhases.KeyDayMarkedTwice | athletes/scripts/generate_athlete_guide.py:171-183 | A key day's own notes never show; on a day whose notes are not `**Key session**`, the notes cell reads `**Key session**` exactly when the day carries the key marker. |
| Dashboard.DaysUntil | athletes/scripts/generate_dashboard.py:22-31 | A count exists exactly for a non-empty readable date, and it is the signed day difference from today. |
| Dashboard.CurrentWeek | athletes/scripts/generate_dashboard.py:34-41 | There is no week without a race date or with a zero-week plan; otherwise the week is at least 1 and at most the plan length. |
| Dashboard.CurrentWeekWindow | athletes/scripts/generate_dashboard.py:37-41 | A middle week w means the race is between 7·(plan−w) and 7·(plan−w+1) days away; the final week covers the last 7 days; week 1 absorbs all earlier dates. |
| Dashboard.FtpAgeWeeks | athletes/scripts/generate_dashboard.py:169-179 | The FTP age in weeks is the floor of the days since the test divided by 7, and exists exactly for a readable test date. |
| Dashboard.ClassifyRiderAbility | athletes/scripts/generate_dashboard.py:68-93 | A masters class is given exactly from age 40; Masters Advanced exactly with five structured years and 3.5 W/kg; below that a masters rider is intermediate exactly with two structured years; a rider under 40 is Advanced exactly with six or more cycling years, five structured and 4.0 W/kg; a younger rider is a beginner exactly with under a year of structure and inconsistent training. |
| Dashboard.AbilityGrowsWithExperience | athletes/scripts/generate_dashboard.py:68-93 | More years of structured training never lowers the ability class. |
| Dashboard.TierReasoning | athletes/scripts/generate_dashboard.py:96-113 | The reasoning starts with the available hours; it mentions current hours exactly when positive, sustained peak exactly when positive, and a goal mismatch exactly for a non-finish goal in a low tier; it has one clause per such case and no other, in available, current, sustain, mismatch order. |
| Dashboard.ReasoningStartsWithHours | athletes/scripts/generate_dashboard.py:96-113 | The reasoning text begins with `<hours>h available`. |
| Dashboard.RecommendTrainingSystem | athletes/scripts/generate_dashboard.py:116-132 | Block periodization is chosen exactly for podium with five or more structured years; polarized-to-block exactly for experienced compete or podium riders who prefer polarized; polarized for finishers and the other experienced riders; an unknown tier gets the foundation system. |
| Dashboard.Limiters | athletes/scripts/generate_dashboard.py:135-162 | The candidate list holds exactly the limiters whose condition fires. |
| Dashboard.IdentifyLimiter | athletes/scripts/generate_dashboard.py:135-166 | "None identified" is returned exactly when no limiter fires; otherwise the result is a firing limiter. |
| Dashboard.LimiterIsFirst | athletes/scripts/generate_dashboard.py:164-166 | No limiter earlier in the list fires than the one returned. |
| Dashboard.MissingWattsPerKgNamesALimiter | athletes/scripts/generate_dashboard.py:146-148 | A missing W/kg (read as 0) always produces some limiter. |
| Dashboard.CoachingPriorities | athletes/scripts/generate_dashboard.py:182-217 | There are at most five priorities, in rule order, each from a firing rule and carrying what that rule read: the test's age, the weekly drinks, the sleep quality and hours, the exclusion count. |
| Dashboard.PrioritiesKeepFirstKinds | athletes/scripts/generate_dashboard.py:186-217 | Every firing rule among the first five appears in the list. |
| Dashboard.PrioritiesExclusionsItem | athletes/scripts/generate_dashboard.py:213-217 | The exclusions item is listed exactly when it fires and some earlier rule does not, because `[:5]` cuts it otherwise. |
| Dashboard.PrioritiesTruncation | athletes/scripts/generate_dashboard.py:217 | The result is a prefix of all firing items, shorter exactly when all six rules fire. |
| Dashboard.PrioritiesOneFtpItem | athletes/scripts/generate_dashboard.py:186-191 | A due retest excludes the establish-baseline item, and at most one FTP item appears. |
| Dashboard.RetestExcludesEstablish | athletes/scripts/generate_dashboard.py:186-191 | When a retest is due, the establish-baseline item is not even a candidate. |
| Dashboard.SleepHoursZeroIgnored | athletes/scripts/generate_dashboard.py:207-210 | Zero sleep hours, being falsy, never trigger the sleep item unless quality is poor. |
| Dashboard.RiskLevel | athletes/scripts/generate_dashboard.py:220-238 | Risk is HIGH exactly when some injury is moderate or significant, and LOW exactly when there are no injuries and no moderate signal. |
| Dashboard.MoreInjuriesNoLowerRisk | athletes/scripts/generate_dashboard.py:220-238 | Adding an injury never lowers the risk level. |
| Dashboard.ConsistencyClass | athletes/scripts/generate_dashboard.py:1045-1053 | Consistent, sporadic and none map to good, warning and danger respectively; anything else maps to none of them. |
| Dashboard.DaysClass | athletes/scripts/generate_dashboard.py:1056-1065 | No class without a value; good up to 3 days, warning up to 7, danger beyond. |
| Dashboard.DaysClassMonotone | athletes/scripts/generate_dashboard.py:1056-1065 | More days since the last ride never gives a better status. |
| Guide.TierHours | athletes/scripts/generate_html_guide.py:852-860 | Every tier's hour range is a proper range within 4 to 25 hours. |
| Guide.KnownTierHours | athletes/scripts/generate_html_guide.py:852-860 | The four named tiers get their listed ranges, case-insensitively, and any other tier gets 10–15. |
| Guide.MissingTierIsCompete | athletes/scripts/generate_html_guide.py:853 | A missing tier counts as compete: 12–18 hours. |
| Guide.TierHoursIgnoresCase | athletes/scripts/generate_html_guide.py:853 | The tier lookup does not depend on letter case. |
| Guide.CompletedYears | athletes/scripts/generate_html_guide.py:868 | The age is the number of birthdays reached: the last anniversary is on or before today and the next one is after it. |
| Guide.CalculateAge | athletes/scripts/generate_html_guide.py:862-871 | An age exists exactly for a non-empty readable birthday, and it is the completed years up to today. |
| Guide.AgeIsUnique | athletes/scripts/generate_html_guide.py:868 | Only one number of completed years fits between two anniversaries. |
| Guide.InjuryAreasSplit | athletes/scripts/generate_html_guide.py:1396-1401 | The areas of current and past injuries together are the union of each list's areas. |
| Guide.InjuryAreasAtMostEntries | athletes/scripts/generate_html_guide.py:1396-1401 | There are never more areas than injury entries. |
| Guide.MissingAreaIsUnknown | athletes/scripts/generate_html_guide.py:1399 | A dict entry without an `area` adds the area `unknown`. |
| Guide.FoundFrom | athletes/scripts/generate_html_guide.py:1358-1444 | Blindspots are collected in check order, each with its check's severity. |
| Guide.Assess | athletes/scripts/generate_html_guide.py:1449-1457 | There is always at least one card, at most seven, in check order. |
| Guide.Blindspots | athletes/scripts/generate_html_guide.py:1352-1458 | The guide's blindspot cards: one to seven, in check order, with the severity each check assigns. |
| Guide.AssessExact | athletes/scripts/generate_html_guide.py:1358-1457 | A check's card appears exactly when the check fires, and the fallback card appears exactly when none fires, as the only card. |
| Guide.BlindspotsReportChecks | athletes/scripts/generate_html_guide.py:1358-1444 | Each of the seven checks is reported exactly when its condition holds on the profile. |
| Guide.NoBlindspotsFallback | athletes/scripts/generate_html_guide.py:1449-1457 | "No Major Blindspots" appears exactly when no check fires, and then it is the only card. |
| Guide.InjuryFiresOnReadableEntry | athletes/scripts/generate_html_guide.py:1394-1405 | The injury card fires exactly when some current or past injury is a dict or a string. |
| Guide.MastersThresholdsDiffer | athletes/scripts/generate_html_guide.py:1436-1437 | Between 45 and 49 the masters-recovery card fires although `_is_masters` is false. |
| Guide.MastersGetAgeBlindspot | athletes/scripts/generate_html_guide.py:873-875 | Every athlete `_is_masters` accepts, 50 or older, also gets the masters-recovery card. |
| RaceCalendar.TimelineAEvents | athletes/scripts/generate_html_guide.py:1045-1070 | The timeline's A events are exactly the profile's A events, or the made-up target event when there are none and the target race is named. |
| RaceCalendar.TargetIsOnlyAEvent | athletes/scripts/generate_html_guide.py:1045-1052 | When the A event is made up, the timeline holds exactly one A event, with the fields of the target race and the target's own name. |
| RaceCalendar.TargetCountedOnce | athletes/scripts/generate_html_guide.py:1045-1061 | The made-up A event appears in the timeline exactly once. |
| RaceCalendar.Tag | athletes/scripts/generate_html_guide.py:1056-1061 | Each event is tagged with its priority, one for one, in order. |
| RaceCalendar.AllEventsCounts | athletes/scripts/generate_html_guide.py:1054-1061 | The event list is the A events, then the B events, then the C events, each tagged with its tier. |
| RaceCalendar.SortDate | athletes/scripts/generate_html_guide.py:1063-1068 | Every event gets a valid sort date: its own readable date, otherwise 2099-12-31. |
| RaceCalendar.FarFutureText | athletes/scripts/generate_html_guide.py:1065 | The default date text of an undated event reads as 2099-12-31. |
| RaceCalendar.Insert | athletes/scripts/generate_html_guide.py:1070 | Inserting into the sorted list adds exactly the one entry. |
| RaceCalendar.SortEntries | athletes/scripts/generate_html_guide.py:1070 | Sorting is a permutation of the entries. |
| RaceCalendar.TimelineIsStableSort | athletes/scripts/generate_html_guide.py:1070 | The timeline is a permutation of the numbered events, ordered by date and, for equal dates, by original position, as Python's stable sort requires. |
| RaceCalendar.TimelineIsPermutation | athletes/scripts/generate_html_guide.py:1054-1070 | The timeline holds exactly the tagged events, each as often as it occurs. |
| RaceCalendar.TimelineSorted | athletes/scripts/generate_html_guide.py:1063-1070 | Sort dates never decrease along the timeline. |
| RaceCalendar.UndatedSortsLast | athletes/scripts/generate_html_guide.py:1063-1070 | An event without a readable date comes after every event dated before 2099-12-31. |

## Left out

* File and command-line I/O is not modelled:
  * reading and writing JSON/YAML profiles, plans and HTML;
  * `main` functions and `sys.exit`.
* The clock is not modelled: today is a parameter.
* The rate-limit file is not modelled:
  * `check_rate_limit` is an input (`underRateLimit`);
  * `record_submission`'s file reads and writes and its clean-up of entries older than the cut-off are not modelled; only whether its cut-off (`now.replace(day=now.day - 7)`, seven days back) raises is.
  * The model only states whether a submission is recorded.
* Floating point is approximated: W/kg and sleep hours are Dafny reals. JSON floats inside `Value` are not modelled, and neither is the miles/kilometres race-distance conversion.
* `parse_race_list` is not modelled. Its regular-expression race parsing is replaced by its result, `primaryRaces`, which is an input to `CreateProfile`.
* The HTML, Markdown and prose texts are not modelled:
  * the titles, issue/risk/action texts and focus sentences;
  * only the structure that selects them is modelled (which card, which focus index, which label).
* `TypeError`s from `None` or wrongly typed profile values (for example `.lower()` on a non-string tier) are not modelled. Inputs are typed where the scripts assume a type. The intake exceptions are the ones modelled: the `int()` and `float()` readings, the primary goal's `.lower()`, the membership tests on `equipment`, `devices` and `limitations`, the conditions join and the group-ride comparison.
* `Intake.CreateProfile` omits the profile fields that are copied verbatim from the form. It also omits the float values, namely the sleep hours and the kilometre race-distance product; only whether their conversion raises is modelled. Only the integer readings that decide the profile's structure are kept as values.
* `Intake.CreateProfile`: the text of the `medical_conditions` join is not built; only whether the join raises on an item that is not text is modelled.
* The dashboard's nutrition and weeks-out panels are not modelled, because they are plain formatting of profile values with no decisions.
* `Common.Lower` lower-cases ASCII letters only; Python's `str.lower` also folds other Unicode letters.
* `Common.ParsePyInt` reads ASCII digits only. Python's `int()` also accepts other Unicode decimal digits and refuses texts of more than 4300 digits. The year, month and day fields of `Dates.ParseIsoDate` and the digits of `FormValues.FloatReadable` are limited to ASCII in the same way.
* `Validation.ValidateSubmission` reads age and hours with `int()` before collecting messages. It produces the same verdict and the same message list as the script's interleaved order.
* `Dashboard.RiskLevel` takes the limitation values as a list, because only their values are inspected.

=== FILE: common.dfy ===
/** Shared vocabulary for the athlete-profile engine: optional values, results
    that carry the message of a raised exception, and the few pieces of
    Python's string and integer semantics the intake and generator scripts
    rely on (`str.lower`, `str.strip`, `str.split`, `str(n)` and `int(s)`). */
module Common {

  datatype Option<+T> = None | Some(value: T) {
    function GetOr(default: T): T {
      match this
      case Some(v) => v
      case None => default
    }
  }

  /** `Err` stands for an exception the original code lets escape (a
      `ValueError` from `int()`, a `TypeError` from a lookup on `None`). */
  datatype Result<+T> = Ok(value: T) | Err(error: string) {
    predicate IsFailure() { Err? }

    function PropagateFailure<U>(): Result<U>
      requires Err?
    {
      Err(error)
    }

    function Extract(): T
      requires Ok?
    {
      value
    }
  }

  // ---------------------------------------------------------------------
  // Characters

  predicate IsDigit(c: char) { '0' <= c <= '9' }

  predicate IsLowerAlnum(c: char) { 'a' <= c <= 'z' || IsDigit(c) }

  predicate IsAsciiUpper(c: char) { 'A' <= c <= 'Z' }

  /** ASCII case folding; every other character is left alone. */
  function LowerChar(c: char): (r: char)
    ensures !IsAsciiUpper(r)
    ensures IsAsciiUpper(c) ==> r as int == c as int + 32
    ensures !IsAsciiUpper(c) ==> r == c
  {
    if IsAsciiUpper(c) then (c as int + 32) as char else c
  }

  function Lower(s: string): (r: string)
    ensures |r| == |s|
    ensures forall i :: 0 <= i < |s| ==> r[i] == LowerChar(s[i])
  {
    if |s| == 0 then [] else [LowerChar(s[0])] + Lower(s[1..])
  }

  /** Lower-casing is idempotent: a folded string has nothing left to fold. */
  lemma {:induction false} LowerIdempotent(s: string)
    ensures Lower(Lower(s)) == Lower(s)
  {
    var l := Lower(s);
    assert forall i :: 0 <= i < |l| ==> LowerChar(l[i]) == l[i];
  }

  /** A string without upper-case letters is its own lower case. */
  lemma {:induction false} LowerOfLowercase(s: string)
    requires forall i :: 0 <= i < |s| ==> !IsAsciiUpper(s[i])
    ensures Lower(s) == s
  {
  }

  /** The characters Python's `str.isspace` accepts, which `str.strip()` and
      `int()` discard around their argument. */
  predicate IsPySpace(c: char) {
    var n := c as int;
    (9 <= n <= 13) || (28 <= n <= 32) || n == 0x85 || n == 0xA0 || n == 0x1680
    || (0x2000 <= n <= 0x200A) || n == 0x2028 || n == 0x2029 || n == 0x202F
    || n == 0x205F || n == 0x3000
  }

  // ---------------------------------------------------------------------
  // Strings

  predicate IsPrefix<T(==)>(p: seq<T>, s: seq<T>) { |p| <= |s| && s[..|p|] == p }

  predicate IsSuffix<T(==)>(p: seq<T>, s: seq<T>) { |p| <= |s| && s[|s| - |p|..] == p }

  /** `sub in s` for Python strings. */
  predicate Contains(s: string, sub: string) {
    exists i :: 0 <= i <= |s| && IsPrefix(sub, s[i..])
  }

  function TrimStart(s: string): (r: string)
    ensures IsSuffix(r, s)
    ensures |r| > 0 ==> !IsPySpace(r[0])
    ensures forall i :: 0 <= i < |s| - |r| ==> IsPySpace(s[i])
  {
    if |s| > 0 && IsPySpace(s[0]) then TrimStart(s[1..]) else s
  }

  function TrimEnd(s: string): (r: string)
    ensures IsPrefix(r, s)
    ensures |r| > 0 ==> !IsPySpace(r[|r| - 1])
    ensures forall i :: |r| <= i < |s| ==> IsPySpace(s[i])
  {
    if |s| > 0 && IsPySpace(s[|s| - 1]) then TrimEnd(s[..|s| - 1]) else s
  }

  /** `s.strip()`: leading and trailing whitespace removed. */
  function Strip(s: string): (r: string)
    ensures |r| <= |s|
    ensures |r| > 0 ==> !IsPySpace(r[0]) && !IsPySpace(r[|r| - 1])
  {
    TrimEnd(TrimStart(s))
  }

  /** What `strip` removes is whitespace, and what it keeps is one slice. */
  lemma {:induction false} StripIsSlice(s: string)
    ensures var r := Strip(s); var i := |s| - |TrimStart(s)|;
      && i + |r| <= |s| && s[i..i + |r|] == r
      && (forall k :: 0 <= k < i ==> IsPySpace(s[k]))
      && (forall k :: i + |r| <= k < |s| ==> IsPySpace(s[k]))
  {
    StripKeepsSlice(s);
    StripDropsTail(s);
  }

  lemma {:induction false} StripKeepsSlice(s: string)
    ensures SliceAt(s, |s| - |TrimStart(s)|, Strip(s))
  {
    PrefixOfSuffix(s, TrimStart(s), Strip(s));
  }

  predicate SliceAt<T(==)>(s: seq<T>, i: int, r: seq<T>) {
    0 <= i && i + |r| <= |s| && s[i..i + |r|] == r
  }

  /** A prefix of a suffix is a slice. */
  lemma {:induction false} PrefixOfSuffix<T>(s: seq<T>, t: seq<T>, r: seq<T>)
    requires IsSuffix(t, s) && IsPrefix(r, t)
    ensures SliceAt(s, |s| - |t|, r)
  {
    assert s[|s| - |t|..][..|r|] == s[|s| - |t|..|s| - |t| + |r|];
  }

  lemma {:induction false} StripDropsTail(s: string)
    ensures var t := TrimStart(s); var r := TrimEnd(t); var i := |s| - |t|;
      forall k :: i + |r| <= k < |s| ==> IsPySpace(s[k])
  {
    var t := TrimStart(s);
    var r := TrimEnd(t);
    var i := |s| - |t|;
    assert s[i..] == t;
    forall k | i + |r| <= k < |s|
      ensures IsPySpace(s[k])
    {
      assert s[k] == t[k - i];
    }
  }

  /** A string with no whitespace at either end is its own strip. */
  lemma {:induction false} StripUntouched(s: string)
    requires |s| > 0 ==> !IsPySpace(s[0]) && !IsPySpace(s[|s| - 1])
    ensures Strip(s) == s
  {
  }

  /** `s.replace(a, b)` for single characters. */
  function Replace(s: string, a: char, b: char): (r: string)
    ensures |r| == |s|
    ensures forall i :: 0 <= i < |s| ==> r[i] == if s[i] == a then b else s[i]
  {
    if |s| == 0 then [] else [if s[0] == a then b else s[0]] + Replace(s[1..], a, b)
  }

  /** Replacing a character that does not occur changes nothing. */
  lemma {:induction false} ReplaceAbsent(s: string, a: char, b: char)
    requires a !in s
    ensures Replace(s, a, b) == s
  {
  }

  /** Position of the first occurrence of `c`. */
  function IndexOf(s: string, c: char): (i: nat)
    requires c in s
    ensures i < |s| && s[i] == c && c !in s[..i]
  {
    if s[0] == c then 0 else
      var j := IndexOf(s[1..], c);
      assert s[1..][..j] == s[1..j + 1];
      j + 1
  }

  /** `s.split(sep)` for a one-character separator: the pieces between
      consecutive separators, always at least one. */
  function Split(s: string, sep: char): (parts: seq<string>)
    ensures |parts| >= 1
    ensures forall k :: 0 <= k < |parts| ==> sep !in parts[k]
    decreases |s|
  {
    if sep !in s then [s]
    else
      var i := IndexOf(s, sep);
      [s[..i]] + Split(s[i + 1..], sep)
  }

  /** A string holding the separator splits into at least two pieces. */
  lemma {:induction false} SplitHasTwo(s: string, sep: char)
    requires sep in s
    ensures |Split(s, sep)| >= 2
  {
  }

  lemma {:induction false} IndexOfAfter(a: string, c: char, b: string)
    requires c !in a
    ensures c in a + [c] + b && IndexOf(a + [c] + b, c) == |a|
    decreases |a|
  {
    var s := a + [c] + b;
    assert s[|a|] == c;
    if |a| > 0 {
      assert s[1..] == a[1..] + [c] + b;
      IndexOfAfter(a[1..], c, b);
    }
  }

  /** The first piece of a split is everything up to the first separator. */
  lemma {:induction false} SplitAfter(a: string, c: char, b: string)
    requires c !in a
    ensures Split(a + [c] + b, c) == [a] + Split(b, c)
  {
    var s := a + [c] + b;
    IndexOfAfter(a, c, b);
    assert s[..|a|] == a;
    assert s[|a| + 1..] == b;
  }

  lemma {:induction false} HeadTail<T>(s: seq<T>)
    requires |s| > 0
    ensures [s[0]] + s[1..] == s
  {
  }

  /** `sep.join(parts)`. */
  function Join(parts: seq<string>, sep: char): string
  {
    if |parts| == 0 then ""
    else if |parts| == 1 then parts[0]
    else parts[0] + [sep] + Join(parts[1..], sep)
  }

  /** Joining pieces free of the separator and splitting again gives the
      pieces back. */
  lemma {:induction false} SplitJoin(parts: seq<string>, sep: char)
    requires |parts| >= 1
    requires forall k :: 0 <= k < |parts| ==> sep !in parts[k]
    ensures Split(Join(parts, sep), sep) == parts
  {
    if |parts| > 1 {
      var tail := parts[1..];
      assert forall k :: 0 <= k < |tail| ==> tail[k] == parts[k + 1];
      SplitJoin(tail, sep);
      var rest := Join(tail, sep);
      assert Join(parts, sep) == parts[0] + [sep] + rest;
      SplitAfter(parts[0], sep, rest);
      HeadTail(parts);
    }
  }

  /** Splitting loses nothing: joining the pieces back gives the input. */
  lemma {:induction false} JoinSplit(s: string, sep: char)
    ensures Join(Split(s, sep), sep) == s
    decreases |s|
  {
    if sep in s {
      var i := IndexOf(s, sep);
      var rest := s[i + 1..];
      JoinSplit(rest, sep);
      var parts := Split(s, sep);
      assert parts == [s[..i]] + Split(rest, sep);
      assert parts[1..] == Split(rest, sep);
      assert Join(parts, sep) == s[..i] + [sep] + Join(parts[1..], sep);
      assert s == s[..i] + [sep] + rest;
    }
  }

  /** The pieces are the maximal separator-free runs: there is one more piece
      than there are separators. */
  function CountChar(s: string, c: char): nat
  {
    if |s| == 0 then 0 else (if s[0] == c then 1 else 0) + CountChar(s[1..], c)
  }

  lemma {:induction false} CountCharAppend(a: string, b: string, c: char)
    ensures CountChar(a + b, c) == CountChar(a, c) + CountChar(b, c)
    decreases |a|
  {
    if |a| == 0 {
      assert a + b == b;
    } else {
      assert (a + b)[0] == a[0];
      assert (a + b)[1..] == a[1..] + b;
      CountCharAppend(a[1..], b, c);
    }
  }

  lemma {:induction false} CountCharAbsent(s: string, c: char)
    requires c !in s
    ensures CountChar(s, c) == 0
  {
    if |s| > 0 {
      assert forall k :: 0 <= k < |s[1..]| ==> s[1..][k] == s[k + 1];
      CountCharAbsent(s[1..], c);
    }
  }

  lemma {:induction false} SplitCount(s: string, sep: char)
    ensures |Split(s, sep)| == CountChar(s, sep) + 1
    decreases |s|
  {
    if sep !in s {
      CountCharAbsent(s, sep);
    } else {
      var i := IndexOf(s, sep);
      SplitCount(s[i + 1..], sep);
      assert s == s[..i] + [sep] + s[i + 1..];
      CountCharAppend(s[..i] + [sep], s[i + 1..], sep);
      CountCharAppend(s[..i], [sep], sep);
      CountCharAbsent(s[..i], sep);
      assert CountChar([sep], sep) == 1;
    }
  }

  // ---------------------------------------------------------------------
  // Decimal integers

  predicate AllDigits(s: string) { forall k :: 0 <= k < |s| ==> IsDigit(s[k]) }

  function DigitValue(c: char): nat
    requires IsDigit(c)
  {
    c as int - '0' as int
  }

  function DigitChar(d: nat): (c: char)
    requires d < 10
    ensures IsDigit(c) && DigitValue(c) == d
  {
    ('0' as int + d) as char
  }

  /** The value of a string of decimal digits, most significant first. */
  function DigitsValue(s: string): nat
    requires AllDigits(s)
  {
    if |s| == 0 then 0 else DigitsValue(s[..|s| - 1]) * 10 + DigitValue(s[|s| - 1])
  }

  /** `str(n)` for a non-negative integer. */
  function NatToString(n: nat): (r: string)
    ensures |r| > 0 && AllDigits(r)
    ensures |r| > 1 ==> r[0] != '0'
  {
    if n < 10 then [DigitChar(n)] else NatToString(n / 10) + [DigitChar(n % 10)]
  }

  /** `str(n)`: a minus sign only for negative values. */
  function IntToString(n: int): (r: string)
    ensures |r| > 0
    ensures r[0] == '-' <==> n < 0
  {
    if n < 0 then "-" + NatToString(-n) else NatToString(n)
  }

  /** Printing a number and reading it back gives the number. */
  lemma {:induction false} NatToStringValue(n: nat)
    ensures DigitsValue(NatToString(n)) == n
  {
    if n >= 10 {
      NatToStringValue(n / 10);
      var s := NatToString(n);
      assert s[..|s| - 1] == NatToString(n / 10);
    }
  }

  /** The digit body `int()` accepts once the sign is removed: digits, with
      single underscores allowed between two digits. */
  predicate DigitBody(s: string) {
    && |s| > 0
    && IsDigit(s[0]) && IsDigit(s[|s| - 1])
    && (forall k :: 0 <= k < |s| ==> IsDigit(s[k]) || s[k] == '_')
    && (forall k :: 0 <= k < |s| - 1 ==> !(s[k] == '_' && s[k + 1] == '_'))
  }

  function DropUnderscores(s: string): (r: string)
    requires forall k :: 0 <= k < |s| ==> IsDigit(s[k]) || s[k] == '_'
    ensures AllDigits(r)
  {
    if |s| == 0 then ""
    else (if s[0] == '_' then "" else [s[0]]) + DropUnderscores(s[1..])
  }

  lemma {:induction false} DropUnderscoresDigits(s: string)
    requires AllDigits(s)
    ensures DropUnderscores(s) == s
  {
    if |s| > 0 {
      assert AllDigits(s[1..]);
      DropUnderscoresDigits(s[1..]);
      assert s == [s[0]] + s[1..];
    }
  }

  const IntError := "invalid literal for int() with base 10"

  /** `int(s)` for a base-10 string: surrounding whitespace, an optional sign,
      and a digit body; anything else raises `ValueError`. Only ASCII digits
      are modelled. */
  function ParsePyInt(s: string): (r: Result<int>)
    ensures r.Err? ==> r.error == IntError
  {
    ParseSigned(Strip(s))
  }

  /** An optional sign followed by a digit body, with nothing around it. */
  function ParseSigned(t: string): (r: Result<int>)
    ensures r.Err? ==> r.error == IntError
  {
    if |t| == 0 then Err(IntError)
    else
      var body := if t[0] == '-' || t[0] == '+' then t[1..] else t;
      match BodyValue(body)
      case None => Err(IntError)
      case Some(v) =>
        var magnitude: int := v;
        Ok(if t[0] == '-' then -magnitude else magnitude)
  }

  function BodyValue(body: string): Option<nat>
  {
    if DigitBody(body) then Some(DigitsValue(DropUnderscores(body))) else None
  }

  lemma {:induction false} BodyValueDigits(d: string)
    requires |d| > 0 && AllDigits(d)
    ensures BodyValue(d) == Some(DigitsValue(d))
  {
    assert DigitBody(d);
    DropUnderscoresDigits(d);
  }

  /** A plain digit string reads as its decimal value. */
  lemma {:induction false} ParseDigits(s: string)
    requires |s| > 0 && AllDigits(s)
    ensures ParsePyInt(s).Ok? && ParsePyInt(s).value == DigitsValue(s)
  {
    assert IsDigit(s[0]) && IsDigit(s[|s| - 1]);
    StripUntouched(s);
    SignedDigits(s);
  }

  lemma {:induction false} SignedDigits(s: string)
    requires |s| > 0 && AllDigits(s)
    ensures ParseSigned(s) == Ok(DigitsValue(s))
  {
    assert IsDigit(s[0]);
    BodyValueDigits(s);
  }

  /** A minus sign followed by digits reads as the negated value. */
  lemma {:induction false} ParseNegatedDigits(d: string)
    requires |d| > 0 && AllDigits(d)
    ensures ParsePyInt("-" + d).Ok? && ParsePyInt("-" + d).value == 0 - DigitsValue(d) as int
  {
    var s := "-" + d;
    assert s[0] == '-' && s[|s| - 1] == d[|d| - 1];
    assert IsDigit(s[|s| - 1]);
    StripUntouched(s);
    SignedNegated(s);
  }

  lemma {:induction false} SignedNegated(s: string)
    requires |s| > 1 && s[0] == '-' && AllDigits(s[1..])
    ensures ParseSigned(s) == Ok(0 - DigitsValue(s[1..]) as int)
  {
    BodyValueDigits(s[1..]);
  }

  /** `int(str(n)) == n`. */
  lemma {:induction false} ParseIntToString(n: int)
    ensures ParsePyInt(IntToString(n)).Ok? && ParsePyInt(IntToString(n)).value == n
  {
    if n < 0 {
      NatToStringValue(-n);
      ParseNegatedDigits(NatToString(-n));
    } else {
      NatToStringValue(n);
      ParseDigits(NatToString(n));
    }
  }
}

=== FILE: dashboard.dfy ===
/** The coach dashboard's decision rules: where the athlete stands in the
    plan, how old the FTP test is, the ability class, the recommended
    training system, the primary limiter, the coaching priorities, the risk
    level and the status colours. Every `.get(key, default)` of the original
    is applied before these functions see their inputs. */
module Dashboard {
  import opened Common
  import opened Dates
  import opened FormValues

  // ---------------------------------------------------------------------
  // Dates and weeks

  /** `calculate_days_until`: days from today to the date, or `None` when
      the text is missing, empty or not a date. */
  function DaysUntil(dateText: Option<string>, today: Date): (r: Option<int>)
    requires Valid(today)
    ensures r.Some? <==> dateText.Some? && |dateText.value| > 0 && ParseIsoDate(dateText.value).Some?
    ensures r.Some? ==> r.value == DaysBetween(today, ParseIsoDate(dateText.value).value)
  {
    if dateText.None? || |dateText.value| == 0 then None
    else
      match ParseIsoDate(dateText.value)
      case None => None
      case Some(target) => Some(DaysBetween(today, target))
  }

  function Max(a: int, b: int): int { if a >= b then a else b }
  function Min(a: int, b: int): int { if a <= b then a else b }

  /** `calculate_current_week` once the day count is known: the plan week
      that `days_until // 7` weeks before the race falls in, clamped to the
      plan. */
  function CurrentWeek(daysUntil: Option<int>, planWeeks: int): (r: Option<int>)
    ensures r.None? <==> daysUntil.None? || planWeeks == 0
    ensures r.Some? ==> r.value >= 1
    ensures r.Some? && planWeeks >= 1 ==> r.value <= planWeeks
  {
    if daysUntil.None? || planWeeks == 0 then None
    else
      var weeksUntil := daysUntil.value / 7;
      Some(Max(1, Min(planWeeks - weeksUntil, planWeeks)))
  }

  /** Where the clamp does not bite, week `w` is the one whose seven-day
      countdown window holds the day count; a race already run, or less than
      a week away, gives the last week, and the first week absorbs every
      count from `7 * (planWeeks - 1)` on. */
  lemma {:induction false} CurrentWeekWindow(days: int, planWeeks: int)
    requires planWeeks >= 1
    ensures var w := CurrentWeek(Some(days), planWeeks).value;
      && (1 < w < planWeeks ==> 7 * (planWeeks - w) <= days < 7 * (planWeeks - w + 1))
      && (days < 7 ==> w == planWeeks)
      && (w == 1 <==> planWeeks == 1 || days >= 7 * (planWeeks - 1))
  {
    var q := days / 7;
    assert 7 * q <= days < 7 * q + 7;
    var w := CurrentWeek(Some(days), planWeeks).value;
    assert w == Max(1, Min(planWeeks - q, planWeeks));
    if days < 7 {
      assert q <= 0;
    }
    if q >= planWeeks - 1 {
      assert days >= 7 * (planWeeks - 1);
    } else {
      assert q + 1 <= planWeeks - 1;
      assert days < 7 * (planWeeks - 1);
      if planWeeks > 1 {
        assert planWeeks - q >= 2;
        assert Min(planWeeks - q, planWeeks) >= 2;
      }
    }
  }

  /** `calculate_ftp_age_weeks`: whole weeks since the test, rounded down. */
  function FtpAgeWeeks(ftpDate: Option<string>, today: Date): (r: Option<int>)
    requires Valid(today)
    ensures r.Some? <==> ftpDate.Some? && |ftpDate.value| > 0 && ParseIsoDate(ftpDate.value).Some?
    ensures r.Some? ==>
      var days := DaysBetween(ParseIsoDate(ftpDate.value).value, today);
      7 * r.value <= days < 7 * r.value + 7
  {
    if ftpDate.None? || |ftpDate.value| == 0 then None
    else
      match ParseIsoDate(ftpDate.value)
      case None => None
      case Some(test) => Some(DaysBetween(test, today) / 7)
  }

  // ---------------------------------------------------------------------
  // Ability

  datatype Ability =
    | MastersAdvanced | MastersIntermediate | MastersBeginner
    | Advanced | Intermediate | Beginner

  predicate IsMasters(a: Ability) {
    a == MastersAdvanced || a == MastersIntermediate || a == MastersBeginner
  }

  function AbilityText(a: Ability): string {
    match a
    case MastersAdvanced => "MASTERS ADVANCED"
    case MastersIntermediate => "MASTERS INTERMEDIATE"
    case MastersBeginner => "MASTERS BEGINNER"
    case Advanced => "ADVANCED"
    case Intermediate => "INTERMEDIATE"
    case Beginner => "BEGINNER"
  }

  /** Defaults: years cycling "0-2", 0 structured years, 0 W/kg, consistency
      "none", age 0. */
  datatype AbilityInputs = AbilityInputs(
    yearsCycling: string, yearsStructured: int, wattsPerKg: real, consistency: string, age: int)

  /** `classify_rider_ability`. */
  function ClassifyRiderAbility(x: AbilityInputs): (r: Ability)
    ensures IsMasters(r) <==> x.age >= 40
    ensures r == MastersAdvanced <==> x.age >= 40 && x.yearsStructured >= 5 && x.wattsPerKg >= 3.5
    ensures x.age >= 40 && !(x.yearsStructured >= 5 && x.wattsPerKg >= 3.5) ==>
      (r == MastersIntermediate <==> x.yearsStructured >= 2)
    ensures r == Advanced <==>
      (x.age < 40 && (x.yearsCycling == "10+" || x.yearsCycling == "6-10") && x.yearsStructured >= 5 && x.wattsPerKg >= 4.0)
    ensures x.age < 40 ==> (r == Beginner <==> x.yearsStructured < 1 && x.consistency != "consistent")
  {
    if x.age >= 40 then
      if x.yearsStructured >= 5 && x.wattsPerKg >= 3.5 then MastersAdvanced
      else if x.yearsStructured >= 2 then MastersIntermediate
      else MastersBeginner
    else if (x.yearsCycling == "10+" || x.yearsCycling == "6-10") && x.yearsStructured >= 5 && x.wattsPerKg >= 4.0 then
      Advanced
    else if x.yearsStructured >= 3 && x.wattsPerKg >= 3.5 then Intermediate
    else if x.yearsStructured >= 1 || x.consistency == "consistent" then Intermediate
    else Beginner
  }

  /** More structured years never lower the class, age and the rest fixed. */
  lemma {:induction false} AbilityGrowsWithExperience(x: AbilityInputs, more: int)
    requires more >= x.yearsStructured
    ensures AbilityRank(ClassifyRiderAbility(x)) <= AbilityRank(ClassifyRiderAbility(x.(yearsStructured := more)))
  {
  }

  function AbilityRank(a: Ability): int {
    match a
    case MastersBeginner => 0
    case MastersIntermediate => 1
    case MastersAdvanced => 2
    case Beginner => 0
    case Intermediate => 1
    case Advanced => 2
  }

  // ---------------------------------------------------------------------
  // Tier reasoning

  /** The clauses of the reasoning line. */
  datatype Clause =
    | Available(hours: int)
    | Current(hours: int)
    | Sustain(hours: int)
    | Mismatch(goal: string, tier: string)

  function ClauseText(c: Clause): string {
    match c
    case Available(h) => IntToString(h) + "h available"
    case Current(h) => ", " + IntToString(h) + "h current"
    case Sustain(h) => ", can sustain " + IntToString(h) + "h"
    case Mismatch(goal, tier) => " (goal mismatch: " + goal + " with " + tier + " tier)"
  }

  predicate IsLowTier(tier: string) { tier == "ayahuasca" || tier == "finisher" }

  /** Where a clause kind stands in the line. */
  function ClauseRank(c: Clause): nat {
    match c
    case Available(_) => 0
    case Current(_) => 1
    case Sustain(_) => 2
    case Mismatch(_, _) => 3
  }

  function Count(b: bool): nat { if b then 1 else 0 }

  /** `get_tier_reasoning` as its clauses. Defaults: hours 0, goal
      "finish", tier "compete". */
  function TierReasoning(hours: int, current: int, peak: int, goal: string, tier: string): (r: seq<Clause>)
    ensures |r| >= 1 && r[0] == Available(hours)
    ensures Current(current) in r <==> current > 0
    ensures Sustain(peak) in r <==> peak > 0
    ensures Mismatch(goal, tier) in r <==> goal != "finish" && IsLowTier(tier)
    ensures forall i :: 1 <= i < |r| ==> !r[i].Available?
    ensures |r| == 1 + Count(current > 0) + Count(peak > 0) + Count(goal != "finish" && IsLowTier(tier))
    ensures forall i, j :: 0 <= i < j < |r| ==> ClauseRank(r[i]) < ClauseRank(r[j])
  {
    [Available(hours)]
    + (if current > 0 then [Current(current)] else [])
    + (if peak > 0 then [Sustain(peak)] else [])
    + (if goal != "finish" && IsLowTier(tier) then [Mismatch(goal, tier)] else [])
  }

  function ClausesText(cs: seq<Clause>): string {
    if |cs| == 0 then "" else ClauseText(cs[0]) + ClausesText(cs[1..])
  }

  /** The reasoning line always opens with the available hours. */
  lemma {:induction false} ReasoningStartsWithHours(hours: int, current: int, peak: int, goal: string, tier: string)
    ensures IsPrefix(IntToString(hours) + "h available",
                     ClausesText(TierReasoning(hours, current, peak, goal, tier)))
  {
    var cs := TierReasoning(hours, current, peak, goal, tier);
    var head := IntToString(hours) + "h available";
    assert ClausesText(cs) == head + ClausesText(cs[1..]);
    assert (head + ClausesText(cs[1..]))[..|head|] == head;
  }

  // ---------------------------------------------------------------------
  // Training system

  datatype System = BlockPeriodization | PolarizedToBlock | Polarized | PolarizedFoundation

  function SystemText(s: System): string {
    match s
    case BlockPeriodization => "BLOCK PERIODIZATION"
    case PolarizedToBlock => "POLARIZED → BLOCK (transition)"
    case Polarized => "POLARIZED"
    case PolarizedFoundation => "POLARIZED (foundation)"
  }

  /** `recommend_training_system`. Defaults: tier "compete", 0 structured
      years, preference "". */
  function RecommendTrainingSystem(tier: string, yearsStructured: int, preferred: string): (r: System)
    ensures r == BlockPeriodization <==> tier == "podium" && yearsStructured >= 5
    ensures r == PolarizedToBlock <==>
      (tier == "compete" || (tier == "podium" && yearsStructured < 5)) && yearsStructured >= 3
      && Contains(Lower(preferred), "polarized")
    ensures r == Polarized <==>
      tier == "finisher"
      || ((tier == "compete" || (tier == "podium" && yearsStructured < 5)) && yearsStructured >= 3
          && !Contains(Lower(preferred), "polarized"))
    ensures tier != "compete" && tier != "podium" && tier != "finisher" ==> r == PolarizedFoundation
  {
    if tier == "podium" && yearsStructured >= 5 then BlockPeriodization
    else if (tier == "compete" || tier == "podium") && yearsStructured >= 3 then
      if Contains(Lower(preferred), "polarized") then PolarizedToBlock else Polarized
    else if tier == "finisher" then Polarized
    else PolarizedFoundation
  }

  // ---------------------------------------------------------------------
  // Limiter

  datatype Limiter =
    | FuelingLimiter | NoFtpLimiter | PowerLimiter | SleepLimiter | AlcoholLimiter | ConsistencyLimiter
    | NoLimiter

  function LimiterText(l: Limiter): string {
    match l
    case FuelingLimiter => "DURABILITY (fueling)"
    case NoFtpLimiter => "DURABILITY (no long ride data)"
    case PowerLimiter => "POWER (low W/kg)"
    case SleepLimiter => "RECOVERY (sleep)"
    case AlcoholLimiter => "RECOVERY (alcohol)"
    case ConsistencyLimiter => "CONSISTENCY"
    case NoLimiter => "NONE IDENTIFIED"
  }

  /** Defaults: fuelling "" (absent), FTP 0 (absent), W/kg 0, sleep "",
      alcohol 0, last twelve weeks "". */
  datatype LimiterInputs = LimiterInputs(
    fuels: string, ftpWatts: int, wattsPerKg: real, sleepQuality: string, alcohol: int, last12Weeks: string)

  const LimiterOrder: seq<Limiter> :=
    [FuelingLimiter, NoFtpLimiter, PowerLimiter, SleepLimiter, AlcoholLimiter, ConsistencyLimiter]

  /** When each limiter applies. */
  predicate Fires(l: Limiter, x: LimiterInputs) {
    match l
    case FuelingLimiter => x.fuels == "rarely"
    case NoFtpLimiter => x.ftpWatts == 0
    case PowerLimiter => x.wattsPerKg < 3.0
    case SleepLimiter => x.sleepQuality == "poor"
    case AlcoholLimiter => x.alcohol > 10
    case ConsistencyLimiter => x.last12Weeks == "sporadic"
    case NoLimiter => false
  }

  /** The limiters that apply, in the fixed order. */
  function Limiters(order: seq<Limiter>, x: LimiterInputs): (r: seq<Limiter>)
    ensures forall l :: l in r <==> l in order && Fires(l, x)
  {
    if |order| == 0 then []
    else (if Fires(order[0], x) then [order[0]] else []) + Limiters(order[1..], x)
  }

  /** `identify_limiter`: the first entry of the list, or "NONE IDENTIFIED". */
  function IdentifyLimiter(x: LimiterInputs): (r: Limiter)
    ensures r == NoLimiter <==> forall l :: l in LimiterOrder ==> !Fires(l, x)
    ensures r != NoLimiter ==> r in LimiterOrder && Fires(r, x)
  {
    var found := Limiters(LimiterOrder, x);
    if |found| > 0 then
      assert found[0] in found;
      found[0]
    else NoLimiter
  }

  /** The head of the filtered list is the first entry of the order that
      applies. */
  lemma {:induction false} LimitersHead(order: seq<Limiter>, x: LimiterInputs)
    requires |Limiters(order, x)| > 0
    ensures exists i :: 0 <= i < |order| && order[i] == Limiters(order, x)[0]
                        && forall j :: 0 <= j < i ==> !Fires(order[j], x)
  {
    if !Fires(order[0], x) {
      LimitersHead(order[1..], x);
      var i :| 0 <= i < |order[1..]| && order[1..][i] == Limiters(order[1..], x)[0]
               && forall j :: 0 <= j < i ==> !Fires(order[1..][j], x);
      assert order[i + 1] == Limiters(order, x)[0];
      forall j | 0 <= j < i + 1
        ensures !Fires(order[j], x)
      {
        if j > 0 { assert order[j] == order[1..][j - 1]; }
      }
    } else {
      assert order[0] == Limiters(order, x)[0];
    }
  }

  /** The limiter named is the first in the fixed order that applies. */
  lemma {:induction false} LimiterIsFirst(x: LimiterInputs, i: int)
    requires 0 <= i < |LimiterOrder| && LimiterOrder[i] == IdentifyLimiter(x)
    ensures forall j :: 0 <= j < i ==> !Fires(LimiterOrder[j], x)
  {
    var found := Limiters(LimiterOrder, x);
    assert Fires(LimiterOrder[i], x);
    assert LimiterOrder[i] in found;
    LimitersHead(LimiterOrder, x);
    var k :| 0 <= k < |LimiterOrder| && LimiterOrder[k] == found[0]
             && forall j :: 0 <= j < k ==> !Fires(LimiterOrder[j], x);
    LimiterOrderDistinct();
    assert k == i;
  }

  /** Each limiter appears once in the order. */
  lemma {:induction false} LimiterOrderDistinct()
    ensures forall a, b :: 0 <= a < b < |LimiterOrder| ==> LimiterOrder[a] != LimiterOrder[b]
  {
  }

  /** Without a W/kg value the power limiter applies, so some limiter is
      always named. */
  lemma {:induction false} MissingWattsPerKgNamesALimiter(x: LimiterInputs)
    requires x.wattsPerKg == 0.0
    ensures IdentifyLimiter(x) != NoLimiter
  {
    assert Fires(PowerLimiter, x) && PowerLimiter in LimiterOrder;
  }

  // ---------------------------------------------------------------------
  // Coaching priorities

  datatype Priority =
    | RetestFtp(weeks: int)
    | EstablishFtp
    | FuelingProtocol
    | LongRide
    | AlcoholImpact(drinks: int)
    | OptimizeSleep(quality: string, hours: real)
    | VerifyExclusions(count: nat)

  /** The kind of a priority, in the order candidates are listed; the two
      FTP items share a kind. */
  function Kind(p: Priority): nat {
    match p
    case RetestFtp(_) => 0
    case EstablishFtp => 0
    case FuelingProtocol => 1
    case LongRide => 2
    case AlcoholImpact(_) => 3
    case OptimizeSleep(_, _) => 4
    case VerifyExclusions(_) => 5
  }

  /** Defaults: no FTP age, FTP 0 (absent), fuelling "", alcohol 0, sleep
      quality "", sleep hours 0, no exclusions. */
  datatype PriorityInputs = PriorityInputs(
    ftpAge: Option<int>, ftpWatts: int, fuels: string, alcohol: int,
    sleepQuality: string, sleepHours: real, exclusions: nat)

  predicate RetestDue(x: PriorityInputs) { x.ftpAge.Some? && x.ftpAge.value > 8 }

  /** What an item reports is what its rule read: the FTP test's age, the
      weekly drinks, the sleep quality and hours, the exclusion count; an
      FTP baseline item only when no retest is due. */
  predicate Reports(p: Priority, x: PriorityInputs) {
    match p
    case RetestFtp(weeks) => RetestDue(x) && weeks == x.ftpAge.value
    case EstablishFtp => !RetestDue(x) && x.ftpWatts == 0
    case AlcoholImpact(drinks) => drinks == x.alcohol
    case OptimizeSleep(quality, hours) => quality == x.sleepQuality && hours == x.sleepHours
    case VerifyExclusions(count) => count == x.exclusions
    case _ => true
  }

  /** Whether the candidate of each kind is listed, kind by kind. */
  function Flags(x: PriorityInputs): (f: seq<bool>)
    ensures |f| == 6
  {
    [ RetestDue(x) || x.ftpWatts == 0,
      x.fuels == "rarely",
      x.ftpWatts == 0,
      x.alcohol > 7,
      x.sleepQuality == "poor" || (x.sleepHours != 0.0 && x.sleepHours < 7.0),
      x.exclusions > 0 ]
  }

  predicate KindFires(k: nat, x: PriorityInputs) {
    k <= 5 && Flags(x)[k]
  }

  /** The candidate of one kind, if it is listed. */
  function Slot(k: nat, x: PriorityInputs): (r: seq<Priority>)
    ensures |r| <= 1
    ensures |r| == 1 <==> KindFires(k, x)
    ensures forall p :: p in r ==> Kind(p) == k && Reports(p, x)
  {
    if k == 0 then
      (if RetestDue(x) then [RetestFtp(x.ftpAge.value)] else if x.ftpWatts == 0 then [EstablishFtp] else [])
    else if k == 1 then (if x.fuels == "rarely" then [FuelingProtocol] else [])
    else if k == 2 then (if x.ftpWatts == 0 then [LongRide] else [])
    else if k == 3 then (if x.alcohol > 7 then [AlcoholImpact(x.alcohol)] else [])
    else if k == 4 then
      (if x.sleepQuality == "poor" || (x.sleepHours != 0.0 && x.sleepHours < 7.0)
       then [OptimizeSleep(x.sleepQuality, x.sleepHours)] else [])
    else if k == 5 then (if x.exclusions > 0 then [VerifyExclusions(x.exclusions)] else [])
    else []
  }

  /** The candidates of kinds `k` to 5, in the order they are appended. */
  function CandidatesFrom(k: nat, x: PriorityInputs): (r: seq<Priority>)
    requires k <= 6
    ensures |r| <= 6 - k
    ensures forall i :: 0 <= i < |r| ==> k + i <= Kind(r[i]) <= 5
    ensures forall i, j :: 0 <= i < j < |r| ==> Kind(r[i]) < Kind(r[j])
    ensures forall p :: p in r ==> Reports(p, x)
    decreases 6 - k
  {
    if k == 6 then []
    else Slot(k, x) + CandidatesFrom(k + 1, x)
  }

  /** Every candidate's kind fires. */
  lemma {:induction false} CandidatesFromFire(k: nat, x: PriorityInputs)
    requires k <= 6
    ensures forall p :: p in CandidatesFrom(k, x) ==> KindFires(Kind(p), x)
    decreases 6 - k
  {
    if k < 6 {
      CandidatesFromFire(k + 1, x);
      assert CandidatesFrom(k, x) == Slot(k, x) + CandidatesFrom(k + 1, x);
    }
  }

  /** Every kind that fires has its candidate. */
  lemma {:induction false} CandidatesFromCover(k: nat, x: PriorityInputs)
    requires k <= 6
    ensures forall j :: k <= j <= 5 && KindFires(j, x) ==> exists p :: p in CandidatesFrom(k, x) && Kind(p) == j
    decreases 6 - k
  {
    if k < 6 {
      CandidatesFromCover(k + 1, x);
      var head := Slot(k, x);
      var rest := CandidatesFrom(k + 1, x);
      assert CandidatesFrom(k, x) == head + rest;
      forall j | k + 1 <= j <= 5 && KindFires(j, x)
        ensures exists p :: p in head + rest && Kind(p) == j
      {
        var p :| p in rest && Kind(p) == j;
        assert p in head + rest;
      }
      if KindFires(k, x) {
        assert head[0] in head + rest;
      }
    }
  }

  /** The list is full exactly when every kind fires. */
  lemma {:induction false} CandidatesFromFull(k: nat, x: PriorityInputs)
    requires k <= 6
    ensures |CandidatesFrom(k, x)| == 6 - k <==> forall j :: k <= j <= 5 ==> KindFires(j, x)
    decreases 6 - k
  {
    if k < 6 {
      CandidatesFromFull(k + 1, x);
      assert CandidatesFrom(k, x) == Slot(k, x) + CandidatesFrom(k + 1, x);
    }
  }

  function Candidates(x: PriorityInputs): seq<Priority> {
    CandidatesFrom(0, x)
  }

  /** `generate_coaching_priorities`: the candidates, at most five, in the
      fixed order, each one because its rule fires. */
  function CoachingPriorities(x: PriorityInputs): (r: seq<Priority>)
    ensures |r| <= 5
    ensures forall i, j :: 0 <= i < j < |r| ==> Kind(r[i]) < Kind(r[j])
    ensures forall p :: p in r ==> KindFires(Kind(p), x)
    ensures forall p :: p in r ==> Reports(p, x)
  {
    var c := Candidates(x);
    CandidatesFromFire(0, x);
    assert forall p :: p in c ==> KindFires(Kind(p), x);
    if |c| <= 5 then c else c[..5]
  }

  /** The kinds whose rule fires. */
  function FiringKinds(x: PriorityInputs): set<nat> {
    set k: nat | k <= 5 && KindFires(k, x)
  }

  /** Keeping the first five of a list with one item per listed kind, in
      kind order: every listed kind below 5 survives, and kind 5 survives
      unless all six are listed. */
  lemma {:induction false} TruncateKinds(c: seq<Priority>, fired: set<nat>)
    requires |c| <= 6
    requires forall i :: 0 <= i < |c| ==> i <= Kind(c[i]) <= 5
    requires forall i, j :: 0 <= i < j < |c| ==> Kind(c[i]) < Kind(c[j])
    requires forall j :: j in fired <==> j <= 5 && exists p :: p in c && Kind(p) == j
    requires |c| == 6 <==> forall j: nat :: j <= 5 ==> j in fired
    ensures var r := if |c| <= 5 then c else c[..5];
      && (forall k: nat :: k < 5 && k in fired ==> exists p :: p in r && Kind(p) == k)
      && ((exists p :: p in r && Kind(p) == 5) <==> 5 in fired && exists k: nat :: k < 5 && k !in fired)
  {
    var r := if |c| <= 5 then c else c[..5];
    forall k: nat | k < 5 && k in fired
      ensures exists p :: p in r && Kind(p) == k
    {
      var p :| p in c && Kind(p) == k;
      var i :| 0 <= i < |c| && c[i] == p;
      assert r[i] == p;
    }
    if |c| == 6 {
      assert Kind(c[5]) == 5;
      assert Kind(c[4]) == 4;
      assert Kind(c[3]) == 3;
      assert Kind(c[2]) == 2;
      assert Kind(c[1]) == 1;
      assert Kind(c[0]) == 0;
      assert forall i :: 0 <= i < |r| ==> Kind(r[i]) == i;
    } else {
      assert r == c;
      if 5 in fired {
        var j: nat :| j <= 5 && j !in fired;
        assert j < 5;
      }
    }
  }

  /** The priorities are the candidates cut to five. */
  lemma {:induction false} CoachingIsTruncation(x: PriorityInputs)
    ensures CoachingPriorities(x) == if |Candidates(x)| <= 5 then Candidates(x) else Candidates(x)[..5]
  {
  }

  /** All six candidates are present exactly when every kind fires. */
  lemma {:induction false} FullWhenAllFire(x: PriorityInputs)
    ensures |Candidates(x)| == 6 <==> forall j: nat :: j <= 5 ==> j in FiringKinds(x)
  {
    FiringKindsListed(x);
    CandidatesFromFull(0, x);
  }

  /** Every kind among the first five that fires is listed. */
  lemma {:induction false} PrioritiesKeepFirstKinds(x: PriorityInputs)
    ensures forall k: nat :: k < 5 && KindFires(k, x) ==>
      exists p :: p in CoachingPriorities(x) && Kind(p) == k
  {
    var fired := FiringKinds(x);
    FiringKindsListed(x);
    FullWhenAllFire(x);
    CoachingIsTruncation(x);
    TruncateKinds(Candidates(x), fired);
  }

  /** The exclusions item is listed unless all six kinds fire. */
  lemma {:induction false} PrioritiesExclusionsItem(x: PriorityInputs)
    ensures (exists p :: p in CoachingPriorities(x) && Kind(p) == 5) <==>
      KindFires(5, x) && exists k: nat :: k < 5 && !KindFires(k, x)
  {
    var fired := FiringKinds(x);
    FiringKindsListed(x);
    FullWhenAllFire(x);
    CoachingIsTruncation(x);
    TruncateKinds(Candidates(x), fired);
  }

  /** The firing kinds are exactly the kinds of the candidates. */
  lemma {:induction false} FiringKindsListed(x: PriorityInputs)
    ensures forall j :: j in FiringKinds(x) <==> j <= 5 && exists p :: p in Candidates(x) && Kind(p) == j
    ensures forall j: nat :: j in FiringKinds(x) <==> j <= 5 && KindFires(j, x)
  {
    FiringKindsMembers(x);
    KindsOfCandidates(x);
  }

  lemma {:induction false} FiringKindsMembers(x: PriorityInputs)
    ensures forall j: nat :: j in FiringKinds(x) <==> j <= 5 && KindFires(j, x)
  {
  }

  /** A kind has a candidate exactly when it fires. */
  lemma {:induction false} KindsOfCandidates(x: PriorityInputs)
    ensures forall j: nat :: (j <= 5 && exists p :: p in Candidates(x) && Kind(p) == j) <==> j <= 5 && KindFires(j, x)
  {
    CandidatesFromCover(0, x);
    CandidatesFromFire(0, x);
  }

  /** At most one FTP item, and a stale test wins over a missing one. */
  lemma {:induction false} PrioritiesOneFtpItem(x: PriorityInputs)
    ensures RetestDue(x) ==> EstablishFtp !in CoachingPriorities(x)
    ensures forall i, j :: 0 <= i < j < |CoachingPriorities(x)| ==>
      Kind(CoachingPriorities(x)[i]) != 0 || Kind(CoachingPriorities(x)[j]) != 0
  {
    if RetestDue(x) {
      var c := Candidates(x);
      var r := CoachingPriorities(x);
      RetestExcludesEstablish(x);
      assert r == c[..|r|];
      assert forall p :: p in r ==> p in c;
    }
  }

  /** A due retest takes the FTP slot, so the baseline item is never a
      candidate. */
  lemma {:induction false} RetestExcludesEstablish(x: PriorityInputs)
    requires RetestDue(x)
    ensures EstablishFtp !in Candidates(x)
  {
    assert Slot(0, x) == [RetestFtp(x.ftpAge.value)];
    assert Candidates(x) == Slot(0, x) + CandidatesFrom(1, x);
    NoFtpItemLater(1, x);
  }

  /** Past the first kind there is no FTP item. */
  lemma {:induction false} NoFtpItemLater(k: nat, x: PriorityInputs)
    requires 1 <= k <= 6
    ensures EstablishFtp !in CandidatesFrom(k, x)
  {
    var r := CandidatesFrom(k, x);
    forall i | 0 <= i < |r|
      ensures r[i] != EstablishFtp
    {
      assert k + i <= Kind(r[i]);
    }
  }

  /** The truncation drops an item only when every kind is listed. */
  lemma {:induction false} PrioritiesTruncation(x: PriorityInputs)
    ensures var c := Candidates(x);
      var r := CoachingPriorities(x);
      && r == c[..|r|]
      && (|r| < |c| <==> forall k :: 0 <= k <= 5 ==> KindFires(k, x))
  {
    CandidatesFromFull(0, x);
  }

  /** Missing sleep hours read as 0 and never trigger the hours clause. */
  lemma {:induction false} SleepHoursZeroIgnored(x: PriorityInputs)
    requires x.sleepHours == 0.0 && x.sleepQuality != "poor"
    ensures forall p :: p in CoachingPriorities(x) ==> !p.OptimizeSleep?
  {
    assert !KindFires(4, x);
  }

  // ---------------------------------------------------------------------
  // Risk level

  datatype Risk = Low | Moderate | High

  function RiskRank(r: Risk): int {
    match r
    case Low => 0
    case Moderate => 1
    case High => 2
  }

  function RiskText(r: Risk): string {
    match r
    case Low => "LOW"
    case Moderate => "MODERATE"
    case High => "HIGH"
  }

  /** A current injury's severity ("" when absent). */
  datatype Injury = Injury(severity: string)

  predicate Serious(i: Injury) { i.severity == "moderate" || i.severity == "significant" }

  predicate LimitingValue(v: Value) {
    v.Str? && (v.s == "limited" || v.s == "significantly_limited" || v.s == "painful")
  }

  /** The inputs other than injuries, defaults applied ("" for an absent
      text, 0 for absent drinks); `limitations` are the values of the
      limitations mapping. */
  datatype RiskInputs = RiskInputs(
    stress: string, sleepQuality: string, limitations: seq<Value>, travel: string,
    alcohol: int, fuels: string)

  predicate ModerateSignal(x: RiskInputs) {
    || x.stress == "high" || x.stress == "very_high"
    || x.sleepQuality == "poor"
    || (exists v :: v in x.limitations && LimitingValue(v))
    || x.travel == "frequent"
    || x.alcohol > 10
    || x.fuels == "rarely"
  }

  /** `get_risk_level`: the worst signal decides. */
  function RiskLevel(injuries: seq<Injury>, x: RiskInputs): (r: Risk)
    ensures r == High <==> exists i :: i in injuries && Serious(i)
    ensures r == Low <==> |injuries| == 0 && !ModerateSignal(x)
  {
    if |injuries| > 0 && AnySerious(injuries) then High
    else if |injuries| > 0 then Moderate
    else if x.stress == "high" || x.stress == "very_high" then Moderate
    else if x.sleepQuality == "poor" then Moderate
    else if |x.limitations| > 0 && AnyLimiting(x.limitations) then Moderate
    else if x.travel == "frequent" then Moderate
    else if x.alcohol > 10 then Moderate
    else if x.fuels == "rarely" then Moderate
    else Low
  }

  function AnySerious(injuries: seq<Injury>): (b: bool)
    ensures b <==> exists i :: i in injuries && Serious(i)
  {
    if |injuries| == 0 then false
    else Serious(injuries[0]) || AnySerious(injuries[1..])
  }

  function AnyLimiting(values: seq<Value>): (b: bool)
    ensures b <==> exists v :: v in values && LimitingValue(v)
  {
    if |values| == 0 then false
    else LimitingValue(values[0]) || AnyLimiting(values[1..])
  }

  /** Reporting another injury never lowers the risk level. */
  lemma {:induction false} MoreInjuriesNoLowerRisk(injuries: seq<Injury>, extra: Injury, x: RiskInputs)
    ensures RiskRank(RiskLevel(injuries, x)) <= RiskRank(RiskLevel(injuries + [extra], x))
  {
    if exists i :: i in injuries && Serious(i) {
      var i :| i in injuries && Serious(i);
      assert i in injuries + [extra];
    }
  }

  // ---------------------------------------------------------------------
  // Status colours

  datatype Status = NoStatus | Good | Warning | Danger

  function StatusClass(s: Status): string {
    match s
    case NoStatus => ""
    case Good => "status-good"
    case Warning => "status-warning"
    case Danger => "status-danger"
  }

  /** `get_consistency_class`. */
  function ConsistencyClass(consistency: Option<string>): (r: Status)
    ensures r == Good <==> consistency == Some("consistent")
    ensures r == Warning <==> consistency == Some("sporadic")
    ensures r == Danger <==> consistency == Some("none")
  {
    match consistency
    case Some(c) =>
      if c == "consistent" then Good
      else if c == "sporadic" then Warning
      else if c == "none" then Danger
      else NoStatus
    case None => NoStatus
  }

  /** `get_days_class`: days since the last ride. */
  function DaysClass(days: Option<int>): (r: Status)
    ensures r == NoStatus <==> days.None?
    ensures r == Good <==> days.Some? && days.value <= 3
    ensures r == Warning <==> days.Some? && 3 < days.value <= 7
    ensures r == Danger <==> days.Some? && days.value > 7
  {
    match days
    case None => NoStatus
    case Some(d) => if d <= 3 then Good else if d <= 7 then Warning else Danger
  }

  /** More days since the last ride never improve the status. */
  lemma {:induction false} DaysClassMonotone(a: int, b: int)
    requires a <= b
    ensures StatusRank(DaysClass(Some(a))) <= StatusRank(DaysClass(Some(b)))
  {
  }

  function StatusRank(s: Status): int {
    match s
    case NoStatus => 0
    case Good => 1
    case Warning => 2
    case Danger => 3
  }
}

=== FILE: dates.dfy ===
/** Calendar dates as the scripts read them: `datetime.strptime(s, "%Y-%m-%d")`
    with its exact field grammar and range checks, chronological comparison,
    and day counts (`(b - a).days`) through proleptic Gregorian ordinals. */
module Dates {
  import opened Common

  datatype Date = Date(year: int, month: int, day: int)

  predicate IsLeapYear(y: int) {
    y % 4 == 0 && (y % 100 != 0 || y % 400 == 0)
  }

  function DaysInMonth(y: int, m: int): (n: int)
    requires 1 <= m <= 12
    ensures 28 <= n <= 31
    ensures n == 31 <==> m in {1, 3, 5, 7, 8, 10, 12}
    ensures m == 2 ==> (n == 29 <==> IsLeapYear(y))
  {
    if m == 2 then (if IsLeapYear(y) then 29 else 28)
    else if m == 4 || m == 6 || m == 9 || m == 11 then 30
    else 31
  }

  function YearLength(y: int): (n: int)
    ensures n == 365 || n == 366
  {
    if IsLeapYear(y) then 366 else 365
  }

  /** What Python's `datetime` accepts: years 1 to 9999 and real days. */
  predicate Valid(d: Date) {
    1 <= d.year <= 9999 && 1 <= d.month <= 12 && 1 <= d.day <= DaysInMonth(d.year, d.month)
  }

  /** Chronological order, which is also the order Python gives to
      `(year, month, day)` tuples. */
  predicate Before(a: Date, b: Date) {
    a.year < b.year
    || (a.year == b.year && (a.month < b.month || (a.month == b.month && a.day < b.day)))
  }

  predicate AtMost(a: Date, b: Date) { !Before(b, a) }

  lemma {:induction false} BeforeIsStrictTotal(a: Date, b: Date, c: Date)
    ensures !Before(a, a)
    ensures Before(a, b) && Before(b, c) ==> Before(a, c)
    ensures a == b || Before(a, b) || Before(b, a)
  {
  }

  // ---------------------------------------------------------------------
  // strptime("%Y-%m-%d")

  /** `%m`, whose pattern is `1[0-2]|0[1-9]|[1-9]`: the first alternative that
      matches a prefix wins. Returns the month and the characters used. */
  function MonthField(t: string): (r: Option<(int, nat)>)
    ensures r.Some? ==> 1 <= r.value.0 <= 12 && 1 <= r.value.1 <= 2 && r.value.1 <= |t|
  {
    if |t| >= 2 && t[0] == '1' && '0' <= t[1] <= '2' then Some((10 + DigitValue(t[1]), 2))
    else if |t| >= 2 && t[0] == '0' && '1' <= t[1] <= '9' then Some((DigitValue(t[1]), 2))
    else if |t| >= 1 && '1' <= t[0] <= '9' then Some((DigitValue(t[0]), 1))
    else None
  }

  /** `%d`, whose pattern is `3[01]|[12]\d|0[1-9]|[1-9]| [1-9]`. */
  function DayField(t: string): (r: Option<(int, nat)>)
    ensures r.Some? ==> 1 <= r.value.0 <= 31 && 1 <= r.value.1 <= 2 && r.value.1 <= |t|
  {
    if |t| >= 2 && t[0] == '3' && '0' <= t[1] <= '1' then Some((30 + DigitValue(t[1]), 2))
    else if |t| >= 2 && '1' <= t[0] <= '2' && IsDigit(t[1]) then
      Some((10 * DigitValue(t[0]) + DigitValue(t[1]), 2))
    else if |t| >= 2 && t[0] == '0' && '1' <= t[1] <= '9' then Some((DigitValue(t[1]), 2))
    else if |t| >= 1 && '1' <= t[0] <= '9' then Some((DigitValue(t[0]), 1))
    else if |t| >= 2 && t[0] == ' ' && '1' <= t[1] <= '9' then Some((DigitValue(t[1]), 2))
    else None
  }

  /** `datetime.strptime(s, "%Y-%m-%d")`: four digits, a dash, a month field,
      a dash, a day field, nothing after it ("unconverted data remains"), and
      a date that exists. `None` stands for the `ValueError`. */
  function ParseIsoDate(s: string): (r: Option<Date>)
    ensures r.Some? ==> Valid(r.value)
  {
    if |s| < 5 || !AllDigits(s[..4]) || s[4] != '-' then None
    else
      match MonthField(s[5..])
      case None => None
      case Some(mf) =>
        var rest := s[5 + mf.1..];
        if |rest| == 0 || rest[0] != '-' then None
        else
          match DayField(rest[1..])
          case None => None
          case Some(df) =>
            if df.1 != |rest| - 1 then None
            else
              var date := Date(DigitsValue(s[..4]), mf.0, df.0);
              if Valid(date) then Some(date) else None
  }

  /** A missing or unreadable date string; the scripts catch the exception. */
  function ParseOptionalDate(s: Option<string>): Option<Date>
  {
    match s
    case None => None
    case Some(text) => ParseIsoDate(text)
  }

  function Pad2(n: int): (r: string)
    requires 0 <= n < 100
    ensures |r| == 2 && AllDigits(r)
  {
    [DigitChar(n / 10), DigitChar(n % 10)]
  }

  function Pad4(n: int): (r: string)
    requires 0 <= n < 10000
    ensures |r| == 4 && AllDigits(r)
  {
    Pad2(n / 100) + Pad2(n % 100)
  }

  /** The canonical `YYYY-MM-DD` text of a date (`date.isoformat()`). */
  function FormatIsoDate(d: Date): (r: string)
    requires Valid(d)
    ensures |r| == 10 && r[4] == '-' && r[7] == '-'
  {
    Pad4(d.year) + "-" + Pad2(d.month) + "-" + Pad2(d.day)
  }

  lemma {:induction false} Pad2Value(n: int)
    requires 0 <= n < 100
    ensures DigitsValue(Pad2(n)) == n
  {
    var p := Pad2(n);
    assert p[..1] == [DigitChar(n / 10)];
    assert [DigitChar(n / 10)][..0] == [];
    assert DigitsValue(p[..1]) == n / 10;
    assert DigitsValue(p) == DigitsValue(p[..1]) * 10 + n % 10;
  }

  /** Two more digits multiply the value so far by a hundred. */
  lemma {:induction false} PushTwoDigits(s: string, t: string)
    requires AllDigits(s) && AllDigits(t) && |t| == 2
    ensures AllDigits(s + t) && DigitsValue(s + t) == DigitsValue(s) * 100 + DigitsValue(t)
  {
    var st := s + t;
    var s1 := s + [t[0]];
    assert st[..|st| - 1] == s1;
    assert s1[..|s|] == s;
    assert DigitsValue(s1) == DigitsValue(s) * 10 + DigitValue(t[0]);
    assert DigitsValue(st) == DigitsValue(s1) * 10 + DigitValue(t[1]);
    assert t[..1] == [t[0]];
    assert [t[0]][..0] == [];
    assert DigitsValue([t[0]]) == DigitValue(t[0]);
    assert DigitsValue(t) == DigitValue(t[0]) * 10 + DigitValue(t[1]);
  }

  lemma {:induction false} Pad4Value(n: int)
    requires 0 <= n < 10000
    ensures DigitsValue(Pad4(n)) == n
  {
    Pad2Value(n / 100);
    Pad2Value(n % 100);
    PushTwoDigits(Pad2(n / 100), Pad2(n % 100));
  }

  /** Every real date survives printing and reading back. */
  lemma {:induction false} ParseFormat(d: Date)
    requires Valid(d)
    ensures ParseIsoDate(FormatIsoDate(d)) == Some(d)
  {
    var s := FormatIsoDate(d);
    assert s[..4] == Pad4(d.year);
    Pad4Value(d.year);
    var t := s[5..];
    assert t[..2] == Pad2(d.month) && t[2] == '-';
    assert MonthField(t) == Some((d.month, 2));
    var rest := s[7..];
    assert rest[0] == '-' && rest[1..] == Pad2(d.day);
    assert DayField(rest[1..]) == Some((d.day, 2));
  }

  // ---------------------------------------------------------------------
  // Ordinals and day differences

  function DaysBeforeYear(y: int): nat
    requires y >= 1
  {
    if y == 1 then 0 else DaysBeforeYear(y - 1) + YearLength(y - 1)
  }

  function DaysBeforeMonth(y: int, m: int): nat
    requires 1 <= m <= 12
  {
    if m == 1 then 0 else DaysBeforeMonth(y, m - 1) + DaysInMonth(y, m - 1)
  }

  /** `date.toordinal()`: 0001-01-01 is day 1. */
  function Ordinal(d: Date): int
    requires Valid(d)
  {
    DaysBeforeYear(d.year) + DaysBeforeMonth(d.year, d.month) + d.day
  }

  /** `(to - from).days` for two dates. */
  function DaysBetween(from: Date, to: Date): int
    requires Valid(from) && Valid(to)
  {
    Ordinal(to) - Ordinal(from)
  }

  lemma {:induction false} DaysBeforeYearGrows(a: int, b: int)
    requires 1 <= a <= b
    ensures DaysBeforeYear(a) + (if a < b then YearLength(a) else 0) <= DaysBeforeYear(b)
    decreases b - a
  {
    if a < b {
      DaysBeforeYearGrows(a + 1, b);
    }
  }

  lemma {:induction false} DaysBeforeMonthGrows(y: int, a: int, b: int)
    requires 1 <= a <= b <= 12
    ensures DaysBeforeMonth(y, a) + (if a < b then DaysInMonth(y, a) else 0) <= DaysBeforeMonth(y, b)
    decreases b - a
  {
    if a < b {
      DaysBeforeMonthGrows(y, a + 1, b);
    }
  }

  lemma {:induction false} MonthsFitInYear(y: int, m: int)
    requires 1 <= m <= 12
    ensures DaysBeforeMonth(y, m) + DaysInMonth(y, m) <= YearLength(y)
  {
    DaysBeforeMonthGrows(y, m, 12);
    var feb := DaysInMonth(y, 2);
    assert DaysBeforeMonth(y, 2) == 31;
    assert DaysBeforeMonth(y, 3) == 31 + feb;
    assert DaysBeforeMonth(y, 4) == 31 + feb + 31;
    assert DaysBeforeMonth(y, 5) == 31 + feb + 31 + 30;
    assert DaysBeforeMonth(y, 6) == 31 + feb + 31 + 30 + 31;
    assert DaysBeforeMonth(y, 7) == 31 + feb + 31 + 30 + 31 + 30;
    assert DaysBeforeMonth(y, 8) == 31 + feb + 31 + 30 + 31 + 30 + 31;
    assert DaysBeforeMonth(y, 9) == 31 + feb + 31 + 30 + 31 + 30 + 31 + 31;
    assert DaysBeforeMonth(y, 10) == 31 + feb + 31 + 30 + 31 + 30 + 31 + 31 + 30;
    assert DaysBeforeMonth(y, 11) == 31 + feb + 31 + 30 + 31 + 30 + 31 + 31 + 30 + 31;
    assert DaysBeforeMonth(y, 12) == 31 + feb + 31 + 30 + 31 + 30 + 31 + 31 + 30 + 31 + 30;
  }

  /** Ordinals follow the calendar: an earlier date has a smaller ordinal, so
      day differences are positive exactly when the dates are in order. */
  lemma {:induction false} OrdinalMonotone(a: Date, b: Date)
    requires Valid(a) && Valid(b)
    ensures Before(a, b) <==> Ordinal(a) < Ordinal(b)
    ensures a == b <==> Ordinal(a) == Ordinal(b)
  {
    if Before(a, b) {
      OrdinalStrict(a, b);
    } else if Before(b, a) {
      OrdinalStrict(b, a);
    }
  }

  lemma {:induction false} OrdinalStrict(a: Date, b: Date)
    requires Valid(a) && Valid(b) && Before(a, b)
    ensures Ordinal(a) < Ordinal(b)
  {
    if a.year < b.year {
      MonthsFitInYear(a.year, a.month);
      DaysBeforeYearGrows(a.year, b.year);
    } else if a.month < b.month {
      DaysBeforeMonthGrows(a.year, a.month, b.month);
    }
  }
}

=== FILE: form_values.dfy ===
/** The loosely typed values the intake form delivers (`json.loads` output)
    and the three Python conversions the scripts apply to them: truthiness,
    `int(v)`, and "wrap a scalar into a list". */
module FormValues {
  import opened Common

  /** A JSON value; floating-point numbers are not modelled. */
  datatype Value =
    | Null
    | Bool(b: bool)
    | Int(i: int)
    | Str(s: string)
    | List(items: seq<Value>)
    | Obj(fields: map<string, Value>)

  /** A submitted form: the JSON object's keys and values. */
  type Form = map<string, Value>

  /** Python truthiness: `None`, `False`, `0`, `""` and `[]` are false. */
  predicate Truthy(v: Value) {
    match v
    case Null => false
    case Bool(b) => b
    case Int(i) => i != 0
    case Str(s) => |s| > 0
    case List(xs) => |xs| > 0
    case Obj(fields) => |fields| > 0
  }

  /** `form.get(key)`. */
  function Get(form: Form, key: string): Value {
    if key in form then form[key] else Null
  }

  /** `form.get(key, default)`: the default only for an absent key; a key
      present with `null` reads as `None`. */
  function GetOr(form: Form, key: string, default: Value): Value {
    if key in form then form[key] else default
  }

  /** `int(v)`. Booleans are integers in Python; `None`, lists and objects
      raise `TypeError`, malformed text raises `ValueError`. */
  function ToInt(v: Value): (r: Result<int>)
    ensures v.Int? ==> r == Ok(v.i)
    ensures v.Null? || v.List? || v.Obj? ==> r.Err?
  {
    match v
    case Null => Err("int() argument must be a string or a number, not 'NoneType'")
    case Bool(b) => Ok(if b then 1 else 0)
    case Int(i) => Ok(i)
    case Str(s) => ParsePyInt(s)
    case List(_) => Err("int() argument must be a string or a number, not 'list'")
    case Obj(_) => Err("int() argument must be a string or a number, not 'dict'")
  }

  /** Whether `float(v)` returns rather than raising. Booleans and integers
      convert; text converts when, once stripped of surrounding whitespace,
      it is a signed decimal or `inf`, `infinity` or `nan`; `None`, lists
      and objects raise `TypeError`. Only ASCII digits are modelled. */
  predicate FloatReadable(v: Value) {
    match v
    case Bool(_) => true
    case Int(_) => true
    case Str(s) => FloatLiteral(Strip(s))
    case _ => false
  }

  /** An optional sign, then a special value in any case or a decimal. */
  predicate FloatLiteral(t: string) {
    var u := if |t| > 0 && (t[0] == '+' || t[0] == '-') then t[1..] else t;
    Lower(u) == "inf" || Lower(u) == "infinity" || Lower(u) == "nan" || Decimal(u)
  }

  /** A mantissa, then optionally `e` or `E` and a signed exponent. */
  predicate Decimal(u: string) {
    exists i :: 0 <= i <= |u| && Mantissa(u[..i])
      && (i == |u| || ((u[i] == 'e' || u[i] == 'E') && Exponent(u[i + 1..])))
  }

  /** Digits with an optional point: `1`, `1.`, `.5` and `1.5`, not `.`. */
  predicate Mantissa(m: string) {
    DigitBody(m)
    || exists i :: 0 <= i < |m| && m[i] == '.' && |m| > 1
         && (i == 0 || DigitBody(m[..i])) && (i == |m| - 1 || DigitBody(m[i + 1..]))
  }

  predicate Exponent(e: string) {
    DigitBody(if |e| > 0 && (e[0] == '+' || e[0] == '-') then e[1..] else e)
  }

  /** Every text `int()` reads, `float()` reads too. */
  lemma {:induction false} IntTextIsFloatText(s: string)
    requires ParsePyInt(s).Ok?
    ensures FloatReadable(Str(s))
  {
    var t := Strip(s);
    var u := if |t| > 0 && (t[0] == '+' || t[0] == '-') then t[1..] else t;
    assert BodyValue(u).Some?;
    assert u[..|u|] == u;
    assert Mantissa(u[..|u|]);
  }

  /** `v if isinstance(v, list) else ([v] if v else [])`. */
  function AsList(v: Value): (r: seq<Value>)
    ensures v.List? ==> r == v.items
    ensures !v.List? ==> |r| <= 1 && (|r| == 1 <==> Truthy(v)) && (forall x :: x in r ==> x == v)
  {
    match v
    case List(xs) => xs
    case _ => if Truthy(v) then [v] else []
  }

  const WeekDays: seq<string> :=
    ["monday", "tuesday", "wednesday", "thursday", "friday", "saturday", "sunday"]
}

=== FILE: guide.dfy ===
/** The rules of the HTML training guide that depend on the athlete profile:
    the hour range of a tier, the athlete's age and masters status, and the
    blindspot assessment. */
module Guide {
  import opened Common
  import opened Dates
  import opened FormValues

  // ---------------------------------------------------------------------
  // Tier hours

  /** The hour table of `_get_tier_hours`, with (10, 15) for a tier it does
      not know. */
  function TierTable(t: string): (r: (int, int))
    ensures 4 <= r.0 < r.1 <= 25
  {
    if t == "ayahuasca" then (4, 8)
    else if t == "finisher" then (8, 12)
    else if t == "compete" then (12, 18)
    else if t == "podium" then (18, 25)
    else (10, 15)
  }

  /** `_get_tier_hours`: the tier is looked up in lower case, and a missing
      tier reads as "compete". */
  function TierHours(tier: Option<string>): (r: (int, int))
    ensures 4 <= r.0 < r.1 <= 25
  {
    TierTable(Lower(tier.GetOr("compete")))
  }

  const KnownTiers: seq<string> := ["ayahuasca", "finisher", "compete", "podium"]

  /** The four known tiers, whatever their case, and the default for any
      other tier. */
  lemma {:induction false} KnownTierHours(tier: string)
    ensures Lower(tier) == "ayahuasca" ==> TierHours(Some(tier)) == (4, 8)
    ensures Lower(tier) == "finisher" ==> TierHours(Some(tier)) == (8, 12)
    ensures Lower(tier) == "compete" ==> TierHours(Some(tier)) == (12, 18)
    ensures Lower(tier) == "podium" ==> TierHours(Some(tier)) == (18, 25)
    ensures Lower(tier) !in KnownTiers ==> TierHours(Some(tier)) == (10, 15)
  {
  }

  /** A profile without a tier gets the hours of "compete". */
  lemma {:induction false} MissingTierIsCompete()
    ensures TierHours(None) == (12, 18)
  {
    LowerOfLowercase("compete");
  }

  /** The lookup ignores case. */
  lemma {:induction false} TierHoursIgnoresCase(tier: string)
    ensures TierHours(Some(tier)) == TierHours(Some(Lower(tier)))
  {
    LowerIdempotent(tier);
  }

  // ---------------------------------------------------------------------
  // Age

  /** Python's `(today.month, today.day) < (birth.month, birth.day)`. */
  predicate EarlierInYear(today: Date, birth: Date) {
    today.month < birth.month || (today.month == birth.month && today.day < birth.day)
  }

  /** The birthday of `birth` in the year `n` years later. */
  function Anniversary(birth: Date, n: int): Date {
    Date(birth.year + n, birth.month, birth.day)
  }

  /** `today.year - birth.year - ((today.month, today.day) < (birth.month,
      birth.day))`: the number of birthdays reached by `today`. */
  function CompletedYears(birth: Date, today: Date): (n: int)
    ensures AtMost(Anniversary(birth, n), today)
    ensures Before(today, Anniversary(birth, n + 1))
  {
    today.year - birth.year - (if EarlierInYear(today, birth) then 1 else 0)
  }

  /** `_calculate_age`: the birthday must be a non-empty string in the
      `%Y-%m-%d` format, otherwise there is no age (the method swallows the
      exception). `today` stands for the clock. */
  function CalculateAge(birthday: Value, today: Date): (r: Option<int>)
    ensures r.Some? <==> birthday.Str? && |birthday.s| > 0 && ParseIsoDate(birthday.s).Some?
    ensures r.Some? ==> r.value == CompletedYears(ParseIsoDate(birthday.s).value, today)
  {
    if !Truthy(birthday) || !birthday.Str? then None
    else
      match ParseIsoDate(birthday.s)
      case None => None
      case Some(birth) => Some(CompletedYears(birth, today))
  }

  /** The completed-years characterisation pins the age down: no other
      number of years has its anniversary reached but the next one not. */
  lemma {:induction false} AgeIsUnique(birth: Date, today: Date, a: int, b: int)
    requires AtMost(Anniversary(birth, a), today) && Before(today, Anniversary(birth, a + 1))
    requires AtMost(Anniversary(birth, b), today) && Before(today, Anniversary(birth, b + 1))
    ensures a == b
  {
  }

  /** `_is_masters`: an age of at least 50. */
  predicate IsMasters(age: Option<int>) {
    age.Some? && age.value >= 50
  }

  // ---------------------------------------------------------------------
  // Blindspots

  datatype Severity = SeverityLow | SeverityMedium | SeverityHigh

  /** The seven checks in the order they run, and the entry used when none
      fires. */
  datatype Concern =
    | RecoveryDeficit
    | LifeStressOverload
    | MovementQualityGap
    | InjuryManagement
    | EquipmentLimitations
    | TimeCrunched
    | MastersRecoveryWindow
    | NoMajorBlindspots

  function ConcernIndex(c: Concern): nat {
    match c
    case RecoveryDeficit => 0
    case LifeStressOverload => 1
    case MovementQualityGap => 2
    case InjuryManagement => 3
    case EquipmentLimitations => 4
    case TimeCrunched => 5
    case MastersRecoveryWindow => 6
    case NoMajorBlindspots => 7
  }

  function Title(c: Concern): string {
    match c
    case RecoveryDeficit => "Recovery Deficit"
    case LifeStressOverload => "Life Stress Overload"
    case MovementQualityGap => "Movement Quality Gap"
    case InjuryManagement => "Injury Management Required"
    case EquipmentLimitations => "Equipment Limitations"
    case TimeCrunched => "Time-Crunched Reality"
    case MastersRecoveryWindow => "Masters Recovery Window"
    case NoMajorBlindspots => "No Major Blindspots Identified"
  }

  datatype Blindspot = Blindspot(concern: Concern, severity: Severity)

  /** What the checks read from the profile. The defaults of the lookups are
      already applied: a missing `sleep_hours_avg` is `Some(7.0)`, a missing
      `total_hours_available` is `Some(0.0)`, and a value that is not a
      number is `None`. `age` is `_calculate_age`'s result. */
  datatype BlindspotInputs = BlindspotInputs(
    sleepQuality: string,
    sleepHours: Option<real>,
    stressLevel: string,
    strengthBackground: string,
    currentInjuries: seq<Value>,
    pastInjuries: seq<Value>,
    equipmentTier: string,
    totalHours: Option<real>,
    age: Option<int>)

  /** The area an injury entry names: an object's `area` (default
      "unknown"), or the entry itself when it is a string. */
  function AreaOf(entry: Value): Option<Value> {
    match entry
    case Obj(fields) => Some(GetOr(fields, "area", Str("unknown")))
    case Str(_) => Some(entry)
    case _ => None
  }

  function InjuryAreas(entries: seq<Value>): (r: set<Value>)
    ensures forall a :: a in r <==> exists e :: e in entries && AreaOf(e) == Some(a)
  {
    set e | e in entries && AreaOf(e).Some? :: AreaOf(e).value
  }

  /** The areas of the current and past injuries together are those of
      each list. */
  lemma {:induction false} InjuryAreasSplit(current: seq<Value>, past: seq<Value>)
    ensures InjuryAreas(current + past) == InjuryAreas(current) + InjuryAreas(past)
  {
    assert forall e :: e in current + past <==> e in current || e in past;
  }

  /** There are never more areas than entries; repeated areas are counted
      once. */
  lemma {:induction false} InjuryAreasAtMostEntries(entries: seq<Value>)
    ensures |InjuryAreas(entries)| <= |entries|
  {
    if |entries| > 0 {
      var init, last := entries[..|entries| - 1], entries[|entries| - 1];
      assert entries == init + [last];
      InjuryAreasSplit(init, [last]);
      InjuryAreasAtMostEntries(init);
      InjuryAreasOfOne(last);
    }
  }

  /** One entry names at most one area. */
  lemma {:induction false} InjuryAreasOfOne(e: Value)
    ensures |InjuryAreas([e])| <= 1
  {
    if AreaOf(e).Some? {
      assert InjuryAreas([e]) == {AreaOf(e).value};
    } else {
      assert InjuryAreas([e]) == {};
    }
  }

  /** An object without an `area` field counts as area "unknown". */
  lemma {:induction false} MissingAreaIsUnknown(entries: seq<Value>, fields: Form)
    requires Obj(fields) in entries && "area" !in fields
    ensures Str("unknown") in InjuryAreas(entries)
  {
    assert AreaOf(Obj(fields)) == Some(Str("unknown"));
  }

  predicate SleepFires(x: BlindspotInputs) {
    x.sleepQuality == "poor" || x.sleepQuality == "fair"
    || (x.sleepHours.Some? && x.sleepHours.value < 7.0)
  }

  predicate StressFires(x: BlindspotInputs) {
    x.stressLevel == "high" || x.stressLevel == "very_high"
  }

  predicate StrengthFires(x: BlindspotInputs) {
    x.strengthBackground == "none" || x.strengthBackground == "beginner"
  }

  predicate InjuryFires(x: BlindspotInputs) {
    (|x.currentInjuries| > 0 || |x.pastInjuries| > 0)
    && |InjuryAreas(x.currentInjuries + x.pastInjuries)| > 0
  }

  predicate EquipmentFires(x: BlindspotInputs) {
    x.equipmentTier == "minimal"
  }

  predicate HoursFires(x: BlindspotInputs) {
    x.totalHours.Some? && x.totalHours.value < 8.0
  }

  /** `if age and age >= 45`. */
  predicate AgeFires(x: BlindspotInputs) {
    x.age.Some? && x.age.value != 0 && x.age.value >= 45
  }

  /** Which of the seven checks fire, in check order. */
  function Flags(x: BlindspotInputs): seq<bool> {
    [SleepFires(x), StressFires(x), StrengthFires(x), InjuryFires(x),
     EquipmentFires(x), HoursFires(x), AgeFires(x)]
  }

  predicate CheckFires(k: nat, x: BlindspotInputs) {
    k < 7 && Flags(x)[k]
  }

  /** The concern of check `k`. */
  function ConcernAt(k: nat): (c: Concern)
    requires k < 7
    ensures ConcernIndex(c) == k
  {
    [RecoveryDeficit, LifeStressOverload, MovementQualityGap, InjuryManagement,
     EquipmentLimitations, TimeCrunched, MastersRecoveryWindow][k]
  }

  /** The severity a check reports. Only the injury check depends on the
      profile: high with a current injury, medium with past ones only. */
  function SeverityFor(c: Concern, currentInjury: bool): Severity {
    match c
    case RecoveryDeficit => SeverityHigh
    case LifeStressOverload => SeverityHigh
    case MovementQualityGap => SeverityMedium
    case InjuryManagement => if currentInjury then SeverityHigh else SeverityMedium
    case EquipmentLimitations => SeverityLow
    case TimeCrunched => SeverityMedium
    case MastersRecoveryWindow => SeverityMedium
    case NoMajorBlindspots => SeverityLow
  }

  function SeverityOf(c: Concern, x: BlindspotInputs): Severity {
    SeverityFor(c, |x.currentInjuries| > 0)
  }

  /** The entry check `k` appends when its flag is set. */
  function Slot(k: nat, flags: seq<bool>, currentInjury: bool): (r: seq<Blindspot>)
    requires |flags| == 7
    ensures |r| <= 1
    ensures |r| == 1 <==> k < 7 && flags[k]
    ensures forall b :: b in r ==>
      ConcernIndex(b.concern) == k && b.severity == SeverityFor(b.concern, currentInjury)
  {
    if k < 7 && flags[k] then [Blindspot(ConcernAt(k), SeverityFor(ConcernAt(k), currentInjury))] else []
  }

  /** Some entry of `r` is one of check `k`. */
  predicate Reports(r: seq<Blindspot>, k: nat) {
    exists b :: b in r && ConcernIndex(b.concern) == k
  }

  /** The entries of checks `k` to 6, in the order they are appended. */
  function FoundFrom(k: nat, flags: seq<bool>, currentInjury: bool): (r: seq<Blindspot>)
    requires k <= 7 && |flags| == 7
    ensures |r| <= 7 - k
    ensures forall i :: 0 <= i < |r| ==> k + i <= ConcernIndex(r[i].concern) <= 6
    ensures forall i, j :: 0 <= i < j < |r| ==> ConcernIndex(r[i].concern) < ConcernIndex(r[j].concern)
    ensures forall b :: b in r ==> b.severity == SeverityFor(b.concern, currentInjury)
    decreases 7 - k
  {
    if k == 7 then []
    else Slot(k, flags, currentInjury) + FoundFrom(k + 1, flags, currentInjury)
  }

  /** An entry of check `j` is found exactly when flag `j` is set. */
  lemma {:induction false} FoundFromExact(k: nat, flags: seq<bool>, currentInjury: bool)
    requires k <= 7 && |flags| == 7
    ensures forall j :: k <= j < 7 ==>
      (flags[j] <==> Reports(FoundFrom(k, flags, currentInjury), j))
    ensures forall b :: b in FoundFrom(k, flags, currentInjury) ==>
      ConcernIndex(b.concern) < 7 && flags[ConcernIndex(b.concern)]
  {
    FoundFromComplete(k, flags, currentInjury);
    FoundFromSound(k, flags, currentInjury);
  }

  lemma {:induction false} FoundFromComplete(k: nat, flags: seq<bool>, currentInjury: bool)
    requires k <= 7 && |flags| == 7
    ensures forall j :: k <= j < 7 && flags[j] ==>
      Reports(FoundFrom(k, flags, currentInjury), j)
    decreases 7 - k
  {
    if k < 7 {
      FoundFromComplete(k + 1, flags, currentInjury);
      var head := Slot(k, flags, currentInjury);
      var rest := FoundFrom(k + 1, flags, currentInjury);
      var found := FoundFrom(k, flags, currentInjury);
      assert found == head + rest;
      forall j | k <= j < 7 && flags[j]
        ensures Reports(found, j)
      {
        var b: Blindspot;
        if j == k {
          b := head[0];
          assert b in head;
        } else {
          b :| b in rest && ConcernIndex(b.concern) == j;
        }
        assert b in found;
      }
    }
  }

  lemma {:induction false} FoundFromSound(k: nat, flags: seq<bool>, currentInjury: bool)
    requires k <= 7 && |flags| == 7
    ensures forall b :: b in FoundFrom(k, flags, currentInjury) ==>
      ConcernIndex(b.concern) < 7 && flags[ConcernIndex(b.concern)]
    decreases 7 - k
  {
    if k < 7 {
      FoundFromSound(k + 1, flags, currentInjury);
      var head := Slot(k, flags, currentInjury);
      var rest := FoundFrom(k + 1, flags, currentInjury);
      assert FoundFrom(k, flags, currentInjury) == head + rest;
      forall b: Blindspot | b in head + rest
        ensures ConcernIndex(b.concern) < 7 && flags[ConcernIndex(b.concern)]
      {
        if b in head {
          assert |head| == 1;
        }
      }
    }
  }

  /** The list the checks build from their flags, with the fallback entry
      when no flag is set. */
  function Assess(flags: seq<bool>, currentInjury: bool): (r: seq<Blindspot>)
    requires |flags| == 7
    ensures 1 <= |r| <= 7
    ensures forall i, j :: 0 <= i < j < |r| ==> ConcernIndex(r[i].concern) < ConcernIndex(r[j].concern)
    ensures forall b :: b in r ==> b.severity == SeverityFor(b.concern, currentInjury)
  {
    var found := FoundFrom(0, flags, currentInjury);
    if |found| == 0 then [Blindspot(NoMajorBlindspots, SeverityLow)] else found
  }

  /** `_generate_blindspots`: the entries of the checks that fire, in check
      order, one per check; when none fires, the single low-severity
      "No Major Blindspots Identified". The list is never empty. */
  function Blindspots(x: BlindspotInputs): (r: seq<Blindspot>)
    ensures 1 <= |r| <= 7
    ensures forall i, j :: 0 <= i < j < |r| ==> ConcernIndex(r[i].concern) < ConcernIndex(r[j].concern)
    ensures forall b :: b in r ==> b.severity == SeverityOf(b.concern, x)
  {
    Assess(Flags(x), |x.currentInjuries| > 0)
  }

  /** The assessment lists concern `k` exactly when flag `k` is set, and
      falls back to the single default entry exactly when no flag is set. */
  lemma {:induction false} AssessExact(flags: seq<bool>, currentInjury: bool)
    requires |flags| == 7
    ensures forall k :: 0 <= k < 7 ==>
      (flags[k] <==> Reports(Assess(flags, currentInjury), k))
    ensures (exists b :: b in Assess(flags, currentInjury) && b.concern == NoMajorBlindspots)
      <==> forall k :: 0 <= k < 7 ==> !flags[k]
    ensures (forall k :: 0 <= k < 7 ==> !flags[k]) ==>
      Assess(flags, currentInjury) == [Blindspot(NoMajorBlindspots, SeverityLow)]
  {
    AssessKinds(flags, currentInjury);
    AssessDefault(flags, currentInjury);
  }

  lemma {:induction false} AssessKinds(flags: seq<bool>, currentInjury: bool)
    requires |flags| == 7
    ensures forall k :: 0 <= k < 7 ==>
      (flags[k] <==> Reports(Assess(flags, currentInjury), k))
  {
    var found := FoundFrom(0, flags, currentInjury);
    if |found| == 0 {
      AssessKindsNoneFound(flags, currentInjury);
    } else {
      AssessKindsFound(flags, currentInjury);
    }
  }

  lemma {:induction false} AssessKindsNoneFound(flags: seq<bool>, currentInjury: bool)
    requires |flags| == 7 && |FoundFrom(0, flags, currentInjury)| == 0
    ensures forall k :: 0 <= k < 7 ==>
      !flags[k] && !Reports(Assess(flags, currentInjury), k)
  {
    AssessFallback(flags, currentInjury);
    FallbackReportsNoCheck();
  }

  /** The fallback entry belongs to no check. */
  lemma {:induction false} FallbackReportsNoCheck()
    ensures forall k :: 0 <= k < 7 ==> !Reports([Blindspot(NoMajorBlindspots, SeverityLow)], k)
  {
    var a := [Blindspot(NoMajorBlindspots, SeverityLow)];
    forall b: Blindspot | b in a
      ensures ConcernIndex(b.concern) == 7
    {
      assert b == a[0];
    }
  }

  lemma {:induction false} AssessKindsFound(flags: seq<bool>, currentInjury: bool)
    requires |flags| == 7 && |FoundFrom(0, flags, currentInjury)| > 0
    ensures forall k :: 0 <= k < 7 ==>
      (flags[k] <==> Reports(Assess(flags, currentInjury), k))
  {
    AssessFound(flags, currentInjury);
    FoundFromExact(0, flags, currentInjury);
  }

  lemma {:induction false} AssessDefault(flags: seq<bool>, currentInjury: bool)
    requires |flags| == 7
    ensures (exists b :: b in Assess(flags, currentInjury) && b.concern == NoMajorBlindspots)
      <==> forall k :: 0 <= k < 7 ==> !flags[k]
    ensures (forall k :: 0 <= k < 7 ==> !flags[k]) ==>
      Assess(flags, currentInjury) == [Blindspot(NoMajorBlindspots, SeverityLow)]
  {
    var found := FoundFrom(0, flags, currentInjury);
    if |found| == 0 {
      AssessFallback(flags, currentInjury);
      var a := Assess(flags, currentInjury);
      assert a[0] in a;
    } else {
      AssessFound(flags, currentInjury);
    }
  }

  lemma {:induction false} AssessFallback(flags: seq<bool>, currentInjury: bool)
    requires |flags| == 7 && |FoundFrom(0, flags, currentInjury)| == 0
    ensures Assess(flags, currentInjury) == [Blindspot(NoMajorBlindspots, SeverityLow)]
    ensures forall k :: 0 <= k < 7 ==> !flags[k]
  {
    FoundFromComplete(0, flags, currentInjury);
  }

  lemma {:induction false} AssessFound(flags: seq<bool>, currentInjury: bool)
    requires |flags| == 7 && |FoundFrom(0, flags, currentInjury)| > 0
    ensures Assess(flags, currentInjury) == FoundFrom(0, flags, currentInjury)
    ensures exists k :: 0 <= k < 7 && flags[k]
    ensures forall b :: b in Assess(flags, currentInjury) ==> b.concern != NoMajorBlindspots
  {
    var found := FoundFrom(0, flags, currentInjury);
    FoundFromSound(0, flags, currentInjury);
    assert found[0] in found;
  }

  /** A check's concern is listed exactly when the check fires. */
  lemma {:induction false} BlindspotsReportChecks(x: BlindspotInputs, k: nat)
    requires k < 7
    ensures CheckFires(k, x) <==> Reports(Blindspots(x), k)
  {
    AssessExact(Flags(x), |x.currentInjuries| > 0);
  }

  /** The fallback entry appears exactly when no check fires, and it is then
      the only entry. */
  lemma {:induction false} NoBlindspotsFallback(x: BlindspotInputs)
    ensures (exists b :: b in Blindspots(x) && b.concern == NoMajorBlindspots)
      <==> forall k :: 0 <= k < 7 ==> !CheckFires(k, x)
    ensures (forall k :: 0 <= k < 7 ==> !CheckFires(k, x)) ==>
      Blindspots(x) == [Blindspot(NoMajorBlindspots, SeverityLow)]
  {
    var flags := Flags(x);
    AssessExact(flags, |x.currentInjuries| > 0);
    assert forall k :: 0 <= k < 7 ==> (CheckFires(k, x) <==> flags[k]);
  }

  /** The injury check fires exactly when some current or past entry is an
      object or a string. */
  lemma {:induction false} InjuryFiresOnReadableEntry(x: BlindspotInputs)
    ensures InjuryFires(x) <==>
      exists e :: e in x.currentInjuries + x.pastInjuries && (e.Obj? || e.Str?)
  {
    var all := x.currentInjuries + x.pastInjuries;
    if e :| e in all && (e.Obj? || e.Str?) {
      assert AreaOf(e).value in InjuryAreas(all);
    }
    if |InjuryAreas(all)| > 0 {
      var a :| a in InjuryAreas(all);
    }
  }

  /** Every masters athlete also gets the masters-recovery blindspot. */
  lemma {:induction false} MastersGetAgeBlindspot(x: BlindspotInputs)
    requires IsMasters(x.age)
    ensures CheckFires(6, x)
  {
  }

  /** The masters blindspot fires from 45 while `_is_masters` starts at 50:
      ages 45 to 49 get the blindspot without being masters. */
  lemma {:induction false} MastersThresholdsDiffer(x: BlindspotInputs)
    requires x.age.Some? && 45 <= x.age.value < 50
    ensures CheckFires(6, x) && !IsMasters(x.age)
  {
  }
}

=== FILE: intake.dfy ===
/** The conversion of a coaching intake form into an athlete profile: the
    goal, the weekly volume, the seven days of availability, the strength
    equipment, the health conditions, the B events, and the profile fields
    derived from them. */
module Intake {
  import opened Common
  import opened Dates
  import opened FormValues
  import Validation
  import Guide

  // ---------------------------------------------------------------------
  // Primary goal

  /** The goals the form offers and their profile names. */
  function GoalTable(goal: string): Option<string>
  {
    if goal == "Specific race(s)" then Some("specific_race")
    else if goal == "General fitness" then Some("general_fitness")
    else if goal == "Base building" then Some("base_building")
    else if goal == "Off-season maintenance" then Some("off_season")
    else if goal == "Return from injury" then Some("return_from_injury")
    else if goal == "Performance improvement" then Some("performance_improvement")
    else None
  }

  /** Every label of the table starts with a capital. */
  lemma {:induction false} GoalLabelShape(goal: string)
    ensures GoalTable(goal).Some? ==> |goal| > 0 && IsAsciiUpper(goal[0])
  {
  }

  /** Lower-case letters, digits and underscores only. */
  predicate ProfileName(s: string) {
    forall i :: 0 <= i < |s| ==> IsLowerAlnum(s[i]) || s[i] == '_'
  }

  /** No profile name of the table has a capital or a space. */
  lemma {:induction false} GoalNameShape(goal: string)
    ensures GoalTable(goal).Some? ==>
      ' ' !in GoalTable(goal).value && forall i :: 0 <= i < |GoalTable(goal).value| ==> !IsAsciiUpper(GoalTable(goal).value[i])
  {
    assert ProfileName("specific_race");
    assert ProfileName("general_fitness");
    assert ProfileName("base_building");
    assert ProfileName("off_season");
    assert ProfileName("return_from_injury");
    assert ProfileName("performance_improvement");
    if GoalTable(goal).Some? {
      assert ProfileName(GoalTable(goal).value);
    }
  }

  /** `convert_primary_goal`: a known goal gets its profile name, any other
      text is lower-cased with spaces turned into underscores. */
  function ConvertPrimaryGoal(goal: string): (r: string)
    ensures GoalTable(goal).None? ==> |r| == |goal|
    ensures ' ' !in r
    ensures forall i :: 0 <= i < |r| ==> !IsAsciiUpper(r[i])
  {
    GoalNameShape(goal);
    match GoalTable(goal)
    case Some(name) => name
    case None =>
      var folded := Replace(Lower(goal), ' ', '_');
      assert forall i :: 0 <= i < |folded| ==> folded[i] != ' ';
      folded
  }

  /** Converting a converted goal changes nothing: no profile name is a form
      label, and profile names have no capitals or spaces left to fold. */
  lemma {:induction false} ConvertPrimaryGoalIdempotent(goal: string)
    ensures ConvertPrimaryGoal(ConvertPrimaryGoal(goal)) == ConvertPrimaryGoal(goal)
  {
    var r := ConvertPrimaryGoal(goal);
    GoalLabelShape(r);
    LowerOfLowercase(r);
    ReplaceAbsent(r, ' ', '_');
  }

  // ---------------------------------------------------------------------
  // Weekly volume

  /** `s.replace(c, '')`. */
  function DropChar(s: string, c: char): (r: string)
    ensures c !in r
    ensures c !in s ==> r == s
  {
    if |s| == 0 then [] else (if s[0] == c then [] else [s[0]]) + DropChar(s[1..], c)
  }

  /** `parse_weekly_volume`: "" is (0, 0); "N+" is (N, 40), checked before
      the dash; "a-b" is (a, b) from the first two pieces; "n" is (n, n).
      A piece `int()` cannot read is the `ValueError`. */
  function ParseWeeklyVolume(volume: string): (r: Result<(int, int)>)
    ensures volume == "" ==> r == Ok((0, 0))
    ensures r.Ok? && IsSuffix("+", volume) ==> r.value.1 == 40
    ensures r.Ok? && !IsSuffix("+", volume) && '-' !in volume ==> r.value.0 == r.value.1
  {
    if |volume| == 0 then Ok((0, 0))
    else if volume[|volume| - 1] == '+' then Both(ParsePyInt(DropChar(volume, '+')), Ok(40))
    else if '-' in volume then
      SplitHasTwo(volume, '-');
      var parts := Split(volume, '-');
      Both(ParsePyInt(parts[0]), ParsePyInt(parts[1]))
    else Both(ParsePyInt(volume), ParsePyInt(volume))
  }

  /** Two readings, the first one's error winning. */
  function Both(low: Result<int>, high: Result<int>): (r: Result<(int, int)>)
    ensures r.Ok? <==> low.Ok? && high.Ok?
    ensures r.Ok? ==> r.value == (low.value, high.value)
  {
    match low
    case Err(e) => Err(e)
    case Ok(a) =>
      match high
      case Err(e) => Err(e)
      case Ok(b) => Ok((a, b))
  }

  /** A range written "a-b" reads back as (a, b). */
  lemma {:induction false} VolumeRangeRoundTrip(a: nat, b: nat)
    ensures ParseWeeklyVolume(NatToString(a) + "-" + NatToString(b)) == Ok((a, b))
  {
    var lo := NatToString(a);
    var hi := NatToString(b);
    var s := lo + "-" + hi;
    assert s[|s| - 1] != '+' && '-' in s by {
      assert s == lo + ['-'] + hi;
      assert s[|s| - 1] == hi[|hi| - 1];
    }
    assert Split(s, '-') == [lo, hi] by {
      assert s == lo + ['-'] + hi;
      SplitAfter(lo, '-', hi);
    }
    ParseIntToString(a);
    ParseIntToString(b);
  }

  /** An open range "N+" reads back as (N, 40). */
  lemma {:induction false} VolumeOpenRoundTrip(n: nat)
    ensures ParseWeeklyVolume(NatToString(n) + "+") == Ok((n, 40))
  {
    var d := NatToString(n);
    var s := d + "+";
    assert DropChar(s, '+') == d by {
      DropCharAppend(d, "+", '+');
    }
    ParseIntToString(n);
  }

  /** Removing a character from a non-empty string handles its first
      character, then the rest. */
  lemma {:induction false} DropCharFirst(s: string, c: char)
    requires |s| > 0
    ensures DropChar(s, c) == (if s[0] == c then [] else [s[0]]) + DropChar(s[1..], c)
  {
  }

  lemma {:induction false} DropCharAppend(a: string, b: string, c: char)
    ensures DropChar(a + b, c) == DropChar(a, c) + DropChar(b, c)
  {
    if |a| == 0 {
      assert a + b == b;
    } else {
      var ab := a + b;
      assert ab[0] == a[0] && ab[1..] == a[1..] + b;
      var h := if a[0] == c then [] else [a[0]];
      var x, y := DropChar(a[1..], c), DropChar(b, c);
      assert DropChar(a[1..] + b, c) == x + y by {
        DropCharAppend(a[1..], b, c);
      }
      assert DropChar(ab, c) == h + (x + y) by {
        DropCharFirst(ab, c);
      }
      assert DropChar(a, c) == h + x by {
        DropCharFirst(a, c);
      }
      assert h + (x + y) == (h + x) + y;
    }
  }

  /** A single number reads back as a zero-width range. */
  lemma {:induction false} VolumeSingleRoundTrip(n: nat)
    ensures ParseWeeklyVolume(NatToString(n)) == Ok((n, n))
  {
    var d := NatToString(n);
    assert '-' !in d && d[|d| - 1] != '+';
    ParseIntToString(n);
  }

  /** The validator's upper bound of the weekly volume is the profile's
      highest weekly hours, whenever the profile can be built, except for
      text that both holds a dash and ends in '+', which the two scripts
      read differently. */
  lemma {:induction false} VolumeParsersAgree(volume: string)
    requires ParseWeeklyVolume(volume).Ok?
    requires !('-' in volume && IsSuffix("+", volume))
    ensures Validation.MaxHoursFromVolume(Str(volume)) == Ok(ParseWeeklyVolume(volume).value.1)
  {
    if '-' in volume {
      SplitHasTwo(volume, '-');
      assert ParsePyInt("").Err?;
    }
  }

  /** A negative open range such as "-5+" is (-5, 40) for the profile but
      an unreadable number for the validator, which splits at the dash
      first. */
  lemma {:induction false} VolumeParsersDisagree()
    ensures ParseWeeklyVolume("-5+") == Ok((-5, 40))
    ensures Validation.MaxHoursFromVolume(Str("-5+")).Err?
  {
    NegativeOpenRange();
    NegativeOpenRangeRejected();
  }

  lemma {:induction false} NegativeOpenRange()
    ensures ParseWeeklyVolume("-5+") == Ok((-5, 40))
  {
    var s := "-5+";
    DropPlusOfNegative();
    ParseMinusFive();
    assert s[|s| - 1] == '+';
  }

  lemma {:induction false} DropPlusOfNegative()
    ensures DropChar("-5+", '+') == "-5"
  {
    assert "-5+" == "-5" + "+";
    DropCharAppend("-5", "+", '+');
    assert DropChar("+", '+') == "";
  }

  lemma {:induction false} ParseMinusFive()
    ensures ParsePyInt("-5") == Ok(-5)
  {
    var d := "5";
    ParseNegatedDigits(d);
    assert "-" + d == "-5";
    assert DigitsValue(d) == 5 by {
      assert d[..|d| - 1] == "";
      assert DigitValue(d[0]) == 5;
    }
  }

  lemma {:induction false} NegativeOpenRangeRejected()
    ensures Validation.MaxHoursFromVolume(Str("-5+")).Err?
  {
    UpperPieceOfNegativeOpen();
    PlusSuffixUnreadable();
  }

  /** The piece after the first dash of "-5+" is "5+". */
  lemma {:induction false} UpperPieceOfNegativeOpen()
    ensures '-' in "-5+" && |Split("-5+", '-')| > 1 && Split("-5+", '-')[1] == "5+"
  {
    var s := "-5+";
    assert s == "" + ['-'] + "5+";
    SplitAfter("", '-', "5+");
    assert '-' !in "5+";
    assert Split("5+", '-') == ["5+"];
  }

  /** `int('5+')` raises. */
  lemma {:induction false} PlusSuffixUnreadable()
    ensures ParsePyInt("5+").Err?
  {
    StripUntouched("5+");
    assert !DigitBody("5+");
  }

  // ---------------------------------------------------------------------
  // Days

  datatype TimeSlot = AM | PM

  /** A day of `preferred_days`. */
  datatype DayPlan = DayPlan(available: bool, timeSlots: seq<TimeSlot>, maxDurationMin: int, keyDayOk: bool)

  const Unavailable := DayPlan(false, [], 0, false)

  /** The time slots of an available day. */
  function SlotsFor(time: Value): (r: seq<TimeSlot>)
    ensures |r| >= 1
    ensures AM in r <==> !(time == Str("afternoon") || time == Str("evening"))
    ensures PM in r <==> time == Str("afternoon") || time == Str("evening") || time == Str("flexible")
  {
    if time == Str("early_morning") || time == Str("morning") then [AM]
    else if time == Str("afternoon") || time == Str("evening") then [PM]
    else if time == Str("flexible") then [AM, PM]
    else [AM]
  }

  /** `convert_day_availability`: an unavailable day is the fixed empty
      plan; an available day gets its slots, a duration of 60 minutes unless
      one is given, and may hold a key session. A duration `int()` cannot
      read is the error. */
  function ConvertDayAvailability(form: Form, day: string): (r: Result<DayPlan>)
    ensures !Truthy(GetOr(form, day + "_available", Bool(false))) ==> r == Ok(Unavailable)
    ensures Truthy(GetOr(form, day + "_available", Bool(false))) ==>
      var duration := GetOr(form, day + "_duration", Str(""));
      && (r.Ok? <==> !Truthy(duration) || ToInt(duration).Ok?)
      && (r.Ok? ==> r.value.available && r.value.keyDayOk)
      && (r.Ok? ==> r.value.timeSlots == SlotsFor(GetOr(form, day + "_time", Str(""))))
      && (r.Ok? && Truthy(duration) ==> ToInt(duration) == Ok(r.value.maxDurationMin))
      && (r.Ok? && !Truthy(duration) ==> r.value.maxDurationMin == 60)
  {
    var available := GetOr(form, day + "_available", Bool(false));
    var time := GetOr(form, day + "_time", Str(""));
    var duration := GetOr(form, day + "_duration", Str(""));
    if !Truthy(available) then Ok(Unavailable)
    else
      var minutes := if Truthy(duration) then ToInt(duration) else Ok(60);
      match minutes
      case Err(e) => Err(e)
      case Ok(m) => Ok(DayPlan(true, SlotsFor(time), m, true))
  }

  /** A day the validator counts as available is a day the profile marks
      available, and conversely. */
  lemma {:induction false} DayAvailabilityAgrees(form: Form, day: string)
    requires ConvertDayAvailability(form, day).Ok?
    ensures ConvertDayAvailability(form, day).value.available <==> Validation.DayAvailable(form, day)
  {
  }

  /** The day plans of a list of days, failing at the first day that fails. */
  function ConvertDays(form: Form, days: seq<string>): (r: Result<seq<DayPlan>>)
    ensures r.Ok? <==> forall i :: 0 <= i < |days| ==> ConvertDayAvailability(form, days[i]).Ok?
    ensures r.Ok? ==> |r.value| == |days|
    ensures r.Ok? ==> forall i :: 0 <= i < |days| ==> r.value[i] == ConvertDayAvailability(form, days[i]).value
  {
    if |days| == 0 then Ok([])
    else
      match ConvertDayAvailability(form, days[0])
      case Err(e) => Err(e)
      case Ok(plan) =>
        match ConvertDays(form, days[1..])
        case Err(e) => Err(e)
        case Ok(rest) => Ok([plan] + rest)
  }

  // ---------------------------------------------------------------------
  // Equipment

  /** `equipment_map`, for the names the form sends. */
  function EquipmentName(item: string): Option<string> {
    if item == "smart_trainer" then Some("smart_trainer")
    else if item == "dumb_trainer_pm" then Some("power_meter_bike")
    else if item == "outdoor_pm" then Some("power_meter_bike")
    else if item == "gym_membership" then Some("gym_membership")
    else if item == "home_gym" then Some("dumbbells")
    else if item == "pull_up_bar" then Some("pull_up_bar")
    else if item == "resistance_bands" then Some("resistance_bands")
    else None
  }

  const StrengthEquipment: set<string> :=
    {"smart_trainer", "power_meter_bike", "gym_membership", "dumbbells", "pull_up_bar", "resistance_bands"}

  /** `equipment_map.get(eq)`: strings are looked up ("no_pm" maps to
      nothing), other scalars are unknown, and a list or object cannot be a
      key (`TypeError`). */
  function MapItem(item: Value): (r: Result<Option<string>>)
    ensures r.Err? <==> item.List? || item.Obj?
    ensures r.Ok? && r.value.Some? ==> item.Str? && r.value == EquipmentName(item.s)
    ensures r.Ok? && r.value.Some? ==> r.value.value in StrengthEquipment
    ensures r.Ok? ==> r.value == Mapped(item)
  {
    match item
    case Str(s) => Ok(EquipmentName(s))
    case List(_) => Err("unhashable type: 'list'")
    case Obj(_) => Err("unhashable type: 'dict'")
    case _ => Ok(None)
  }

  /** The loop of `convert_equipment`: each known item in turn, duplicates
      kept, unknown items and "no_pm" dropped. */
  function MapEquipment(items: seq<Value>): (r: Result<seq<string>>)
    ensures r.Ok? <==> forall i :: 0 <= i < |items| ==> MapItem(items[i]).Ok?
    ensures r.Ok? ==> |r.value| <= |items|
    ensures r.Ok? ==> forall e :: e in r.value ==> e in StrengthEquipment
  {
    if |items| == 0 then Ok([])
    else
      match MapItem(items[0])
      case Err(e) => Err(e)
      case Ok(head) =>
        match MapEquipment(items[1..])
        case Err(e) => Err(e)
        case Ok(rest) => Ok((if head.Some? then [head.value] else []) + rest)
  }

  /** An equipment name is listed exactly when some form item maps to it. */
  lemma {:induction false} MapEquipmentMembership(items: seq<Value>, e: string)
    requires MapEquipment(items).Ok?
    ensures e in MapEquipment(items).value <==>
      exists i :: 0 <= i < |items| && items[i].Str? && EquipmentName(items[i].s) == Some(e)
  {
    if |items| > 0 {
      MapEquipmentMembership(items[1..], e);
      if exists i :: 1 <= i < |items| && items[i].Str? && EquipmentName(items[i].s) == Some(e) {
        var i :| 1 <= i < |items| && items[i].Str? && EquipmentName(items[i].s) == Some(e);
        assert items[1..][i - 1] == items[i];
      }
      if exists i :: 0 <= i < |items[1..]| && items[1..][i].Str? && EquipmentName(items[1..][i].s) == Some(e) {
        var i :| 0 <= i < |items[1..]| && items[1..][i].Str? && EquipmentName(items[1..][i].s) == Some(e);
        assert items[i + 1] == items[1..][i];
      }
    }
  }

  /** The name an item maps to, when it maps to one. */
  function Mapped(item: Value): Option<string> {
    if item.Str? then EquipmentName(item.s) else None
  }

  /** `idx` lists, in increasing order, exactly the positions of the items
      that map to a name, and `names` holds those names in the same order. */
  predicate PositionsOf(items: seq<Value>, names: seq<string>, idx: seq<int>) {
    && |idx| == |names|
    && (forall k :: 0 <= k < |idx| ==> 0 <= idx[k] < |items|)
    && (forall k, l :: 0 <= k < l < |idx| ==> idx[k] < idx[l])
    && (forall k :: 0 <= k < |idx| ==> Mapped(items[idx[k]]) == Some(names[k]))
    && (forall i :: 0 <= i < |items| && Mapped(items[i]).Some? ==> i in idx)
  }

  /** The mapped list is, in order, the names of exactly the items that map
      to one: an item that maps appears once for each time it is given. */
  lemma {:induction false} MapEquipmentPositions(items: seq<Value>) returns (idx: seq<int>)
    requires MapEquipment(items).Ok?
    ensures PositionsOf(items, MapEquipment(items).value, idx)
  {
    if |items| == 0 {
      idx := [];
    } else {
      var rest := MapEquipmentPositions(items[1..]);
      var tail := MapEquipment(items[1..]).value;
      var head := MapItem(items[0]).value;
      assert MapEquipment(items).value == (if head.Some? then [head.value] else []) + tail;
      idx := PositionsCons(items, head, tail, rest);
    }
  }

  /** Positions for the items after the first, shifted by one, with the
      first item's position put in front when it maps. */
  lemma {:induction false} PositionsCons(items: seq<Value>, head: Option<string>, tail: seq<string>,
                                         rest: seq<int>) returns (idx: seq<int>)
    requires |items| > 0 && head == Mapped(items[0])
    requires PositionsOf(items[1..], tail, rest)
    ensures PositionsOf(items, (if head.Some? then [head.value] else []) + tail, idx)
  {
    var shifted := ShiftPositions(items, tail, rest);
    if head.Some? {
      idx := PositionsFront(items, head.value, tail, shifted);
    } else {
      idx := shifted;
      assert [] + tail == tail;
    }
  }

  /** Putting the first item's position in front of the others'. */
  lemma {:induction false} PositionsFront(items: seq<Value>, name: string, tail: seq<string>, shifted: seq<int>)
    returns (idx: seq<int>)
    requires |items| > 0 && Mapped(items[0]) == Some(name)
    requires |shifted| == |tail|
    requires forall k :: 0 <= k < |shifted| ==> 1 <= shifted[k] < |items|
    requires forall k, l :: 0 <= k < l < |shifted| ==> shifted[k] < shifted[l]
    requires forall k :: 0 <= k < |shifted| ==> Mapped(items[shifted[k]]) == Some(tail[k])
    requires forall i :: 1 <= i < |items| && Mapped(items[i]).Some? ==> i in shifted
    ensures PositionsOf(items, [name] + tail, idx)
  {
    idx := [0] + shifted;
    FrontNames(items, name, tail, shifted);
    FrontIncreasing(shifted);
    FrontCovers(items, shifted);
  }

  lemma {:induction false} FrontNames(items: seq<Value>, name: string, tail: seq<string>, shifted: seq<int>)
    requires |items| > 0 && Mapped(items[0]) == Some(name)
    requires |shifted| == |tail|
    requires forall k :: 0 <= k < |shifted| ==> 1 <= shifted[k] < |items|
    requires forall k :: 0 <= k < |shifted| ==> Mapped(items[shifted[k]]) == Some(tail[k])
    ensures forall k :: 0 <= k < |[0] + shifted| ==>
      0 <= ([0] + shifted)[k] < |items| && Mapped(items[([0] + shifted)[k]]) == Some(([name] + tail)[k])
  {
    var idx, names := [0] + shifted, [name] + tail;
    forall k | 0 < k < |idx|
      ensures 0 <= idx[k] < |items| && Mapped(items[idx[k]]) == Some(names[k])
    {
      assert idx[k] == shifted[k - 1] && names[k] == tail[k - 1];
    }
  }

  lemma {:induction false} FrontIncreasing(shifted: seq<int>)
    requires forall k :: 0 <= k < |shifted| ==> 1 <= shifted[k]
    requires forall k, l :: 0 <= k < l < |shifted| ==> shifted[k] < shifted[l]
    ensures forall k, l :: 0 <= k < l < |[0] + shifted| ==> ([0] + shifted)[k] < ([0] + shifted)[l]
  {
    var idx := [0] + shifted;
    forall k, l | 0 <= k < l < |idx|
      ensures idx[k] < idx[l]
    {
      assert idx[l] == shifted[l - 1];
      if k > 0 {
        assert idx[k] == shifted[k - 1];
      }
    }
  }

  lemma {:induction false} FrontCovers(items: seq<Value>, shifted: seq<int>)
    requires forall i :: 1 <= i < |items| && Mapped(items[i]).Some? ==> i in shifted
    ensures forall i :: 0 <= i < |items| && Mapped(items[i]).Some? ==> i in [0] + shifted
  {
    var idx := [0] + shifted;
    forall i | 1 <= i < |items| && Mapped(items[i]).Some?
      ensures i in idx
    {
      var k :| 0 <= k < |shifted| && shifted[k] == i;
      assert idx[k + 1] == i;
    }
  }

  /** The positions of the items after the first, counted in the whole list. */
  lemma {:induction false} ShiftPositions(items: seq<Value>, tail: seq<string>, rest: seq<int>)
    returns (shifted: seq<int>)
    requires |items| > 0
    requires PositionsOf(items[1..], tail, rest)
    ensures |shifted| == |tail|
    ensures forall k :: 0 <= k < |shifted| ==> 1 <= shifted[k] < |items|
    ensures forall k, l :: 0 <= k < l < |shifted| ==> shifted[k] < shifted[l]
    ensures forall k :: 0 <= k < |shifted| ==> Mapped(items[shifted[k]]) == Some(tail[k])
    ensures forall i :: 1 <= i < |items| && Mapped(items[i]).Some? ==> i in shifted
  {
    shifted := seq(|rest|, k requires 0 <= k < |rest| => rest[k] + 1);
    forall k | 0 <= k < |shifted|
      ensures Mapped(items[shifted[k]]) == Some(tail[k])
    {
      assert items[shifted[k]] == items[1..][rest[k]];
    }
    forall i | 1 <= i < |items| && Mapped(items[i]).Some?
      ensures i in shifted
    {
      assert items[1..][i - 1] == items[i];
      var k :| 0 <= k < |rest| && rest[k] == i - 1;
      assert shifted[k] == i;
    }
  }

  /** `convert_equipment`: a single value is wrapped into a list first. */
  function ConvertEquipment(form: Form): Result<seq<string>> {
    MapEquipment(AsList(GetOr(form, "equipment", List([]))))
  }

  /** Two power meters give two entries: duplicates are not merged. */
  lemma {:induction false} PowerMetersKept()
    ensures MapEquipment([Str("dumb_trainer_pm"), Str("outdoor_pm")]) == Ok(["power_meter_bike", "power_meter_bike"])
  {
    var items := [Str("dumb_trainer_pm"), Str("outdoor_pm")];
    assert EquipmentName("dumb_trainer_pm") == Some("power_meter_bike");
    assert EquipmentName("outdoor_pm") == Some("power_meter_bike");
    var tail := [Str("outdoor_pm")];
    assert items[1..] == tail;
    assert tail[1..] == [];
    assert MapItem(tail[0]) == Ok(Some("power_meter_bike"));
    assert ["power_meter_bike"] + [] == ["power_meter_bike"];
    assert MapEquipment(tail) == Ok(["power_meter_bike"]);
    assert MapItem(items[0]) == Ok(Some("power_meter_bike"));
    assert ["power_meter_bike"] + ["power_meter_bike"] == ["power_meter_bike", "power_meter_bike"];
  }

  // ---------------------------------------------------------------------
  // Health conditions

  /** Index of the first occurrence of `x`. */
  function FirstIndex(xs: seq<Value>, x: Value): (i: nat)
    requires x in xs
    ensures i < |xs| && xs[i] == x && x !in xs[..i]
  {
    if xs[0] == x then 0
    else
      var j := FirstIndex(xs[1..], x);
      assert xs[1..][..j] == xs[1..j + 1];
      j + 1
  }

  /** `convert_health_conditions`: "none" is removed, first occurrence only,
      when other conditions are listed; a lone "none" stays. */
  function ConvertHealthConditions(conditions: Value): (r: seq<Value>)
    ensures var c := AsList(conditions);
      if |c| > 1 && Str("none") in c then
        |r| == |c| - 1 && multiset(r) == multiset(c) - multiset{Str("none")}
        && exists i :: 0 <= i < |c| && c[i] == Str("none") && Str("none") !in c[..i] && r == c[..i] + c[i + 1..]
      else r == c
  {
    var c := AsList(conditions);
    if |c| > 1 && Str("none") in c then
      var i := FirstIndex(c, Str("none"));
      assert c == c[..i] + [c[i]] + c[i + 1..];
      c[..i] + c[i + 1..]
    else c
  }

  // ---------------------------------------------------------------------
  // B events

  /** The stripped, non-empty lines, in order. */
  function NonEmptyLines(lines: seq<string>): (r: seq<string>)
    ensures |r| <= |lines|
    ensures forall k :: 0 <= k < |r| ==> |r[k]| > 0 && Strip(r[k]) == r[k]
  {
    if |lines| == 0 then []
    else
      var line := Strip(lines[0]);
      if |line| > 0 then
        StripUntouched(line);
        [line] + NonEmptyLines(lines[1..])
      else NonEmptyLines(lines[1..])
  }

  /** `parse_b_priority_events`: one B event per non-blank line, named by the
      stripped line. */
  function ParseBEvents(text: string): (names: seq<string>)
    ensures |names| <= CountChar(text, '\n') + 1
    ensures forall k :: 0 <= k < |names| ==> |names[k]| > 0 && Strip(names[k]) == names[k]
  {
    SplitCount(text, '\n');
    if |text| == 0 then [] else NonEmptyLines(Split(text, '\n'))
  }

  /** Lines with no whitespace at either end are kept as they are. */
  lemma {:induction false} NonEmptyLinesKeep(lines: seq<string>)
    requires forall k :: 0 <= k < |lines| ==> |lines[k]| > 0 && !IsPySpace(lines[k][0]) && !IsPySpace(lines[k][|lines[k]| - 1])
    ensures NonEmptyLines(lines) == lines
  {
    if |lines| > 0 {
      var head, rest := lines[0], lines[1..];
      StripUntouched(head);
      NonEmptyLinesKeep(rest);
      assert NonEmptyLines(lines) == [head] + rest;
      HeadTail(lines);
    }
  }

  /** Event names written one per line read back as the same names. */
  lemma {:induction false} BEventsRoundTrip(names: seq<string>)
    requires |names| >= 1
    requires forall k :: 0 <= k < |names| ==>
      && |names[k]| > 0 && '\n' !in names[k]
      && !IsPySpace(names[k][0]) && !IsPySpace(names[k][|names[k]| - 1])
    ensures ParseBEvents(Join(names, '\n')) == names
  {
    var text := Join(names, '\n');
    SplitJoin(names, '\n');
    NonEmptyLinesKeep(names);
    if |text| == 0 {
      JoinNonEmpty(names, '\n');
    }
  }

  lemma {:induction false} JoinNonEmpty(parts: seq<string>, sep: char)
    requires |parts| >= 1 && |parts[0]| > 0
    ensures |Join(parts, sep)| > 0
  {
  }

  /** The profile's form of a B event. */
  function BEventRecord(name: string): Form {
    map["name" := Str(name), "priority" := Str("B")]
  }

  function BEventRecords(names: seq<string>): (r: seq<Form>)
    ensures |r| == |names|
    ensures forall k :: 0 <= k < |r| ==> r[k] == BEventRecord(names[k])
  {
    if |names| == 0 then [] else [BEventRecord(names[0])] + BEventRecords(names[1..])
  }

  // ---------------------------------------------------------------------
  // Derived profile fields

  datatype StrengthBackground = Beginner | Intermediate
  datatype StressLevel = ModerateStress | HighStress

  /** The part of the profile the model derives. */
  datatype Profile = Profile(
    primaryGoal: string,
    currentWeeklyHours: int,
    highestWeeklyHours: int,
    totalHoursAvailable: int,
    cyclingHoursTarget: int,
    strengthSessionsMax: int,
    strengthBackground: StrengthBackground,
    stressLevel: StressLevel,
    secondaryRaces: seq<Form>,
    targetRaceName: Option<Value>,
    age: Option<int>,
    preferredDays: seq<DayPlan>,
    strengthEquipment: seq<string>,
    medicalConditions: seq<Value>,
    yearsStructured: int,
    primarySportLevel: int,
    racesLastYear: Option<int>,
    ftpWatts: Option<int>,
    mobilityRating: int,
    workHoursPerWeek: Option<int>,
    workStressLevel: Option<int>,
    fluidIntakeRating: Option<int>,
    groupRidesPerWeek: int,
    groupRideImportance: Option<int>,
    groupRidesAvailable: bool)

  /** `parse_weekly_volume` on whatever the form holds: only text has the
      string methods the parser calls. */
  function VolumeOf(v: Value): Result<(int, int)> {
    if !Truthy(v) then Ok((0, 0))
    else if v.Str? then ParseWeeklyVolume(v.s)
    else Err("'weekly_volume' is not a string")
  }

  /** The B events of the form, the same way. */
  function BEventsOf(v: Value): Result<seq<string>> {
    if !Truthy(v) then Ok([])
    else if v.Str? then Ok(ParseBEvents(v.s))
    else Err("'b_priority_events' is not a string")
  }

  /** `(datetime.now() - birth_date).days // 365`. */
  function DaysAge(birth: Date, today: Date): int
    requires Valid(birth) && Valid(today)
  {
    DaysBetween(birth, today) / 365
  }

  /** The age the profile records: the form's `age`, or else the one worked
      out from a readable birthday; an age of 0 is no age. */
  function AgeOf(form: Form, today: Date): Value
    requires Valid(today)
  {
    var age := Get(form, "age");
    var birthday := Get(form, "birthday");
    if !Truthy(age) && Truthy(birthday) && birthday.Str? && ParseIsoDate(birthday.s).Some? then
      Int(DaysAge(ParseIsoDate(birthday.s).value, today))
    else age
  }

  /** Whether there is a target race: a first parsed race or a race name. */
  predicate HasTarget(form: Form, primaryRaces: seq<Form>) {
    (|primaryRaces| > 0 && |primaryRaces[0]| > 0) || Truthy(Get(form, "race_name"))
  }

  function TargetName(form: Form, primaryRaces: seq<Form>): Value {
    if |primaryRaces| > 0 && |primaryRaces[0]| > 0 then GetOr(primaryRaces[0], "name", Str(""))
    else GetOr(form, "race_name", Str(""))
  }

  function SessionsFor(interest: Value): (n: int)
    ensures 0 <= n <= 2
    ensures n == 2 <==> interest == Str("eager")
    ensures n == 1 <==> interest == Str("willing")
  {
    if interest == Str("eager") then 2 else if interest == Str("willing") then 1 else 0
  }

  /** `int(form.get(key, default))`. */
  function IntField(form: Form, key: string, default: int): Result<int> {
    ToInt(GetOr(form, key, Int(default)))
  }

  /** `int(form.get(key, ...)) if form.get(key) else None`: a falsy or absent
      value is not read. */
  function OptionalIntField(form: Form, key: string): Result<Option<int>> {
    var v := Get(form, key);
    if Truthy(v) then
      var n :- ToInt(v);
      Ok(Some(n))
    else Ok(None)
  }

  /** Whether the target race's distance comes from the form: no parsed race
      stands in and the form names a race. */
  predicate ReadsRaceDistance(form: Form, primaryRaces: seq<Form>) {
    !(|primaryRaces| > 0 && |primaryRaces[0]| > 0) && Truthy(Get(form, "race_name"))
  }

  /** The `int()` of `race_distance` that the target race's distance needs:
      read when the unit is miles (0 when absent), otherwise only when the
      distance is truthy. The kilometre factor is a float and is not
      modelled. */
  function RaceDistanceInt(form: Form): Result<Option<int>> {
    if Get(form, "race_distance_unit") == Str("miles") then
      var n :- IntField(form, "race_distance", 0);
      Ok(Some(n))
    else OptionalIntField(form, "race_distance")
  }

  /** `float(form.get('sleep_hours', 7)) if form.get('sleep_hours') else 7`:
      whether the form's own value is used. */
  function SleepHoursGiven(form: Form): Result<bool> {
    var v := Get(form, "sleep_hours");
    if !Truthy(v) then Ok(false)
    else if FloatReadable(v) then Ok(true)
    else Err("could not convert string to float")
  }

  /** `', '.join(...)` of the health conditions: every item must be text. */
  function JoinedConditions(conditions: seq<Value>): Result<seq<Value>> {
    if forall c :: c in conditions ==> c.Str? then Ok(conditions)
    else Err("sequence item: expected str instance")
  }

  /** `form.get('group_rides_per_week', 0) > 0`: only numbers compare with
      0; text, `None`, lists and objects raise `TypeError`. */
  function ComparePositive(v: Value): Result<bool> {
    match v
    case Int(i) => Ok(i > 0)
    case Bool(b) => Ok(b)
    case _ => Err("'>' not supported between instances")
  }

  /** `int(form.get(key, ...)) if form.get(key) else ...` does not raise. */
  predicate OptionalIntOk(form: Form, key: string) {
    Truthy(Get(form, key)) ==> ToInt(Get(form, key)).Ok?
  }

  /** When `create_profile_from_form` gets past every conversion of the form
      before its final look at the target race: each reading that can raise
      succeeds. */
  predicate ConversionsSucceed(form: Form, primaryRaces: seq<Form>, today: Date)
    requires Valid(today)
  {
    FrontConversionsSucceed(form, primaryRaces) && BackConversionsSucceed(form, today)
  }

  /** The volume, the race distance, the B events, the training history and
      fitness numbers, the seven days and the equipment. */
  predicate FrontConversionsSucceed(form: Form, primaryRaces: seq<Form>) {
    EntryConversionsSucceed(form, primaryRaces) && HistoryConversionsSucceed(form)
  }

  /** The volume, the race distance, the B events and the primary goal. */
  predicate EntryConversionsSucceed(form: Form, primaryRaces: seq<Form>) {
    && VolumeOf(GetOr(form, "weekly_volume", Str("0-2"))).Ok?
    && (ReadsRaceDistance(form, primaryRaces) ==> RaceDistanceInt(form).Ok?)
    && BEventsOf(GetOr(form, "b_priority_events", Str(""))).Ok?
    && GetOr(form, "primary_goal", Str("")).Str?
  }

  /** `convert_primary_goal(form.get('primary_goal', ''))`. The fallback
      `form_goal.lower()` is an argument of the table lookup, so it runs
      whatever the lookup finds: anything but text raises `AttributeError`. */
  function GoalOf(form: Form): (r: Result<string>)
    ensures r.Ok? <==> GetOr(form, "primary_goal", Str("")).Str?
    ensures r.Ok? ==> r.value == ConvertPrimaryGoal(GetOr(form, "primary_goal", Str("")).s)
  {
    match GetOr(form, "primary_goal", Str(""))
    case Str(goal) => Ok(ConvertPrimaryGoal(goal))
    case _ => Err("object has no attribute 'lower'")
  }

  /** The training history and fitness numbers, the seven days and the
      equipment. */
  predicate HistoryConversionsSucceed(form: Form) {
    NumberConversionsSucceed(form) && ScheduleConversionsSucceed(form)
  }

  /** The training history and fitness numbers. */
  predicate NumberConversionsSucceed(form: Form) {
    && ToInt(GetOr(form, "years_structured", Int(0))).Ok?
    && ToInt(GetOr(form, "primary_sport_level", Int(3))).Ok?
    && OptionalIntOk(form, "races_last_year")
    && OptionalIntOk(form, "current_ftp")
  }

  /** The seven days, the membership tests on the equipment, device and
      limitation lists, and the equipment mapping. */
  predicate ScheduleConversionsSucceed(form: Form) {
    && (forall d :: d in WeekDays ==> ConvertDayAvailability(form, d).Ok?)
    && Searchable(GetOr(form, "equipment", List([])))
    && Searchable(GetOr(form, "devices", List([])))
    && (forall item :: item in AsList(GetOr(form, "equipment", List([]))) ==> !item.List? && !item.Obj?)
    && Searchable(GetOr(form, "limitations", List([])))
  }

  /** `'name' in v` answers for text, lists and objects; `None`, numbers and
      booleans raise `TypeError`. */
  predicate Searchable(v: Value) {
    v.Str? || v.List? || v.Obj?
  }

  /** The membership tests `'name' in form.get(key, [])` of the profile
      literal; the answers themselves are not part of the profile model. */
  function MembershipTests(form: Form, key: string): (r: Result<Value>)
    ensures r.Ok? <==> Searchable(GetOr(form, key, List([])))
    ensures r.Ok? ==> r.value == GetOr(form, key, List([]))
  {
    var v := GetOr(form, key, List([]));
    if Searchable(v) then Ok(v) else Err("argument of type is not iterable")
  }

  /** The health, strength, work, nutrition and social numbers, the
      condition list's join, and the group-ride comparison. */
  predicate BackConversionsSucceed(form: Form, today: Date)
    requires Valid(today)
  {
    HealthConversionsSucceed(form, today) && LifeConversionsSucceed(form)
  }

  /** Age, sleep, job stress, the condition list's join and mobility. */
  predicate HealthConversionsSucceed(form: Form, today: Date)
    requires Valid(today)
  {
    && (Truthy(AgeOf(form, today)) ==> ToInt(AgeOf(form, today)).Ok?)
    && (Truthy(Get(form, "sleep_hours")) ==> FloatReadable(Get(form, "sleep_hours")))
    && ToInt(GetOr(form, "job_stress", Int(3))).Ok?
    && (forall c :: c in ConvertHealthConditions(GetOr(form, "health_conditions", List([]))) ==> c.Str?)
    && OptionalIntOk(form, "mobility_rating")
  }

  /** Work hours, fluid intake and the group-ride numbers. */
  predicate LifeConversionsSucceed(form: Form) {
    && OptionalIntOk(form, "work_hours")
    && OptionalIntOk(form, "fluid_intake")
    && OptionalIntOk(form, "group_rides_per_week")
    && OptionalIntOk(form, "group_ride_importance")
    && (GetOr(form, "group_rides_per_week", Int(0)).Int? || GetOr(form, "group_rides_per_week", Int(0)).Bool?)
  }

  /** The list-shaped readings succeed exactly when each element does. */
  lemma {:induction false} ReadingsAgree(form: Form)
    ensures ConvertDays(form, WeekDays).Ok? <==> forall d :: d in WeekDays ==> ConvertDayAvailability(form, d).Ok?
    ensures ConvertEquipment(form).Ok? <==>
      forall item :: item in AsList(GetOr(form, "equipment", List([]))) ==> !item.List? && !item.Obj?
  {
    var items := AsList(GetOr(form, "equipment", List([])));
    assert forall item :: item in items <==> exists i :: 0 <= i < |items| && items[i] == item;
    assert forall d :: d in WeekDays <==> exists i :: 0 <= i < |WeekDays| && WeekDays[i] == d;
  }

  /** The readings of the first half of the profile. */
  datatype FrontReadings = FrontReadings(
    hours: (int, int),
    bNames: seq<string>,
    goal: string,
    yearsStructured: int,
    sportLevel: int,
    racesLastYear: Option<int>,
    ftp: Option<int>,
    days: seq<DayPlan>,
    equipment: seq<string>)

  /** The readings of the second half of the profile. */
  datatype BackReadings = BackReadings(
    ageValue: Value,
    years: int,
    stress: int,
    conditions: seq<Value>,
    mobility: Option<int>,
    workHours: Option<int>,
    workStress: Option<int>,
    fluid: Option<int>,
    groupRides: Option<int>,
    groupImportance: Option<int>,
    groupRidesAvailable: bool)

  /** What the profile literal reads from the form, each reading already
      successful. */
  datatype Readings = Readings(front: FrontReadings, back: BackReadings)

  /** The first half of the readings, in the order the script evaluates
      them. */
  function ReadFront(form: Form, primaryRaces: seq<Form>): (r: Result<FrontReadings>)
    ensures r.Ok? <==> FrontConversionsSucceed(form, primaryRaces)
    ensures r.Ok? ==> VolumeOf(GetOr(form, "weekly_volume", Str("0-2"))) == Ok(r.value.hours)
    ensures r.Ok? ==> BEventsOf(GetOr(form, "b_priority_events", Str(""))) == Ok(r.value.bNames)
    ensures r.Ok? ==> GoalOf(form) == Ok(r.value.goal)
    ensures r.Ok? ==> ToInt(GetOr(form, "years_structured", Int(0))) == Ok(r.value.yearsStructured)
    ensures r.Ok? ==> ToInt(GetOr(form, "primary_sport_level", Int(3))) == Ok(r.value.sportLevel)
    ensures r.Ok? ==> ConvertDays(form, WeekDays) == Ok(r.value.days)
    ensures r.Ok? ==> ConvertEquipment(form) == Ok(r.value.equipment)
  {
    var entries :- ReadEntries(form, primaryRaces);
    var h :- ReadHistory(form);
    Ok(FrontReadings(entries.0, entries.1, entries.2, h.yearsStructured, h.sportLevel, h.racesLastYear, h.ftp,
      h.days, h.equipment))
  }

  /** The volume and the B events. The race distance is read before the B
      events when there are no parsed races, and after them, inside the
      profile literal, when the first parsed race is empty. */
  function ReadEntries(form: Form, primaryRaces: seq<Form>): (r: Result<((int, int), seq<string>, string)>)
    ensures r.Ok? <==> EntryConversionsSucceed(form, primaryRaces)
    ensures r.Ok? ==> VolumeOf(GetOr(form, "weekly_volume", Str("0-2"))) == Ok(r.value.0)
    ensures r.Ok? ==> BEventsOf(GetOr(form, "b_priority_events", Str(""))) == Ok(r.value.1)
    ensures r.Ok? ==> GoalOf(form) == Ok(r.value.2)
  {
    var hours :- VolumeOf(GetOr(form, "weekly_volume", Str("0-2")));
    var early :- if |primaryRaces| == 0 && ReadsRaceDistance(form, primaryRaces) then RaceDistanceInt(form) else Ok(None);
    var bNames :- BEventsOf(GetOr(form, "b_priority_events", Str("")));
    var goal :- GoalOf(form);
    var late :- if |primaryRaces| > 0 && ReadsRaceDistance(form, primaryRaces) then RaceDistanceInt(form) else Ok(None);
    Ok((hours, bNames, goal))
  }

  /** The training history and fitness numbers, the days and the equipment. */
  function ReadHistory(form: Form): (r: Result<FrontReadings>)
    ensures r.Ok? <==> HistoryConversionsSucceed(form)
    ensures r.Ok? ==> ToInt(GetOr(form, "years_structured", Int(0))) == Ok(r.value.yearsStructured)
    ensures r.Ok? ==> ToInt(GetOr(form, "primary_sport_level", Int(3))) == Ok(r.value.sportLevel)
    ensures r.Ok? ==> ConvertDays(form, WeekDays) == Ok(r.value.days)
    ensures r.Ok? ==> ConvertEquipment(form) == Ok(r.value.equipment)
  {
    var n :- ReadNumbers(form);
    var schedule :- ReadSchedule(form);
    Ok(FrontReadings((0, 0), [], "", n.yearsStructured, n.sportLevel, n.racesLastYear, n.ftp,
      schedule.0, schedule.1))
  }

  /** Years of structured training, sport level, races last year and FTP. */
  function ReadNumbers(form: Form): (r: Result<FrontReadings>)
    ensures r.Ok? <==> NumberConversionsSucceed(form)
    ensures r.Ok? ==> ToInt(GetOr(form, "years_structured", Int(0))) == Ok(r.value.yearsStructured)
    ensures r.Ok? ==> ToInt(GetOr(form, "primary_sport_level", Int(3))) == Ok(r.value.sportLevel)
  {
    var yearsStructured :- IntField(form, "years_structured", 0);
    var sportLevel :- IntField(form, "primary_sport_level", 3);
    var racesLastYear :- OptionalIntField(form, "races_last_year");
    var ftp :- OptionalIntField(form, "current_ftp");
    Ok(FrontReadings((0, 0), [], "", yearsStructured, sportLevel, racesLastYear, ftp, [], []))
  }

  /** The seven days, the cycling equipment's membership tests on the
      equipment and device lists, the equipment list, and the movement
      limitations' membership tests, in the script's order. */
  function ReadSchedule(form: Form): (r: Result<(seq<DayPlan>, seq<string>)>)
    ensures r.Ok? <==> ScheduleConversionsSucceed(form)
    ensures r.Ok? ==> ConvertDays(form, WeekDays) == Ok(r.value.0)
    ensures r.Ok? ==> ConvertEquipment(form) == Ok(r.value.1)
  {
    ReadingsAgree(form);
    var days :- ConvertDays(form, WeekDays);
    var equipmentList :- MembershipTests(form, "equipment");
    var deviceList :- MembershipTests(form, "devices");
    var equipment :- ConvertEquipment(form);
    var limitationList :- MembershipTests(form, "limitations");
    Ok((days, equipment))
  }

  /** The second half of the readings, in the order the script evaluates
      them. */
  function ReadBack(form: Form, today: Date): (r: Result<BackReadings>)
    requires Valid(today)
    ensures r.Ok? <==> BackConversionsSucceed(form, today)
    ensures r.Ok? ==> r.value.ageValue == AgeOf(form, today)
    ensures r.Ok? && Truthy(AgeOf(form, today)) ==> ToInt(AgeOf(form, today)) == Ok(r.value.years)
    ensures r.Ok? ==> ToInt(GetOr(form, "job_stress", Int(3))) == Ok(r.value.stress)
    ensures r.Ok? ==> r.value.conditions == ConvertHealthConditions(GetOr(form, "health_conditions", List([])))
    ensures r.Ok? ==> OptionalIntField(form, "group_rides_per_week") == Ok(r.value.groupRides)
    ensures r.Ok? ==> ComparePositive(GetOr(form, "group_rides_per_week", Int(0))) == Ok(r.value.groupRidesAvailable)
  {
    var health :- ReadHealth(form, today);
    var life :- ReadLife(form, health.stress);
    Ok(life.(ageValue := health.ageValue, years := health.years, conditions := health.conditions,
      mobility := health.mobility))
  }

  /** Age, sleep, job stress, the health conditions and mobility. */
  function ReadHealth(form: Form, today: Date): (r: Result<BackReadings>)
    requires Valid(today)
    ensures r.Ok? <==> HealthConversionsSucceed(form, today)
    ensures r.Ok? ==> r.value.ageValue == AgeOf(form, today)
    ensures r.Ok? && Truthy(AgeOf(form, today)) ==> ToInt(AgeOf(form, today)) == Ok(r.value.years)
    ensures r.Ok? ==> ToInt(GetOr(form, "job_stress", Int(3))) == Ok(r.value.stress)
    ensures r.Ok? ==> r.value.conditions == ConvertHealthConditions(GetOr(form, "health_conditions", List([])))
  {
    var ageValue := AgeOf(form, today);
    var years :- if Truthy(ageValue) then ToInt(ageValue) else Ok(0);
    var sleepGiven :- SleepHoursGiven(form);
    var stress :- IntField(form, "job_stress", 3);
    var conditions :- JoinedConditions(ConvertHealthConditions(GetOr(form, "health_conditions", List([]))));
    var mobility :- OptionalIntField(form, "mobility_rating");
    Ok(BackReadings(ageValue, years, stress, conditions, mobility, None, None, None, None, None, false))
  }

  /** Work hours, work stress, fluid intake and the group-ride numbers;
      `stress` is the job stress already read. */
  function ReadLife(form: Form, stress: int): (r: Result<BackReadings>)
    ensures r.Ok? <==> LifeConversionsSucceed(form)
    ensures r.Ok? ==> r.value.stress == stress
    ensures r.Ok? ==> OptionalIntField(form, "group_rides_per_week") == Ok(r.value.groupRides)
    ensures r.Ok? ==> ComparePositive(GetOr(form, "group_rides_per_week", Int(0))) == Ok(r.value.groupRidesAvailable)
  {
    var workHours :- OptionalIntField(form, "work_hours");
    // `int(form.get('job_stress', 3)) if form.get('job_stress')` reads the
    // value that has just been read, so it cannot raise.
    var workStress := if Truthy(Get(form, "job_stress")) then Some(stress) else None;
    var fluid :- OptionalIntField(form, "fluid_intake");
    var groupRides :- OptionalIntField(form, "group_rides_per_week");
    var groupImportance :- OptionalIntField(form, "group_ride_importance");
    var groupRidesAvailable :- ComparePositive(GetOr(form, "group_rides_per_week", Int(0)));
    Ok(BackReadings(Null, 0, stress, [], None, workHours, workStress, fluid,
      groupRides, groupImportance, groupRidesAvailable))
  }

  /** All readings of the profile literal; the first that raises is the
      outcome. */
  function Read(form: Form, primaryRaces: seq<Form>, today: Date): (r: Result<Readings>)
    requires Valid(today)
    ensures r.Ok? <==> ConversionsSucceed(form, primaryRaces, today)
    ensures r.Ok? ==> ReadFront(form, primaryRaces) == Ok(r.value.front)
    ensures r.Ok? ==> ReadBack(form, today) == Ok(r.value.back)
  {
    var front :- ReadFront(form, primaryRaces);
    var back :- ReadBack(form, today);
    Ok(Readings(front, back))
  }

  /** The profile fields built from successful readings. */
  function Build(form: Form, primaryRaces: seq<Form>, rd: Readings): Profile {
    var name := TargetName(form, primaryRaces);
    var f, b := rd.front, rd.back;
    Profile(
      f.goal,
      f.hours.0, f.hours.1, f.hours.1 + 2, f.hours.1,
      SessionsFor(Get(form, "strength_interest")),
      if Get(form, "strength_trains") == Str("no") then Beginner else Intermediate,
      if b.stress <= 3 then ModerateStress else HighStress,
      BEventRecords(f.bNames) + (if |primaryRaces| > 1 then primaryRaces[1..] else []),
      if Truthy(name) then Some(name) else None,
      if Truthy(b.ageValue) then Some(b.years) else None,
      f.days,
      f.equipment,
      b.conditions,
      f.yearsStructured,
      f.sportLevel,
      f.racesLastYear,
      f.ftp,
      b.mobility.GetOr(3),
      b.workHours,
      b.workStress,
      b.fluid,
      b.groupRides.GetOr(0),
      b.groupImportance,
      b.groupRidesAvailable)
  }

  /** `create_profile_from_form`, for the fields above. `primaryRaces` is
      what `parse_race_list` made of the race list and `today` stands for
      the clock. With neither a parsed race nor a race name the final
      `profile['target_race']['name']` fails. */
  function CreateProfile(form: Form, primaryRaces: seq<Form>, today: Date): (r: Result<Profile>)
    requires Valid(today)
    ensures !HasTarget(form, primaryRaces) ==> r.Err?
    ensures r.Ok? <==> ConversionsSucceed(form, primaryRaces, today) && HasTarget(form, primaryRaces)
    ensures r.Ok? ==>
      && VolumeOf(GetOr(form, "weekly_volume", Str("0-2"))) == Ok((r.value.currentWeeklyHours, r.value.highestWeeklyHours))
      && r.value.totalHoursAvailable == r.value.highestWeeklyHours + 2
      && r.value.cyclingHoursTarget == r.value.highestWeeklyHours
    ensures r.Ok? ==>
      GetOr(form, "primary_goal", Str("")).Str?
      && r.value.primaryGoal == ConvertPrimaryGoal(GetOr(form, "primary_goal", Str("")).s)
  {
    var rd :- Read(form, primaryRaces, today);
    if !HasTarget(form, primaryRaces) then Err("'NoneType' object is not subscriptable")
    else Ok(Build(form, primaryRaces, rd))
  }

  /** What the derived fields mean: sessions by interest, stress by the job
      stress rating, background by whether the athlete lifts, the B events
      before the other parsed races, and a target name only when it is
      truthy. */
  lemma {:induction false} ProfileFields(form: Form, primaryRaces: seq<Form>, today: Date)
    requires Valid(today)
    ensures CreateProfile(form, primaryRaces, today).Ok? ==>
      var p := CreateProfile(form, primaryRaces, today).value;
      && (p.strengthSessionsMax == 2 <==> Get(form, "strength_interest") == Str("eager"))
      && (p.strengthSessionsMax == 1 <==> Get(form, "strength_interest") == Str("willing"))
      && 0 <= p.strengthSessionsMax <= 2
      && ToInt(GetOr(form, "job_stress", Int(3))).Ok?
      && (p.stressLevel == ModerateStress <==> ToInt(GetOr(form, "job_stress", Int(3))).value <= 3)
      && (p.strengthBackground == Beginner <==> Get(form, "strength_trains") == Str("no"))
      && BEventsOf(GetOr(form, "b_priority_events", Str(""))).Ok?
      && var names := BEventsOf(GetOr(form, "b_priority_events", Str(""))).value;
      && |p.secondaryRaces| == |names| + (if |primaryRaces| > 1 then |primaryRaces| - 1 else 0)
      && p.secondaryRaces[..|names|] == BEventRecords(names)
      && (|primaryRaces| > 1 ==> p.secondaryRaces[|names|..] == primaryRaces[1..])
      && (p.targetRaceName.Some? <==> Truthy(TargetName(form, primaryRaces)))
      && |p.preferredDays| == 7
      && (p.groupRidesAvailable <==> p.groupRidesPerWeek > 0)
  {
    if CreateProfile(form, primaryRaces, today).Ok? {
      var rd := Read(form, primaryRaces, today).value;
      assert CreateProfile(form, primaryRaces, today).value == Build(form, primaryRaces, rd);
      BuildFields(form, primaryRaces, rd);
      GroupRidesAgree(GetOr(form, "group_rides_per_week", Int(0)), form, rd.back);
    }
  }

  /** The two readings of `group_rides_per_week`, the count and the
      comparison with 0, agree whenever both succeed. */
  lemma {:induction false} GroupRidesAgree(v: Value, form: Form, b: BackReadings)
    requires v == GetOr(form, "group_rides_per_week", Int(0))
    requires OptionalIntField(form, "group_rides_per_week") == Ok(b.groupRides)
    requires ComparePositive(v) == Ok(b.groupRidesAvailable)
    ensures b.groupRidesAvailable <==> b.groupRides.GetOr(0) > 0
  {
    if "group_rides_per_week" in form {
      assert Get(form, "group_rides_per_week") == v;
    }
  }

  lemma {:induction false} BuildFields(form: Form, primaryRaces: seq<Form>, rd: Readings)
    ensures var p := Build(form, primaryRaces, rd);
      && (p.strengthSessionsMax == 2 <==> Get(form, "strength_interest") == Str("eager"))
      && (p.strengthSessionsMax == 1 <==> Get(form, "strength_interest") == Str("willing"))
      && 0 <= p.strengthSessionsMax <= 2
      && (p.stressLevel == ModerateStress <==> rd.back.stress <= 3)
      && (p.strengthBackground == Beginner <==> Get(form, "strength_trains") == Str("no"))
      && |p.secondaryRaces| == |rd.front.bNames| + (if |primaryRaces| > 1 then |primaryRaces| - 1 else 0)
      && p.secondaryRaces[..|rd.front.bNames|] == BEventRecords(rd.front.bNames)
      && (|primaryRaces| > 1 ==> p.secondaryRaces[|rd.front.bNames|..] == primaryRaces[1..])
      && (p.targetRaceName.Some? <==> Truthy(TargetName(form, primaryRaces)))
      && p.preferredDays == rd.front.days
      && p.groupRidesPerWeek == rd.back.groupRides.GetOr(0)
      && p.groupRidesAvailable == rd.back.groupRidesAvailable
  {
  }

  /** A form that passes the validator's schedule check gives a profile with
      at least three available days. */
  lemma {:induction false} ValidScheduleCarriesOver(form: Form, primaryRaces: seq<Form>, today: Date)
    requires Valid(today)
    ensures CreateProfile(form, primaryRaces, today).Ok? && Validation.ThreeDaysAvailable(form) ==>
      var days := CreateProfile(form, primaryRaces, today).value.preferredDays;
      exists i, j, k :: 0 <= i < j < k < |days| && days[i].available && days[j].available && days[k].available
  {
    if CreateProfile(form, primaryRaces, today).Ok? && Validation.ThreeDaysAvailable(form) {
      var flags := Validation.Availability(form, WeekDays);
      assert Validation.ThreeSet(flags);
      var i, j, k :| 0 <= i < j < k < |flags| && flags[i] && flags[j] && flags[k];
      DayAvailabilityAgrees(form, WeekDays[i]);
      DayAvailabilityAgrees(form, WeekDays[j]);
      DayAvailabilityAgrees(form, WeekDays[k]);
    }
  }

  /** The profile's age from a birthday counts 365-day blocks, while the
      guide counts birthdays: across a leap day they differ. Born on
      2023-03-01, on 2024-02-29 the profile says 1 and the guide says 0. */
  lemma {:induction false} DaysAgeDiffersFromCompletedYears()
    ensures DaysAge(Date(2023, 3, 1), Date(2024, 2, 29)) == 1
    ensures Guide.CompletedYears(Date(2023, 3, 1), Date(2024, 2, 29)) == 0
  {
    assert DaysBeforeYear(2024) == DaysBeforeYear(2023) + 365;
    assert DaysBeforeMonth(2024, 2) == 31;
    assert DaysBeforeMonth(2023, 3) == 59;
  }

  /** A form naming its race but rating mobility "high" does not become a
      profile: `int('high')` raises. */
  lemma {:induction false} UnreadableMobilityRaises(today: Date)
    requires Valid(today)
    ensures var form := map["race_name" := Str("X"), "mobility_rating" := Str("high")];
      HasTarget(form, []) && CreateProfile(form, [], today).Err?
  {
    var form := map["race_name" := Str("X"), "mobility_rating" := Str("high")];
    StripUntouched("high");
    assert BodyValue("high").None? by { assert !IsDigit('h'); }
    assert !OptionalIntOk(form, "mobility_rating");
  }

  /** An equipment answer of `null` makes the cycling equipment's
      membership test raise. */
  lemma {:induction false} NullEquipmentRaises(today: Date)
    requires Valid(today)
    ensures var form := map["race_name" := Str("X"), "equipment" := Null];
      HasTarget(form, []) && CreateProfile(form, [], today).Err?
  {
    var form := map["race_name" := Str("X"), "equipment" := Null];
    assert !Searchable(GetOr(form, "equipment", List([])));
    assert !ScheduleConversionsSucceed(form);
  }

  /** A primary goal of `null` makes the goal conversion raise. */
  lemma {:induction false} NullGoalRaises(today: Date)
    requires Valid(today)
    ensures var form := map["race_name" := Str("X"), "primary_goal" := Null];
      HasTarget(form, []) && CreateProfile(form, [], today).Err?
  {
    var form := map["race_name" := Str("X"), "primary_goal" := Null];
    assert !GetOr(form, "primary_goal", Str("")).Str?;
    assert !EntryConversionsSucceed(form, []);
  }

  /** Limitations given as a number make the movement limitations'
      membership test raise. */
  lemma {:induction false} NumericLimitationsRaise(today: Date)
    requires Valid(today)
    ensures var form := map["race_name" := Str("X"), "limitations" := Int(3)];
      HasTarget(form, []) && CreateProfile(form, [], today).Err?
  {
    var form := map["race_name" := Str("X"), "limitations" := Int(3)];
    assert !Searchable(GetOr(form, "limitations", List([])));
    assert !ScheduleConversionsSucceed(form);
  }

  /** Group rides given as text make the comparison with 0 raise, even when
      the text is a number. */
  lemma {:induction false} GroupRidesTextRaises(today: Date)
    requires Valid(today)
    ensures var form := map["race_name" := Str("X"), "group_rides_per_week" := Str("2")];
      HasTarget(form, []) && CreateProfile(form, [], today).Err?
  {
    var form := map["race_name" := Str("X"), "group_rides_per_week" := Str("2")];
    assert GetOr(form, "group_rides_per_week", Int(0)) == Str("2");
    assert !LifeConversionsSucceed(form);
  }
}

=== FILE: periodization.dfy ===
/** The cycling periodization of the annual training plan: the phase
    templates chosen by plan length, the first-match phase of a week, and
    the per-week focus, recovery flag and volume label, plus the generic
    week layout used when no weekly structure is on file. */
module Periodization {
  import opened Common

  datatype Phase = Base | Build | Peak | Taper

  /** The order the phases are meant to follow in a plan. */
  function Rank(p: Phase): int {
    match p
    case Base => 0
    case Build => 1
    case Peak => 2
    case Taper => 3
  }

  function PhaseName(p: Phase): string {
    match p
    case Base => "Base"
    case Build => "Build"
    case Peak => "Peak"
    case Taper => "Taper"
  }

  /** Weeks `start..end` (both included) belong to `phase`. */
  datatype WeekRange = WeekRange(start: int, end: int, phase: Phase)

  /** The template for a plan of `planWeeks` weeks. */
  function PhaseRanges(planWeeks: int): (r: seq<WeekRange>)
    ensures |r| == 4
    ensures forall i :: 0 <= i < 4 ==> Rank(r[i].phase) == i
    ensures r[0].start == 1
  {
    if planWeeks >= 20 then
      [WeekRange(1, 4, Base), WeekRange(5, 12, Build), WeekRange(13, 18, Peak), WeekRange(19, planWeeks, Taper)]
    else if planWeeks >= 12 then
      [WeekRange(1, 3, Base), WeekRange(4, 7, Build), WeekRange(8, 10, Peak), WeekRange(11, planWeeks, Taper)]
    else
      [WeekRange(1, 2, Base), WeekRange(3, 5, Build), WeekRange(6, planWeeks - 1, Peak),
       WeekRange(planWeeks, planWeeks, Taper)]
  }

  /** The phase of the first range holding the week, if any. */
  function FirstMatch(ranges: seq<WeekRange>, week: int): (r: Option<Phase>)
    ensures r.Some? <==> exists i :: 0 <= i < |ranges| && ranges[i].start <= week <= ranges[i].end
  {
    if |ranges| == 0 then None
    else if ranges[0].start <= week <= ranges[0].end then Some(ranges[0].phase)
    else
      var rest := FirstMatch(ranges[1..], week);
      assert forall i :: 1 <= i < |ranges| ==> ranges[i] == ranges[1..][i - 1];
      rest
  }

  /** `get_phase`: the first matching range, 'Build' when none matches. */
  function GetPhase(planWeeks: int, week: int): Phase {
    FirstMatch(PhaseRanges(planWeeks), week).GetOr(Build)
  }

  /** An independent reading of the templates as threshold tests. */
  function ThresholdPhase(planWeeks: int, week: int): Phase {
    if planWeeks >= 20 then
      (if week <= 4 then Base else if week <= 12 then Build else if week <= 18 then Peak else Taper)
    else if planWeeks >= 12 then
      (if week <= 3 then Base else if week <= 7 then Build else if week <= 10 then Peak else Taper)
    else
      (if week <= 2 then Base else if week <= 5 then Build else if week <= planWeeks - 1 then Peak else Taper)
  }

  /** Every week of the plan lies in some range, so the 'Build' fallback is
      never taken, and the phase is the threshold reading. */
  lemma {:induction false} PhaseCovered(planWeeks: int, week: int)
    requires 1 <= week <= planWeeks
    ensures FirstMatch(PhaseRanges(planWeeks), week).Some?
    ensures GetPhase(planWeeks, week) == ThresholdPhase(planWeeks, week)
  {
    var r := PhaseRanges(planWeeks);
    FirstMatchOfFour(r[0], r[1], r[2], r[3], week);
    assert r == [r[0], r[1], r[2], r[3]];
  }

  /** First match over a four-range template, written out. */
  lemma {:induction false} FirstMatchOfFour(a: WeekRange, b: WeekRange, c: WeekRange, d: WeekRange, week: int)
    ensures FirstMatch([a, b, c, d], week) ==
      if a.start <= week <= a.end then Some(a.phase)
      else if b.start <= week <= b.end then Some(b.phase)
      else if c.start <= week <= c.end then Some(c.phase)
      else if d.start <= week <= d.end then Some(d.phase)
      else None
  {
    assert [d][1..] == [];
    assert FirstMatch([d], week) == if d.start <= week <= d.end then Some(d.phase) else None;
    assert [c, d][1..] == [d];
    assert FirstMatch([c, d], week) ==
      if c.start <= week <= c.end then Some(c.phase) else FirstMatch([d], week);
    assert [b, c, d][1..] == [c, d];
    assert FirstMatch([b, c, d], week) ==
      if b.start <= week <= b.end then Some(b.phase) else FirstMatch([c, d], week);
    assert [a, b, c, d][1..] == [b, c, d];
  }

  /** Phases never go backwards as the weeks advance. */
  lemma {:induction false} PhaseMonotone(planWeeks: int, w1: int, w2: int)
    requires 1 <= w1 <= w2 <= planWeeks
    ensures Rank(GetPhase(planWeeks, w1)) <= Rank(GetPhase(planWeeks, w2))
  {
    PhaseCovered(planWeeks, w1);
    PhaseCovered(planWeeks, w2);
  }

  /** From six weeks on, the plan ends in the taper. */
  lemma {:induction false} LastWeekIsTaper(planWeeks: int)
    requires planWeeks >= 6
    ensures GetPhase(planWeeks, planWeeks) == Taper
  {
    PhaseCovered(planWeeks, planWeeks);
  }

  /** Plans of five weeks or fewer have no peak and no taper: Build's range
      3-5 is tried before Taper's. */
  lemma {:induction false} ShortPlanHasNoPeakOrTaper(planWeeks: int, week: int)
    requires 1 <= week <= planWeeks <= 5
    ensures GetPhase(planWeeks, week) in {Base, Build}
  {
    PhaseCovered(planWeeks, week);
  }

  /** The start of the first range of a phase: the offset `phase_week_num`
      is counted from. */
  function PhaseStart(planWeeks: int, phase: Phase): int {
    PhaseRanges(planWeeks)[Rank(phase)].start
  }

  function PhaseWeekNum(planWeeks: int, week: int): int {
    week - PhaseStart(planWeeks, GetPhase(planWeeks, week))
  }

  /** A week's offset into its phase is never negative. */
  lemma {:induction false} PhaseWeekNumNonnegative(planWeeks: int, week: int)
    requires 1 <= week <= planWeeks
    ensures PhaseWeekNum(planWeeks, week) >= 0
  {
    PhaseCovered(planWeeks, week);
  }

  /** How many focus texts each phase has; the texts themselves are prose. */
  function FocusCount(phase: Phase): (n: nat)
    ensures n == 4 || n == 6
  {
    match phase
    case Base => 4
    case Build => 6
    case Peak => 4
    case Taper => 4
  }

  /** Which focus text a week shows: the phase's list, indexed cyclically by
      the week's offset into its phase. */
  function FocusIndex(planWeeks: int, week: int): (r: int)
    ensures 0 <= r < FocusCount(GetPhase(planWeeks, week))
  {
    PhaseWeekNum(planWeeks, week) % FocusCount(GetPhase(planWeeks, week))
  }

  /** The focus list cycles: within a phase the next week shows the next
      text, wrapping to the first after the last, so a week one list length
      later in the same phase shows the same text; and the weeks before the
      list runs out show the texts in order. */
  lemma {:induction false} FocusCycles(planWeeks: int, week: int)
    requires 1 <= week <= planWeeks
    ensures var n := FocusCount(GetPhase(planWeeks, week));
      week + 1 <= planWeeks && GetPhase(planWeeks, week + 1) == GetPhase(planWeeks, week) ==>
        FocusIndex(planWeeks, week + 1) == (FocusIndex(planWeeks, week) + 1) % n
    ensures var n := FocusCount(GetPhase(planWeeks, week));
      week + n <= planWeeks && GetPhase(planWeeks, week + n) == GetPhase(planWeeks, week) ==>
        FocusIndex(planWeeks, week + n) == FocusIndex(planWeeks, week)
    ensures PhaseWeekNum(planWeeks, week) < FocusCount(GetPhase(planWeeks, week)) ==>
      FocusIndex(planWeeks, week) == PhaseWeekNum(planWeeks, week)
  {
    var n := FocusCount(GetPhase(planWeeks, week));
    if week + 1 <= planWeeks && GetPhase(planWeeks, week + 1) == GetPhase(planWeeks, week) {
      FocusNext(planWeeks, week);
    }
    if week + n <= planWeeks && GetPhase(planWeeks, week + n) == GetPhase(planWeeks, week) {
      FocusWraps(planWeeks, week);
    }
    FocusInOrder(planWeeks, week);
  }

  /** The next week of the same phase shows the next focus text. */
  lemma {:induction false} FocusNext(planWeeks: int, week: int)
    requires 1 <= week && week + 1 <= planWeeks
    requires GetPhase(planWeeks, week + 1) == GetPhase(planWeeks, week)
    ensures FocusIndex(planWeeks, week + 1) ==
      (FocusIndex(planWeeks, week) + 1) % FocusCount(GetPhase(planWeeks, week))
  {
    PhaseWeekNumNonnegative(planWeeks, week);
    var n := FocusCount(GetPhase(planWeeks, week));
    var k := PhaseWeekNum(planWeeks, week);
    ModNext(k, n);
    FocusShift(planWeeks, week, 1);
  }

  /** A week one list length later in the same phase shows the same text. */
  lemma {:induction false} FocusWraps(planWeeks: int, week: int)
    requires 1 <= week
    requires week + FocusCount(GetPhase(planWeeks, week)) <= planWeeks
    requires GetPhase(planWeeks, week + FocusCount(GetPhase(planWeeks, week))) == GetPhase(planWeeks, week)
    ensures FocusIndex(planWeeks, week + FocusCount(GetPhase(planWeeks, week))) == FocusIndex(planWeeks, week)
  {
    PhaseWeekNumNonnegative(planWeeks, week);
    var n := FocusCount(GetPhase(planWeeks, week));
    var k := PhaseWeekNum(planWeeks, week);
    ModWrap(k, n);
    FocusShift(planWeeks, week, n);
  }

  /** Until the list runs out, a phase's weeks show its texts in order. */
  lemma {:induction false} FocusInOrder(planWeeks: int, week: int)
    requires 1 <= week <= planWeeks
    ensures PhaseWeekNum(planWeeks, week) < FocusCount(GetPhase(planWeeks, week)) ==>
      FocusIndex(planWeeks, week) == PhaseWeekNum(planWeeks, week)
  {
    PhaseWeekNumNonnegative(planWeeks, week);
    var k := PhaseWeekNum(planWeeks, week);
    if k < FocusCount(GetPhase(planWeeks, week)) {
      ModOf(k, FocusCount(GetPhase(planWeeks, week)), 0, k);
    }
  }

  /** A week `d` weeks later in the same phase is `d` further into it, so
      its focus index is the offset plus `d`, modulo the list length. */
  lemma {:induction false} FocusShift(planWeeks: int, week: int, d: int)
    requires 1 <= week && 0 < d && week + d <= planWeeks
    requires GetPhase(planWeeks, week + d) == GetPhase(planWeeks, week)
    ensures FocusIndex(planWeeks, week + d) ==
      (PhaseWeekNum(planWeeks, week) + d) % FocusCount(GetPhase(planWeeks, week))
  {
    assert PhaseWeekNum(planWeeks, week + d) == PhaseWeekNum(planWeeks, week) + d;
  }

  /** Stepping modulo a focus list's length. */
  lemma {:induction false} ModNext(k: int, n: int)
    requires k >= 0 && (n == 4 || n == 6)
    ensures (k + 1) % n == (k % n + 1) % n
  {
    var q, r := DivParts(k, n);
    if r + 1 < n {
      ModOf(k + 1, n, q, r + 1);
      ModOf(r + 1, n, 0, r + 1);
    } else {
      ModOf(k + 1, n, q + 1, 0);
      ModOf(r + 1, n, 1, 0);
    }
  }

  /** Wrapping: one list length further gives the same index. */
  lemma {:induction false} ModWrap(k: int, n: int)
    requires k >= 0 && (n == 4 || n == 6)
    ensures (k + n) % n == k % n
  {
    var q, r := DivParts(k, n);
    ModOf(k + n, n, q + 1, r);
  }

  /** The quotient and remainder of `k` by a focus list's length. */
  lemma {:induction false} DivParts(k: int, n: int) returns (q: int, r: int)
    requires n == 4 || n == 6
    ensures k == q * n + r && 0 <= r < n && r == k % n
  {
    if n == 4 {
      q, r := k / 4, k % 4;
    } else {
      q, r := k / 6, k % 6;
    }
  }

  /** The remainder is the one that fits the quotient. */
  lemma {:induction false} ModOf(a: int, n: int, q: int, r: int)
    requires (n == 4 || n == 6) && 0 <= r < n && a == q * n + r
    ensures a % n == r
  {
    if n == 4 {
      assert a == 4 * q + r;
    } else {
      assert a == 6 * q + r;
    }
  }

  datatype Volume = RecoveryVolume | Low | Medium | High | PeakVolume

  /** `is_recovery`: every fourth week outside the taper. */
  predicate IsRecovery(week: int, phase: Phase) {
    week % 4 == 0 && phase != Taper
  }

  /** The volume label: 'Recovery' on a recovery week, otherwise the
      position in the four-week cycle. */
  function VolumeLabel(week: int, phase: Phase): (r: Volume)
    ensures r == RecoveryVolume <==> IsRecovery(week, phase)
    ensures !IsRecovery(week, phase) ==> r == [Low, Medium, High, PeakVolume][week % 4]
  {
    if IsRecovery(week, phase) then RecoveryVolume
    else [Low, Medium, High, PeakVolume][if 3 < week % 4 then 3 else week % 4]
  }

  /** A taper week at a multiple of four is not a recovery week; it reads
      'Low'. */
  lemma {:induction false} TaperQuarterWeekIsLow(week: int)
    requires week % 4 == 0
    ensures VolumeLabel(week, Taper) == Low
    ensures VolumeLabel(week, Build) == RecoveryVolume
  {
  }

  datatype WeekRow = WeekRow(week: int, phase: Phase, focus: int, recovery: bool, volume: Volume)

  function Row(planWeeks: int, week: int): WeekRow {
    var phase := GetPhase(planWeeks, week);
    WeekRow(week, phase, FocusIndex(planWeeks, week),
            IsRecovery(week, phase), VolumeLabel(week, phase))
  }

  /** The rows of `range(1, plan_weeks + 1)`. */
  function WeekRows(planWeeks: int): (r: seq<WeekRow>)
    ensures planWeeks <= 0 ==> r == []
    ensures planWeeks > 0 ==> |r| == planWeeks
    ensures forall i :: 0 <= i < |r| ==> r[i].week == i + 1 && r[i].phase == GetPhase(planWeeks, i + 1)
  {
    if planWeeks <= 0 then [] else seq(planWeeks, i requires 0 <= i < planWeeks => Row(planWeeks, i + 1))
  }

  /** Over a whole plan, the row phases are in Base, Build, Peak, Taper order
      and none comes from the fallback. */
  lemma {:induction false} RowsOrdered(planWeeks: int)
    ensures forall i, j :: 0 <= i <= j < |WeekRows(planWeeks)| ==>
      Rank(WeekRows(planWeeks)[i].phase) <= Rank(WeekRows(planWeeks)[j].phase)
  {
    var rows := WeekRows(planWeeks);
    forall i, j | 0 <= i <= j < |rows|
      ensures Rank(rows[i].phase) <= Rank(rows[j].phase)
    {
      PhaseMonotone(planWeeks, i + 1, j + 1);
    }
  }

  // ---------------------------------------------------------------------
  // Generic week layout

  /** The workouts of the generic week. */
  datatype Workout =
    | Rest | EasyRide | Strength | Tempo | LongRide | Intervals | Recovery
    | VO2Intervals | RacePace | Openers | RaceOrEasy

  function WorkoutLabel(w: Workout): string {
    match w
    case Rest => "Rest"
    case EasyRide => "Easy Ride"
    case Strength => "Strength"
    case Tempo => "Tempo"
    case LongRide => "Long Ride"
    case Intervals => "Intervals"
    case Recovery => "Recovery"
    case VO2Intervals => "VO2 Intervals"
    case RacePace => "Race Pace"
    case Openers => "Openers"
    case RaceOrEasy => "Race/Easy"
  }

  /** The seven workouts of a generic week in a phase, Monday first. */
  function GenericDays(phase: Phase): (r: seq<Workout>)
    ensures |r| == 7
  {
    match phase
    case Base => [Rest, EasyRide, Strength, Tempo, Strength, LongRide, EasyRide]
    case Build => [Strength, Intervals, EasyRide, Strength, EasyRide, LongRide, Recovery]
    case Peak => [Strength, VO2Intervals, EasyRide, RacePace, Rest, LongRide, EasyRide]
    case Taper => [Strength, Openers, Rest, EasyRide, Rest, RaceOrEasy, Rest]
  }

  function KeyDayCandidates(phase: Phase): seq<int> {
    if phase == Build || phase == Peak then [1, 3, 5] else [3, 5]
  }

  /** The workouts that never make a key day. */
  predicate IsEasyWorkout(w: Workout) {
    w == Rest || w == Recovery || w == EasyRide
  }

  datatype DayCell = DayCell(day: int, workout: Workout, key: bool, strength: bool)

  /** The fallback week: a day is key when it is a candidate for the phase
      and not an easy day; it is styled as strength when its workout's label
      contains "Strength", which among these labels is the strength session
      alone. */
  function GenericWeek(phase: Phase): (r: seq<DayCell>)
    ensures |r| == 7
    ensures forall i :: 0 <= i < 7 ==> r[i].day == i && r[i].workout == GenericDays(phase)[i]
    ensures forall i :: 0 <= i < 7 ==> (r[i].key ==> !IsEasyWorkout(r[i].workout))
  {
    var days := GenericDays(phase);
    seq(7, i requires 0 <= i < 7 =>
      DayCell(i, days[i], i in KeyDayCandidates(phase) && !IsEasyWorkout(days[i]), days[i] == Strength))
  }

  /** Which days come out as key, phase by phase (Monday is day 0). */
  function KeyDaysOf(phase: Phase): set<int> {
    match phase
    case Base => {3, 5}
    case Build => {1, 3, 5}
    case Peak => {1, 3, 5}
    case Taper => {5}
  }

  lemma {:induction false} GenericKeyDays(phase: Phase)
    ensures forall i :: 0 <= i < 7 ==> (GenericWeek(phase)[i].key <==> i in KeyDaysOf(phase))
  {
  }
}

=== FILE: race_calendar.dfy ===
/** The race timeline of the HTML guide: the A, B and C events of the
    profile, with an A event made up from the target race when the profile
    lists none, in date order. Python's `list.sort` is stable, so events on
    the same date keep their A-B-C order; events without a readable date
    sort as if they were on 2099-12-31. */
module RaceCalendar {
  import opened Common
  import opened Dates
  import opened FormValues

  datatype EventTier = TierA | TierB | TierC

  /** An event of the timeline: the profile's object and the priority the
      timeline gives it. */
  datatype TaggedEvent = TaggedEvent(fields: Form, tier: EventTier)

  /** What the timeline reads from the profile; absent lists are empty and an
      absent target race is the empty object. */
  datatype TimelineInputs = TimelineInputs(
    targetRace: Form,
    aEvents: seq<Form>,
    bEvents: seq<Form>,
    cEvents: seq<Form>)

  /** The A event made up from the target race. */
  function TargetEvent(target: Form): (e: Form)
    ensures e.Keys == {"name", "date", "distance", "goal"}
    ensures e["name"] == GetOr(target, "name", Str("A Race"))
    ensures e["goal"] == GetOr(target, "goal_type", Str("compete"))
  {
    map["name" := GetOr(target, "name", Str("A Race")),
        "date" := GetOr(target, "date", Str("")),
        "distance" := GetOr(target, "distance", Str("")),
        "goal" := GetOr(target, "goal_type", Str("compete"))]
  }

  /** Whether the A event is made up: no A events and a target race with a
      truthy name. */
  predicate Synthesizes(x: TimelineInputs) {
    |x.aEvents| == 0 && Truthy(Get(x.targetRace, "name"))
  }

  function AEventsOf(x: TimelineInputs): (r: seq<Form>)
    ensures Synthesizes(x) ==> r == [TargetEvent(x.targetRace)]
    ensures !Synthesizes(x) ==> r == x.aEvents
  {
    if Synthesizes(x) then [TargetEvent(x.targetRace)] else x.aEvents
  }

  function Tag(events: seq<Form>, tier: EventTier): (r: seq<TaggedEvent>)
    ensures |r| == |events|
    ensures forall i :: 0 <= i < |r| ==> r[i] == TaggedEvent(events[i], tier)
  {
    if |events| == 0 then [] else [TaggedEvent(events[0], tier)] + Tag(events[1..], tier)
  }

  /** The events before sorting: A, then B, then C, each in profile order. */
  function AllEvents(x: TimelineInputs): seq<TaggedEvent> {
    Tag(AEventsOf(x), TierA) + Tag(x.bEvents, TierB) + Tag(x.cEvents, TierC)
  }

  /** The timeline has one A event more than the profile exactly when the
      A event is made up, and every B and C event of the profile. */
  lemma {:induction false} AllEventsCounts(x: TimelineInputs)
    ensures |AllEvents(x)| == |AEventsOf(x)| + |x.bEvents| + |x.cEvents|
    ensures |AEventsOf(x)| == if Synthesizes(x) then 1 else |x.aEvents|
    ensures forall i :: 0 <= i < |AEventsOf(x)| ==> AllEvents(x)[i].tier == TierA
    ensures forall i :: |AEventsOf(x)| <= i < |AEventsOf(x)| + |x.bEvents| ==>
      AllEvents(x)[i] == TaggedEvent(x.bEvents[i - |AEventsOf(x)|], TierB)
    ensures forall i :: |AEventsOf(x)| + |x.bEvents| <= i < |AllEvents(x)| ==>
      AllEvents(x)[i] == TaggedEvent(x.cEvents[i - |AEventsOf(x)| - |x.bEvents|], TierC)
  {
  }

  // ---------------------------------------------------------------------
  // Sort key

  const FarFuture: Date := Date(2099, 12, 31)

  /** The `date` field is a string `strptime` reads. */
  predicate HasReadableDate(e: TaggedEvent) {
    "date" in e.fields && e.fields["date"].Str? && ParseIsoDate(e.fields["date"].s).Some?
  }

  /** `parse_date`: the `date` field (default "2099-12-31") read as
      `%Y-%m-%d`; anything that is not a readable date string sorts as
      2099-12-31. */
  function SortDate(e: TaggedEvent): (d: Date)
    ensures Valid(d)
    ensures HasReadableDate(e) ==> d == ParseIsoDate(e.fields["date"].s).value
    ensures !HasReadableDate(e) ==> d == Date(2099, 12, 31)
  {
    FarFutureText();
    match GetOr(e.fields, "date", Str("2099-12-31"))
    case Str(s) => ParseIsoDate(s).GetOr(FarFuture)
    case _ => FarFuture
  }

  /** The default text of a missing date is the far-future date itself. */
  lemma {:induction false} FarFutureText()
    ensures ParseIsoDate("2099-12-31") == Some(FarFuture)
  {
    ParseFormat(FarFuture);
    assert FormatIsoDate(FarFuture) == "2099-12-31";
  }

  // ---------------------------------------------------------------------
  // Stable sort

  /** An event with its position in `AllEvents` and its sort date, computed
      once as Python's key function is. */
  datatype Entry = Entry(pos: nat, key: Date, event: TaggedEvent)

  /** The order a stable sort produces: by date, then by position. */
  predicate Precedes(a: Entry, b: Entry) {
    Before(a.key, b.key) || (a.key == b.key && a.pos < b.pos)
  }

  predicate Ordered(s: seq<Entry>) {
    forall i, j :: 0 <= i < j < |s| ==> Precedes(s[i], s[j])
  }

  predicate PositionsAbove(p: nat, s: seq<Entry>) {
    forall i :: 0 <= i < |s| ==> p < s[i].pos
  }

  /** Inserts `h` before the first entry whose date is not earlier. */
  function Insert(h: Entry, s: seq<Entry>): (r: seq<Entry>)
    ensures |r| == |s| + 1
    ensures multiset(r) == multiset(s) + multiset{h}
  {
    if |s| == 0 then [h]
    else if AtMost(h.key, s[0].key) then [h] + s
    else
      assert s == [s[0]] + s[1..];
      [s[0]] + Insert(h, s[1..])
  }

  /** Inserting an entry placed before every other keeps the order. */
  lemma {:induction false} InsertOrdered(h: Entry, s: seq<Entry>)
    requires Ordered(s) && PositionsAbove(h.pos, s)
    ensures Ordered(Insert(h, s))
  {
    if |s| == 0 {
    } else if AtMost(h.key, s[0].key) {
      var r := [h] + s;
      forall j | 0 < j < |r|
        ensures Precedes(r[0], r[j])
      {
        if j > 1 {
          assert Precedes(s[0], s[j - 1]);
        }
        BeforeIsStrictTotal(h.key, s[0].key, s[j - 1].key);
      }
    } else {
      var t := Insert(h, s[1..]);
      InsertOrdered(h, s[1..]);
      var r := [s[0]] + t;
      BeforeIsStrictTotal(h.key, s[0].key, h.key);
      forall j | 0 < j < |r|
        ensures Precedes(r[0], r[j])
      {
        assert r[j] in multiset(t);
        if r[j] != h {
          assert r[j] in multiset(s[1..]);
          var k :| 0 <= k < |s[1..]| && s[1..][k] == r[j];
          assert Precedes(s[0], s[k + 1]);
        }
      }
    }
  }

  /** Insertion sort, taking the entries from the back. */
  function SortEntries(s: seq<Entry>): (r: seq<Entry>)
    ensures multiset(r) == multiset(s)
  {
    if |s| == 0 then []
    else
      assert s == [s[0]] + s[1..];
      Insert(s[0], SortEntries(s[1..]))
  }

  predicate StrictlyIncreasingPositions(s: seq<Entry>) {
    forall i, j :: 0 <= i < j < |s| ==> s[i].pos < s[j].pos
  }

  /** Sorting entries numbered in increasing order orders them by date and,
      on equal dates, by number. */
  lemma {:induction false} SortEntriesOrdered(s: seq<Entry>)
    requires StrictlyIncreasingPositions(s)
    ensures Ordered(SortEntries(s))
  {
    if |s| > 0 {
      var rest := SortEntries(s[1..]);
      SortEntriesOrdered(s[1..]);
      forall i | 0 <= i < |rest|
        ensures s[0].pos < rest[i].pos
      {
        assert rest[i] in multiset(s[1..]);
        var k :| 0 <= k < |s[1..]| && s[1..][k] == rest[i];
        assert s[k + 1] == rest[i];
      }
      InsertOrdered(s[0], rest);
    }
  }

  /** The events numbered from `from`, each with its sort date. */
  function Number(events: seq<TaggedEvent>, from: nat): (r: seq<Entry>)
    ensures |r| == |events|
    ensures forall i :: 0 <= i < |r| ==> r[i] == Entry(from + i, SortDate(events[i]), events[i])
  {
    if |events| == 0 then [] else [Entry(from, SortDate(events[0]), events[0])] + Number(events[1..], from + 1)
  }

  function Events(s: seq<Entry>): (r: seq<TaggedEvent>)
    ensures |r| == |s|
    ensures forall i :: 0 <= i < |r| ==> r[i] == s[i].event
  {
    if |s| == 0 then [] else [s[0].event] + Events(s[1..])
  }

  /** Inserting an entry adds its event to the events. */
  lemma {:induction false} InsertEvents(h: Entry, s: seq<Entry>)
    ensures multiset(Events(Insert(h, s))) == multiset(Events(s)) + multiset{h.event}
  {
    if |s| > 0 {
      assert Events(s) == [s[0].event] + Events(s[1..]);
      if AtMost(h.key, s[0].key) {
        assert Events([h] + s) == [h.event] + Events(s);
      } else {
        InsertEvents(h, s[1..]);
        var t := Insert(h, s[1..]);
        assert Events([s[0]] + t) == [s[0].event] + Events(t);
      }
    }
  }

  /** Sorting rearranges the events without adding or losing any. */
  lemma {:induction false} SortEntriesEvents(s: seq<Entry>)
    ensures multiset(Events(SortEntries(s))) == multiset(Events(s))
  {
    if |s| > 0 {
      SortEntriesEvents(s[1..]);
      InsertEvents(s[0], SortEntries(s[1..]));
      assert Events(s) == [s[0].event] + Events(s[1..]);
    }
  }

  /** The events numbered by their place in `AllEvents`, sorted. */
  function SortedEntries(x: TimelineInputs): seq<Entry> {
    SortEntries(Number(AllEvents(x), 0))
  }

  /** `_generate_race_timeline`'s event list after `all_events.sort`. */
  function Timeline(x: TimelineInputs): seq<TaggedEvent> {
    Events(SortedEntries(x))
  }

  /** The sorted entries are the numbered events rearranged, in date order,
      and events on the same date keep their original order: this pins the
      result down to the one a stable sort gives. */
  lemma {:induction false} TimelineIsStableSort(x: TimelineInputs)
    ensures multiset(SortedEntries(x)) == multiset(Number(AllEvents(x), 0))
    ensures Ordered(SortedEntries(x))
    ensures forall e :: e in SortedEntries(x) ==> e.key == SortDate(e.event)
  {
    var numbered := Number(AllEvents(x), 0);
    SortEntriesOrdered(numbered);
    forall e | e in SortedEntries(x)
      ensures e.key == SortDate(e.event)
    {
      assert e in multiset(numbered);
    }
  }

  /** The timeline holds the same events, each as often, as `AllEvents`. */
  lemma {:induction false} TimelineIsPermutation(x: TimelineInputs)
    ensures multiset(Timeline(x)) == multiset(AllEvents(x))
  {
    var numbered := Number(AllEvents(x), 0);
    SortEntriesEvents(numbered);
    assert Events(numbered) == AllEvents(x);
  }

  /** An event without a readable date comes after every event dated before
      2099-12-31. */
  lemma {:induction false} UndatedSortsLast(x: TimelineInputs, i: int, j: int)
    requires 0 <= i < |Timeline(x)| && 0 <= j < |Timeline(x)|
    requires HasReadableDate(Timeline(x)[i])
    requires Before(ParseIsoDate(Timeline(x)[i].fields["date"].s).value, Date(2099, 12, 31))
    requires !HasReadableDate(Timeline(x)[j])
    ensures i < j
  {
    TimelineSorted(x);
  }

  /** The timeline is in date order. */
  lemma {:induction false} TimelineSorted(x: TimelineInputs)
    ensures forall i, j :: 0 <= i < j < |Timeline(x)| ==>
      AtMost(SortDate(Timeline(x)[i]), SortDate(Timeline(x)[j]))
  {
    var s := SortedEntries(x);
    TimelineIsStableSort(x);
    forall i, j | 0 <= i < j < |Timeline(x)|
      ensures AtMost(SortDate(Timeline(x)[i]), SortDate(Timeline(x)[j]))
    {
      assert Precedes(s[i], s[j]);
      assert s[i] in s && s[j] in s;
      BeforeIsStrictTotal(s[i].key, s[j].key, s[i].key);
    }
  }

  /** The A events of the timeline are exactly those of `AEventsOf`: the
      profile's own, or the one made up from the target race. */
  lemma {:induction false} TimelineAEvents(x: TimelineInputs)
    ensures forall e :: e in Timeline(x) && e.tier == TierA ==> e.fields in AEventsOf(x)
    ensures forall a :: a in AEventsOf(x) ==> TaggedEvent(a, TierA) in Timeline(x)
  {
    TimelineIsPermutation(x);
    forall e | e in Timeline(x) && e.tier == TierA
      ensures e.fields in AEventsOf(x)
    {
      assert e in multiset(Timeline(x));
      AEventOfAll(x, e);
    }
    forall a | a in AEventsOf(x)
      ensures TaggedEvent(a, TierA) in Timeline(x)
    {
      AllOfAEvent(x, a);
      assert TaggedEvent(a, TierA) in multiset(AllEvents(x));
    }
  }

  /** An A event of `AllEvents` comes from `AEventsOf`. */
  lemma {:induction false} AEventOfAll(x: TimelineInputs, e: TaggedEvent)
    requires e in AllEvents(x) && e.tier == TierA
    ensures e.fields in AEventsOf(x)
  {
    var a, b, c := Tag(AEventsOf(x), TierA), Tag(x.bEvents, TierB), Tag(x.cEvents, TierC);
    assert AllEvents(x) == a + (b + c);
    assert forall y :: y in b ==> y.tier == TierB;
    assert forall y :: y in c ==> y.tier == TierC;
    assert e in a;
    var k :| 0 <= k < |a| && a[k] == e;
    assert AEventsOf(x)[k] == e.fields;
  }

  /** Each of `AEventsOf` is an A event of `AllEvents`. */
  lemma {:induction false} AllOfAEvent(x: TimelineInputs, f: Form)
    requires f in AEventsOf(x)
    ensures TaggedEvent(f, TierA) in AllEvents(x)
  {
    var a := Tag(AEventsOf(x), TierA);
    var k :| 0 <= k < |AEventsOf(x)| && AEventsOf(x)[k] == f;
    assert a[k] == TaggedEvent(f, TierA);
    assert AllEvents(x) == a + (Tag(x.bEvents, TierB) + Tag(x.cEvents, TierC));
    assert a[k] in a;
  }

  /** When the profile lists no A event and names its target race, the
      timeline holds exactly one A event: the target race, under the
      target's own name. */
  lemma {:induction false} TargetIsOnlyAEvent(x: TimelineInputs)
    requires Synthesizes(x)
    ensures forall e :: e in Timeline(x) && e.tier == TierA ==> e.fields == TargetEvent(x.targetRace)
    ensures multiset(Timeline(x))[TaggedEvent(TargetEvent(x.targetRace), TierA)] == 1
    ensures TargetEvent(x.targetRace)["name"] == x.targetRace["name"]
  {
    TimelineAEvents(x);
    TargetCountedOnce(x);
  }

  /** The made-up A event is in the timeline once. */
  lemma {:induction false} TargetCountedOnce(x: TimelineInputs)
    requires Synthesizes(x)
    ensures multiset(Timeline(x))[TaggedEvent(TargetEvent(x.targetRace), TierA)] == 1
  {
    var t := TaggedEvent(TargetEvent(x.targetRace), TierA);
    TimelineIsPermutation(x);
    TagCount(x.bEvents, TierB, t);
    TagCount(x.cEvents, TierC, t);
    assert Tag([TargetEvent(x.targetRace)], TierA) == [t];
    assert multiset(AllEvents(x)) == multiset([t]) + multiset(Tag(x.bEvents, TierB)) + multiset(Tag(x.cEvents, TierC));
  }

  /** Events of one tier do not count events of another. */
  lemma {:induction false} TagCount(events: seq<Form>, tier: EventTier, t: TaggedEvent)
    requires t.tier != tier
    ensures multiset(Tag(events, tier))[t] == 0
  {
    assert t !in Tag(events, tier);
  }
}

=== FILE: slug.dfy ===
/** `generate_athlete_id`: the identifier of an athlete built from their
    name. The name is lower-cased, spaces become dashes, everything outside
    `[a-z0-9-]` is dropped, runs of dashes shrink to one, and dashes at
    either end are stripped. */
module Slug {
  import opened Common

  predicate IsSlugChar(c: char) { IsLowerAlnum(c) || c == '-' }

  /** What an identifier looks like: only `[a-z0-9-]`, no two dashes in a
      row, and no dash at either end. */
  predicate IsSlug(s: string) {
    && (forall i :: 0 <= i < |s| ==> IsSlugChar(s[i]))
    && NoDoubleDash(s)
    && (|s| > 0 ==> s[0] != '-' && s[|s| - 1] != '-')
  }

  predicate NoDoubleDash(s: string) {
    forall i :: 0 <= i < |s| - 1 ==> !(s[i] == '-' && s[i + 1] == '-')
  }

  /** `re.sub(r'[^a-z0-9-]', '', s)`. */
  function KeepSlugChars(s: string): (r: string)
    ensures |r| <= |s|
    ensures forall i :: 0 <= i < |r| ==> IsSlugChar(r[i])
  {
    if |s| == 0 then []
    else if IsSlugChar(s[0]) then [s[0]] + KeepSlugChars(s[1..])
    else KeepSlugChars(s[1..])
  }

  /** `re.sub(r'-+', '-', s)`: every run of dashes becomes one dash. */
  function CollapseDashes(s: string): (r: string)
    ensures |r| <= |s|
    ensures |s| > 0 ==> |r| > 0 && r[0] == s[0]
    ensures forall i :: 0 <= i < |r| ==> r[i] in s
    ensures NoDoubleDash(r)
  {
    if |s| <= 1 then s
    else
      var rest := CollapseDashes(s[1..]);
      assert forall i :: 0 <= i < |rest| ==> rest[i] in s;
      if s[0] == '-' && s[1] == '-' then rest else [s[0]] + rest
  }

  /** `s.lstrip('-')`. */
  function DropLeadingDashes(s: string): (r: string)
    ensures IsSuffix(r, s)
    ensures |r| > 0 ==> r[0] != '-'
    ensures forall i :: 0 <= i < |s| - |r| ==> s[i] == '-'
  {
    if |s| > 0 && s[0] == '-' then DropLeadingDashes(s[1..]) else s
  }

  /** `s.rstrip('-')`. */
  function DropTrailingDashes(s: string): (r: string)
    ensures IsPrefix(r, s)
    ensures |r| > 0 ==> r[|r| - 1] != '-'
    ensures forall i :: |r| <= i < |s| ==> s[i] == '-'
  {
    if |s| > 0 && s[|s| - 1] == '-' then DropTrailingDashes(s[..|s| - 1]) else s
  }

  /** `s.strip('-')`. */
  function StripDashes(s: string): string {
    DropTrailingDashes(DropLeadingDashes(s))
  }

  /** `generate_athlete_id`. */
  function AthleteId(name: string): string {
    StripDashes(CollapseDashes(KeepSlugChars(Replace(Lower(name), ' ', '-'))))
  }

  /** Stripping dashes keeps a slice, so it keeps the characters and the
      absence of double dashes, and it leaves no dash at either end. */
  lemma {:induction false} StripDashesShape(s: string)
    requires forall i :: 0 <= i < |s| ==> IsSlugChar(s[i])
    requires NoDoubleDash(s)
    ensures IsSlug(StripDashes(s))
  {
    var t := DropLeadingDashes(s);
    var r := DropTrailingDashes(t);
    var off := |s| - |t|;
    assert t == s[off..];
    assert r == t[..|r|];
    forall i | 0 <= i < |r|
      ensures r[i] == s[off + i]
    {
    }
    if |r| > 0 && |t| > 0 {
      assert r[0] == t[0];
    }
  }

  /** Every identifier is a slug. */
  lemma {:induction false} AthleteIdIsSlug(name: string)
    ensures IsSlug(AthleteId(name))
  {
    var kept := KeepSlugChars(Replace(Lower(name), ' ', '-'));
    var collapsed := CollapseDashes(kept);
    forall i | 0 <= i < |collapsed|
      ensures IsSlugChar(collapsed[i])
    {
      var c := collapsed[i];
      assert c in kept;
    }
    StripDashesShape(collapsed);
  }

  /** On a slug every step is the identity. */
  lemma {:induction false} KeepSlugCharsFixed(s: string)
    requires forall i :: 0 <= i < |s| ==> IsSlugChar(s[i])
    ensures KeepSlugChars(s) == s
  {
    if |s| > 0 {
      KeepSlugCharsFixed(s[1..]);
    }
  }

  lemma {:induction false} CollapseDashesFixed(s: string)
    requires NoDoubleDash(s)
    ensures CollapseDashes(s) == s
  {
    if |s| > 1 {
      CollapseDashesFixed(s[1..]);
    }
  }

  lemma {:induction false} SlugFixed(s: string)
    requires IsSlug(s)
    ensures AthleteId(s) == s
  {
    LowerOfLowercase(s);
    assert ' ' !in s;
    ReplaceAbsent(s, ' ', '-');
    assert Replace(Lower(s), ' ', '-') == s;
    KeepSlugCharsFixed(s);
    CollapseDashesFixed(s);
    assert DropLeadingDashes(s) == s;
    assert DropTrailingDashes(s) == s;
  }

  /** Building an identifier from an identifier gives it back. */
  lemma {:induction false} AthleteIdIdempotent(name: string)
    ensures AthleteId(AthleteId(name)) == AthleteId(name)
  {
    AthleteIdIsSlug(name);
    SlugFixed(AthleteId(name));
  }

  // ---------------------------------------------------------------------
  // What survives

  /** The letters and digits of a string, in order. */
  function Alnums(s: string): (r: string)
    ensures forall i :: 0 <= i < |r| ==> IsLowerAlnum(r[i])
  {
    if |s| == 0 then []
    else if IsLowerAlnum(s[0]) then [s[0]] + Alnums(s[1..])
    else Alnums(s[1..])
  }

  lemma {:induction false} AlnumsAppend(a: string, b: string)
    ensures Alnums(a + b) == Alnums(a) + Alnums(b)
  {
    if |a| == 0 {
      assert a + b == b;
    } else {
      assert (a + b)[0] == a[0];
      assert (a + b)[1..] == a[1..] + b;
      AlnumsAppend(a[1..], b);
    }
  }

  lemma {:induction false} AlnumsKeep(s: string)
    ensures Alnums(KeepSlugChars(s)) == Alnums(s)
  {
    if |s| > 0 {
      AlnumsKeep(s[1..]);
    }
  }

  lemma {:induction false} AlnumsCollapse(s: string)
    ensures Alnums(CollapseDashes(s)) == Alnums(s)
  {
    if |s| > 1 {
      AlnumsCollapse(s[1..]);
    }
  }

  lemma {:induction false} AlnumsReplaceSpaces(s: string)
    ensures Alnums(Replace(s, ' ', '-')) == Alnums(s)
  {
    if |s| > 0 {
      assert Replace(s, ' ', '-')[1..] == Replace(s[1..], ' ', '-');
      AlnumsReplaceSpaces(s[1..]);
    }
  }

  /** Dropping dashes from either end loses no letter or digit. */
  lemma {:induction false} AlnumsStrip(s: string)
    ensures Alnums(StripDashes(s)) == Alnums(s)
  {
    AlnumsLeading(s);
    AlnumsTrailing(DropLeadingDashes(s));
  }

  lemma {:induction false} AlnumsLeading(s: string)
    ensures Alnums(DropLeadingDashes(s)) == Alnums(s)
  {
    if |s| > 0 && s[0] == '-' {
      AlnumsLeading(s[1..]);
    }
  }

  lemma {:induction false} AlnumsTrailing(t: string)
    ensures Alnums(DropTrailingDashes(t)) == Alnums(t)
  {
    var r := DropTrailingDashes(t);
    assert t == r + t[|r|..];
    AlnumsAppend(r, t[|r|..]);
    DashesOnly(t[|r|..]);
  }

  lemma {:induction false} DashesOnly(s: string)
    requires forall i :: 0 <= i < |s| ==> s[i] == '-'
    ensures Alnums(s) == []
  {
    if |s| > 0 {
      DashesOnly(s[1..]);
    }
  }

  /** The identifier keeps every letter and digit of the lower-cased name,
      in order, and nothing else but single dashes between them. */
  lemma {:induction false} AthleteIdKeepsAlnums(name: string)
    ensures Alnums(AthleteId(name)) == Alnums(Lower(name))
  {
    var l := Lower(name);
    var replaced := Replace(l, ' ', '-');
    var kept := KeepSlugChars(replaced);
    AlnumsReplaceSpaces(l);
    AlnumsKeep(replaced);
    AlnumsCollapse(kept);
    AlnumsStrip(CollapseDashes(kept));
  }
}

=== FILE: strength_phases.dfy ===
/** The strength periodization of the athlete guide: which strength phase a
    week belongs to, how the guide groups the weeks into one section per
    phase, and how a day of the weekly structure is written out. */
module StrengthPhases {
  import opened Common

  /** The phases, in the order the guide lists them. */
  datatype StrengthPhase = LearnToLift | LiftHeavy | LiftFast | DontLoseIt

  function Rank(p: StrengthPhase): int {
    match p
    case LearnToLift => 0
    case LiftHeavy => 1
    case LiftFast => 2
    case DontLoseIt => 3
  }

  function PhaseName(p: StrengthPhase): string {
    match p
    case LearnToLift => "Learn to Lift"
    case LiftHeavy => "Lift Heavy Sh*t"
    case LiftFast => "Lift Fast"
    case DontLoseIt => "Don't Lose It"
  }

  const PhaseOrder: seq<StrengthPhase> := [LearnToLift, LiftHeavy, LiftFast, DontLoseIt]

  /** The phase of a week: three thresholds chosen by plan length, the last
      phase after them. */
  function PhaseForWeek(week: int, planWeeks: int): StrengthPhase {
    if planWeeks >= 20 then
      (if week <= 6 then LearnToLift else if week <= 12 then LiftHeavy
       else if week <= 18 then LiftFast else DontLoseIt)
    else if planWeeks >= 12 then
      (if week <= 4 then LearnToLift else if week <= 8 then LiftHeavy
       else if week <= 10 then LiftFast else DontLoseIt)
    else
      (if week <= 2 then LearnToLift else if week <= 4 then LiftHeavy
       else if week <= planWeeks - 1 then LiftFast else DontLoseIt)
  }

  /** For a fixed plan length, phases never go backwards as weeks advance. */
  lemma {:induction false} PhaseMonotone(planWeeks: int, w1: int, w2: int)
    requires w1 <= w2
    ensures Rank(PhaseForWeek(w1, planWeeks)) <= Rank(PhaseForWeek(w2, planWeeks))
  {
  }

  /** From five weeks on, the last week is the maintenance phase. */
  lemma {:induction false} LastWeekMaintains(planWeeks: int)
    requires planWeeks >= 5
    ensures PhaseForWeek(planWeeks, planWeeks) == DontLoseIt
  {
  }

  /** Plans of four weeks or fewer never reach maintenance, and plans of five
      or fewer never reach the power phase. */
  lemma {:induction false} ShortPlanPhases(planWeeks: int, week: int)
    requires 1 <= week <= planWeeks
    ensures planWeeks <= 4 ==> PhaseForWeek(week, planWeeks) != DontLoseIt
    ensures planWeeks <= 5 ==> PhaseForWeek(week, planWeeks) != LiftFast
  {
  }

  // ---------------------------------------------------------------------
  // Sections

  /** The weeks from `from` to `planWeeks` that fall in `phase`, in order. */
  function WeeksFrom(phase: StrengthPhase, from: int, planWeeks: int): (r: seq<int>)
    ensures forall w :: w in r <==> from <= w <= planWeeks && PhaseForWeek(w, planWeeks) == phase
    ensures forall i, j :: 0 <= i < j < |r| ==> r[i] < r[j]
    decreases planWeeks - from
  {
    if from > planWeeks then []
    else
      var rest := WeeksFrom(phase, from + 1, planWeeks);
      assert forall j :: 0 <= j < |rest| ==> rest[j] in rest;
      if PhaseForWeek(from, planWeeks) == phase then [from] + rest else rest
  }

  /** `weeks_in_phase`: the weeks of `range(1, plan_weeks + 1)` in a phase. */
  function WeeksInPhase(phase: StrengthPhase, planWeeks: int): seq<int> {
    WeeksFrom(phase, 1, planWeeks)
  }

  /** How the section heading names its weeks. */
  datatype WeekLabel = SingleWeek(week: int) | WeekSpan(first: int, last: int)

  function LabelText(l: WeekLabel): string {
    match l
    case SingleWeek(w) => "Week " + IntToString(w)
    case WeekSpan(a, b) => "Weeks " + IntToString(a) + "-" + IntToString(b)
  }

  datatype Section = Section(phase: StrengthPhase, heading: WeekLabel)

  function SectionOf(phase: StrengthPhase, weeks: seq<int>): Section
    requires |weeks| > 0
  {
    Section(phase, if |weeks| > 1 then WeekSpan(weeks[0], weeks[|weeks| - 1]) else SingleWeek(weeks[0]))
  }

  /** One section per phase that has weeks, in phase order. */
  function Sections(planWeeks: int): seq<Section> {
    SectionsOf(PhaseOrder, planWeeks)
  }

  /** The sections of `phases`, in their order: each phase that has weeks
      gives the section of exactly those weeks. */
  function SectionsOf(phases: seq<StrengthPhase>, planWeeks: int): (r: seq<Section>)
    ensures |r| <= |phases|
    ensures forall s :: s in r ==> s.phase in phases && |WeeksInPhase(s.phase, planWeeks)| > 0
    ensures forall s :: s in r ==> s == SectionOf(s.phase, WeeksInPhase(s.phase, planWeeks))
    ensures forall p :: p in phases && |WeeksInPhase(p, planWeeks)| > 0 ==>
      SectionOf(p, WeeksInPhase(p, planWeeks)) in r
  {
    if |phases| == 0 then []
    else
      var weeks := WeeksInPhase(phases[0], planWeeks);
      var rest := SectionsOf(phases[1..], planWeeks);
      if |weeks| == 0 then rest else [SectionOf(phases[0], weeks)] + rest
  }

  /** Sections follow the order of their phases. */
  lemma {:induction false} SectionsOfOrdered(phases: seq<StrengthPhase>, planWeeks: int)
    requires RankIncreasing(phases)
    ensures ByPhase(SectionsOf(phases, planWeeks))
  {
    if |phases| > 0 {
      var rest := SectionsOf(phases[1..], planWeeks);
      SectionsOfOrdered(phases[1..], planWeeks);
      var r := SectionsOf(phases, planWeeks);
      SectionsOfCons(phases, planWeeks);
      if r != rest {
        forall i, j | 0 <= i < j < |r|
          ensures Rank(r[i].phase) < Rank(r[j].phase)
        {
          assert r[j] == rest[j - 1];
          if i == 0 {
            HeadRankBelow(phases, planWeeks, rest[j - 1]);
          } else {
            assert r[i] == rest[i - 1];
          }
        }
      }
    }
  }

  /** The first phase adds at most one section, in front. */
  lemma {:induction false} SectionsOfCons(phases: seq<StrengthPhase>, planWeeks: int)
    requires |phases| > 0
    ensures var r := SectionsOf(phases, planWeeks);
      var rest := SectionsOf(phases[1..], planWeeks);
      r == rest || (|r| == |rest| + 1 && r[0].phase == phases[0] && r[1..] == rest)
  {
  }

  /** A section built from the phases after the first ranks above the first. */
  lemma {:induction false} HeadRankBelow(phases: seq<StrengthPhase>, planWeeks: int, s: Section)
    requires |phases| > 0 && RankIncreasing(phases)
    requires s in SectionsOf(phases[1..], planWeeks)
    ensures Rank(phases[0]) < Rank(s.phase)
  {
    var k :| 0 <= k < |phases[1..]| && phases[1..][k] == s.phase;
    assert phases[k + 1] == s.phase;
  }

  /** Phases listed with strictly increasing rank. */
  predicate RankIncreasing(phases: seq<StrengthPhase>) {
    forall i, j :: 0 <= i < j < |phases| ==> Rank(phases[i]) < Rank(phases[j])
  }

  /** Sections listed with strictly increasing phase rank. */
  predicate ByPhase(r: seq<Section>) {
    forall i, j :: 0 <= i < j < |r| ==> Rank(r[i].phase) < Rank(r[j].phase)
  }

  /** The guide's sections come in phase order, one for each phase that has
      weeks, each covering exactly that phase's weeks. */
  lemma {:induction false} SectionsInPhaseOrder(planWeeks: int)
    ensures ByPhase(Sections(planWeeks))
    ensures forall s: Section :: s in Sections(planWeeks) <==>
      (|WeeksInPhase(s.phase, planWeeks)| > 0 && s == SectionOf(s.phase, WeeksInPhase(s.phase, planWeeks)))
  {
    var r := SectionsOf(PhaseOrder, planWeeks);
    assert RankIncreasing(PhaseOrder);
    SectionsOfOrdered(PhaseOrder, planWeeks);
    forall s: Section | |WeeksInPhase(s.phase, planWeeks)| > 0 && s == SectionOf(s.phase, WeeksInPhase(s.phase, planWeeks))
      ensures s in r
    {
      assert s.phase in PhaseOrder;
    }
  }

  /** Order and membership fix the list: any list of sections in phase order
      with the same members as the guide's is the guide's. */
  lemma {:induction false} SectionsDetermined(planWeeks: int, other: seq<Section>)
    requires ByPhase(other)
    requires forall s :: s in other <==> s in Sections(planWeeks)
    ensures other == Sections(planWeeks)
  {
    SectionsInPhaseOrder(planWeeks);
    SortedSameMembers(other, Sections(planWeeks));
  }

  /** Two lists strictly increasing by phase rank, with the same first
      section and the same members, share the members after the first. */
  lemma {:induction false} TailMembers(a: seq<Section>, b: seq<Section>)
    requires |a| > 0 && |b| > 0 && a[0] == b[0]
    requires ByPhase(a)
    requires forall s :: s in a ==> s in b
    ensures forall s :: s in a[1..] ==> s in b[1..]
  {
    forall s | s in a[1..]
      ensures s in b[1..]
    {
      var k :| 0 <= k < |a[1..]| && a[1..][k] == s;
      assert Rank(a[0].phase) < Rank(a[k + 1].phase);
      assert a[k + 1] == s;
      assert s in b;
      var m :| 0 <= m < |b| && b[m] == s;
      assert m != 0;
      assert b[1..][m - 1] == s;
    }
  }

  /** Two lists strictly increasing by phase rank with the same members are
      equal. */
  lemma {:induction false} SortedSameMembers(a: seq<Section>, b: seq<Section>)
    requires ByPhase(a) && ByPhase(b)
    requires forall s :: s in a <==> s in b
    ensures a == b
    decreases |a| + |b|
  {
    assert |a| > 0 ==> a[0] in b;
    assert |b| > 0 ==> b[0] in a;
    if |a| > 0 && |b| > 0 {
      var i :| 0 <= i < |b| && b[i] == a[0];
      var j :| 0 <= j < |a| && a[j] == b[0];
      assert Rank(b[0].phase) <= Rank(b[i].phase);
      assert Rank(a[0].phase) <= Rank(a[j].phase);
      assert i == 0;
      TailMembers(a, b);
      TailMembers(b, a);
      SortedSameMembers(a[1..], b[1..]);
      assert a == [a[0]] + a[1..] && b == [b[0]] + b[1..];
    }
  }

  /** A phase's weeks form one unbroken run. */
  lemma {:induction false} PhaseWeeksContiguous(phase: StrengthPhase, planWeeks: int, a: int, b: int, c: int)
    requires a <= b <= c
    requires a in WeeksInPhase(phase, planWeeks) && c in WeeksInPhase(phase, planWeeks)
    ensures b in WeeksInPhase(phase, planWeeks)
  {
    PhaseMonotone(planWeeks, a, b);
    PhaseMonotone(planWeeks, b, c);
  }

  /** A section covers exactly the weeks from its first to its last one,
      and its label is a span exactly when it covers several weeks. */
  lemma {:induction false} SectionIsInterval(phase: StrengthPhase, planWeeks: int)
    requires |WeeksInPhase(phase, planWeeks)| > 0
    ensures var weeks := WeeksInPhase(phase, planWeeks);
      var first := weeks[0];
      var last := weeks[|weeks| - 1];
      && (forall w :: w in weeks <==> first <= w <= last)
      && (SectionOf(phase, weeks).heading.WeekSpan? <==> first < last)
  {
    var weeks := WeeksInPhase(phase, planWeeks);
    var first := weeks[0];
    var last := weeks[|weeks| - 1];
    assert first in weeks && last in weeks;
    forall w | w in weeks
      ensures first <= w <= last
    {
      var i :| 0 <= i < |weeks| && weeks[i] == w;
      if i > 0 { assert weeks[0] < weeks[i]; }
      if i < |weeks| - 1 { assert weeks[i] < weeks[|weeks| - 1]; }
    }
    forall w | first <= w <= last
      ensures w in weeks
    {
      PhaseWeeksContiguous(phase, planWeeks, first, w, last);
    }
    if |weeks| > 1 {
      assert weeks[0] < weeks[|weeks| - 1];
    }
  }

  /** Every week of the plan is in exactly one phase's week list, and that
      phase has a section. */
  lemma {:induction false} WeeksCovered(planWeeks: int, week: int)
    requires 1 <= week <= planWeeks
    ensures forall p :: week in WeeksInPhase(p, planWeeks) <==> p == PhaseForWeek(week, planWeeks)
    ensures SectionOf(PhaseForWeek(week, planWeeks), WeeksInPhase(PhaseForWeek(week, planWeeks), planWeeks))
      in Sections(planWeeks)
  {
    var p := PhaseForWeek(week, planWeeks);
    assert week in WeeksInPhase(p, planWeeks);
    assert p in PhaseOrder;
  }

  // ---------------------------------------------------------------------
  // The weekly-structure table

  /** A day of the weekly structure, with `am`/`pm` read as
      `schedule.get(...) or ""` and the notes' default already applied. */
  datatype DaySchedule = DaySchedule(am: string, pm: string, isKeyDay: bool, notes: string)

  /** The workout cell of a day. */
  function WorkoutCell(d: DaySchedule): (r: string)
    ensures |r| > 0
    ensures d.am != "" ==> IsPrefix(d.am, r)
    ensures d.am == "" && d.pm != "" ==> IsPrefix(d.pm, r) && |r| == |d.pm| + 5
    ensures d.pm != "" ==> IsSuffix(" (PM)", r)
    ensures d.am == "" && d.pm == "" ==> r == "Rest"
    ensures d.am != "" && d.pm == "" ==> r == d.am
  {
    if d.am != "" && d.pm != "" then d.am + " (AM) + " + d.pm + " (PM)"
    else if d.am != "" then d.am
    else if d.pm != "" then d.pm + " (PM)"
    else "Rest"
  }

  /** The cell shows both sessions exactly when both are given: the AM
      marker appears only then. */
  lemma {:induction false} WorkoutCellBoth(d: DaySchedule)
    requires d.am != "" && d.pm != ""
    ensures IsPrefix(d.am + " (AM) + ", WorkoutCell(d))
    ensures |WorkoutCell(d)| == |d.am| + |d.pm| + 13
    ensures WorkoutCell(d)[|d.am| + 8 .. |WorkoutCell(d)| - 5] == d.pm
  {
    var r := WorkoutCell(d);
    assert r[..|d.am| + 8] == d.am + " (AM) + ";
    assert r[|d.am| + 8 .. |r| - 5] == d.pm;
  }

  /** The notes cell: key days are marked, other days keep their notes. */
  function NotesCell(d: DaySchedule): (r: string)
    ensures d.isKeyDay ==> r == "**Key session**"
    ensures !d.isKeyDay ==> r == d.notes
  {
    if d.isKeyDay then "**Key session**" else d.notes
  }

  /** The key marker after the day's name in the first cell. */
  function KeyMarker(d: DaySchedule): (m: string)
    ensures m != "" <==> d.isKeyDay
  {
    if d.isKeyDay then " \U{1F511}" else ""
  }

  /** A key day is flagged twice in its row, by the marker and by the notes
      cell, and its own notes are not shown; on any other day the notes
      cell never reads `**Key session**` unless its notes say so. */
  lemma {:induction false} KeyDayMarkedTwice(d: DaySchedule)
    ensures d.isKeyDay ==> NotesCell(d) == NotesCell(d.(notes := ""))
    ensures d.notes != "**Key session**" ==> (NotesCell(d) == "**Key session**" <==> KeyMarker(d) != "")
  {
  }
}

=== FILE: validation.dfy ===
/** The submission validator (athletes/scripts/validate_submission.py): the
    e-mail shape and disposable-provider checks, the age and weekly-hours
    bounds, required fields, the three-day schedule rule, and the order in
    which `validate_submission` accumulates its messages. The rate-limit file
    is an input: `underRateLimit` is what `check_rate_limit` answered. */
module Validation {
  import opened Common
  import opened FormValues
  import opened Dates

  const DisposableProviders: seq<string> := [
    "10minutemail.com", "guerrillamail.com", "tempmail.com", "mailinator.com",
    "throwaway.email", "getnada.com", "mohmal.com", "fakeinbox.com",
    "trashmail.com", "maildrop.cc"
  ]

  // ---------------------------------------------------------------------
  // E-mail

  /** `email.split('@')[1].lower() if '@' in email else ''`. */
  function EmailDomain(email: string): string
  {
    if '@' in email then
      SplitHasTwo(email, '@');
      Lower(Split(email, '@')[1])
    else ""
  }

  predicate IsDisposableEmail(email: string) {
    EmailDomain(email) in DisposableProviders
  }

  /** An address without '@' is never disposable; with one, it is decided by
      the lower-cased text between the first '@' and the next one, and
      whatever follows a second '@' does not matter. */
  lemma {:induction false} DisposableDecidedByDomain(local: string, domain: string, rest: string)
    requires '@' !in local && '@' !in domain
    ensures IsDisposableEmail(local + "@" + domain) <==> Lower(domain) in DisposableProviders
    ensures IsDisposableEmail(local + "@" + domain + "@" + rest) <==> Lower(domain) in DisposableProviders
  {
    EmailDomainSingle(local, domain);
    EmailDomainDouble(local, domain, rest);
  }

  lemma {:induction false} EmailDomainSingle(local: string, domain: string)
    requires '@' !in local && '@' !in domain
    ensures EmailDomain(local + "@" + domain) == Lower(domain)
  {
    SplitAfter(local, '@', domain);
    IndexOfAfter(local, '@', domain);
    assert Split(domain, '@') == [domain];
  }

  lemma {:induction false} EmailDomainDouble(local: string, domain: string, rest: string)
    requires '@' !in local && '@' !in domain
    ensures EmailDomain(local + "@" + domain + "@" + rest) == Lower(domain)
  {
    var email := local + "@" + domain + "@" + rest;
    var tail := domain + "@" + rest;
    assert email == local + ['@'] + tail;
    assert email[|local|] == '@';
    SplitAfter(local, '@', tail);
    assert tail == domain + ['@'] + rest;
    SplitAfter(domain, '@', rest);
    assert Split(email, '@')[1] == domain;
  }

  lemma {:induction false} NoAtNotDisposable(email: string)
    requires '@' !in email
    ensures !IsDisposableEmail(email)
  {
    assert "" !in DisposableProviders;
  }

  /** The text after the one '@' has a '.' with something on both sides. */
  predicate HasInnerDot(domain: string) {
    |domain| >= 3 && '.' in domain[1..|domain| - 1]
  }

  /** `re.match(r'^[^@]+@[^@]+\.[^@]+$', email)`, decided directly: one '@',
      something before it, and an inner dot after it. */
  predicate EmailShape(email: string) {
    '@' in email && CountChar(email, '@') == 1 && IndexOf(email, '@') >= 1
    && HasInnerDot(email[IndexOf(email, '@') + 1..])
  }

  /** The regular-expression reading: the shape test holds exactly for the
      strings `local + "@" + host + "." + tld` with three non-empty parts
      free of '@'. (`[^@]` also matches a newline, so the `$` that may match
      before a final newline changes nothing.) */
  lemma {:induction false} EmailShapeIsPattern(email: string)
    ensures EmailShape(email) <==> exists local, host, tld :: PatternParts(email, local, host, tld)
  {
    if EmailShape(email) {
      ShapeHasPatternParts(email);
    }
    if exists local, host, tld :: PatternParts(email, local, host, tld) {
      var local, host, tld :| PatternParts(email, local, host, tld);
      PatternPartsShape(email, local, host, tld);
    }
  }

  lemma {:induction false} ShapeHasPatternParts(email: string)
    requires EmailShape(email)
    ensures exists local, host, tld :: PatternParts(email, local, host, tld)
  {
    var k := IndexOf(email, '@');
    var local := email[..k];
    var domain := email[k + 1..];
    assert email == local + ['@'] + domain;
    OneAtLeavesDomain(local, domain);
    var host, tld := InnerDotSplit(domain);
    assert PatternParts(email, local, host, tld);
  }

  /** With a single '@' in `local + "@" + domain`, the domain has none. */
  lemma {:induction false} OneAtLeavesDomain(local: string, domain: string)
    requires '@' !in local && CountChar(local + ['@'] + domain, '@') == 1
    ensures '@' !in domain
  {
    CountCharAppend(local + ['@'], domain, '@');
    CountCharAppend(local, ['@'], '@');
    CountCharAbsent(local, '@');
    assert CountChar(['@'], '@') == 1;
    CountCharZero(domain, '@');
  }

  /** A domain with an inner dot is `host + "." + tld`, both non-empty. */
  lemma {:induction false} InnerDotSplit(domain: string) returns (host: string, tld: string)
    requires HasInnerDot(domain) && '@' !in domain
    ensures |host| > 0 && |tld| > 0 && '@' !in host && '@' !in tld
    ensures domain == host + "." + tld
  {
    var inner := domain[1..|domain| - 1];
    var j := IndexOf(inner, '.') + 1;
    assert domain[j] == '.';
    host := domain[..j];
    tld := domain[j + 1..];
    assert domain == host + [domain[j]] + tld;
    assert forall i :: 0 <= i < |host| ==> host[i] == domain[i];
    assert forall i :: 0 <= i < |tld| ==> tld[i] == domain[j + 1 + i];
  }

  predicate PatternParts(email: string, local: string, host: string, tld: string) {
    && |local| > 0 && |host| > 0 && |tld| > 0
    && '@' !in local && '@' !in host && '@' !in tld
    && email == local + "@" + host + "." + tld
  }

  lemma {:induction false} PatternPartsShape(email: string, local: string, host: string, tld: string)
    requires PatternParts(email, local, host, tld)
    ensures EmailShape(email)
  {
    var domain := host + "." + tld;
    assert email == local + ['@'] + domain;
    assert '@' !in domain;
    CountCharAppend(local + ['@'], domain, '@');
    CountCharAppend(local, ['@'], '@');
    CountCharAbsent(local, '@');
    CountCharAbsent(domain, '@');
    assert CountChar(['@'], '@') == 1;
    IndexOfAfter(local, '@', domain);
    assert email[|local| + 1..] == domain;
    assert domain[1..|domain| - 1][|host| - 1] == '.';
  }

  lemma {:induction false} CountCharZero(s: string, c: char)
    requires CountChar(s, c) == 0
    ensures c !in s
  {
    if |s| > 0 {
      CountCharZero(s[1..], c);
      assert s == [s[0]] + s[1..];
    }
  }

  // ---------------------------------------------------------------------
  // Messages

  /** Every message the validator can produce. */
  datatype Message =
    | EmailRequired | EmailInvalid | EmailDisposable
    | RateLimited
    | MissingField(field: string)
    | RaceInfoRequired
    | AgeOutOfRange | HoursOutOfRange | TooFewDays
    | InvalidJson

  function Text(m: Message): string {
    match m
    case EmailRequired => "Email is required"
    case EmailInvalid => "Invalid email format"
    case EmailDisposable => "Disposable email providers are not allowed"
    case RateLimited => "Rate limit exceeded. Maximum 5 submissions per day."
    case MissingField(f) => "Missing required field: " + f
    case RaceInfoRequired => "Race name and date required for specific race goal"
    case AgeOutOfRange => "Age must be between 18 and 99"
    case HoursOutOfRange => "Weekly hours must be between 0 and 40"
    case TooFewDays => "At least 3 days per week must be available for training"
    case InvalidJson => "Invalid JSON data"
  }

  /** `validate_email`: the first failing check decides the message; `None`
      is the `(True, "")` answer. */
  function ValidateEmail(email: string): (r: Option<Message>)
    ensures r.None? <==> |email| > 0 && EmailShape(email) && !IsDisposableEmail(email)
    ensures |email| == 0 ==> r == Some(EmailRequired)
    ensures |email| > 0 && !EmailShape(email) ==> r == Some(EmailInvalid)
    ensures EmailShape(email) && IsDisposableEmail(email) ==> r == Some(EmailDisposable)
  {
    if |email| == 0 then Some(EmailRequired)
    else if !EmailShape(email) then Some(EmailInvalid)
    else if IsDisposableEmail(email) then Some(EmailDisposable)
    else None
  }

  // ---------------------------------------------------------------------
  // Numeric bounds

  /** `validate_age`: zero is "not given" and passes. */
  function ValidateAge(age: int): (r: Option<Message>)
    ensures r.None? <==> age == 0 || 18 <= age <= 99
    ensures r.Some? ==> r.value == AgeOutOfRange
  {
    if age != 0 && (age < 18 || age > 99) then Some(AgeOutOfRange) else None
  }

  /** `validate_weekly_hours`. */
  function ValidateWeeklyHours(hours: int): (r: Option<Message>)
    ensures r.None? <==> 0 <= hours <= 40
    ensures r.Some? ==> r.value == HoursOutOfRange
  {
    if hours != 0 && (hours < 0 || hours > 40) then Some(HoursOutOfRange) else None
  }

  // ---------------------------------------------------------------------
  // Required fields and schedule

  const RequiredFields: seq<string> := ["name", "email", "primary_goal"]

  /** Where a message of `validate_required_fields` stands in its fixed order. */
  function RequiredRank(m: Message): int {
    match m
    case MissingField(f) =>
      if f == RequiredFields[0] then 0
      else if f == RequiredFields[1] then 1
      else if f == RequiredFields[2] then 2
      else 4
    case RaceInfoRequired => 3
    case _ => 4
  }

  predicate RaceInfoMissing(data: Form) {
    Get(data, "primary_goal") == Str("specific_race")
    && (!Truthy(Get(data, "race_name")) || !Truthy(Get(data, "race_date")))
  }

  /** `validate_required_fields`: one message per missing field, in the order
      name, email, primary_goal, then the race message. */
  method ValidateRequiredFields(data: Form) returns (valid: bool, errors: seq<Message>)
    ensures valid <==> |errors| == 0
    ensures forall f :: f in RequiredFields ==>
      (MissingField(f) in errors <==> !Truthy(Get(data, f)))
    ensures RaceInfoRequired in errors <==> RaceInfoMissing(data)
    ensures forall i, j :: 0 <= i < j < |errors| ==> RequiredRank(errors[i]) < RequiredRank(errors[j])
    ensures forall e :: e in errors ==> RequiredRank(e) < 4
  {
    errors := [];
    var k := 0;
    while k < |RequiredFields|
      invariant 0 <= k <= |RequiredFields|
      invariant forall i :: 0 <= i < k ==>
        (MissingField(RequiredFields[i]) in errors <==> !Truthy(Get(data, RequiredFields[i])))
      invariant forall i :: k <= i < |RequiredFields| ==> MissingField(RequiredFields[i]) !in errors
      invariant RaceInfoRequired !in errors
      invariant forall i, j :: 0 <= i < j < |errors| ==> RequiredRank(errors[i]) < RequiredRank(errors[j])
      invariant forall e :: e in errors ==> RequiredRank(e) < k
    {
      var field := RequiredFields[k];
      assert RequiredRank(MissingField(field)) == k;
      if !Truthy(Get(data, field)) {
        errors := errors + [MissingField(field)];
      }
      k := k + 1;
    }
    if RaceInfoMissing(data) {
      errors := errors + [RaceInfoRequired];
    }
    valid := |errors| == 0;
  }

  predicate DayAvailable(data: Form, day: string) {
    Truthy(Get(data, day + "_available"))
  }

  /** Which days of the list are marked available. */
  function Availability(data: Form, days: seq<string>): (r: seq<bool>)
    ensures |r| == |days|
    ensures forall i :: 0 <= i < |days| ==> (r[i] <==> DayAvailable(data, days[i]))
  {
    seq(|days|, i requires 0 <= i < |days| => DayAvailable(data, days[i]))
  }

  /** Three different positions of the list are set. */
  predicate ThreeSet(flags: seq<bool>) {
    exists i, j, k :: 0 <= i < j < k < |flags| && flags[i] && flags[j] && flags[k]
  }

  predicate TwoSet(flags: seq<bool>) {
    exists i, j :: 0 <= i < j < |flags| && flags[i] && flags[j]
  }

  predicate OneSet(flags: seq<bool>) {
    exists i :: 0 <= i < |flags| && flags[i]
  }

  /** Three different days of the week are available. */
  predicate ThreeDaysAvailable(data: Form) {
    ThreeSet(Availability(data, WeekDays))
  }

  function CountSet(flags: seq<bool>): nat
  {
    if |flags| == 0 then 0
    else CountSet(flags[..|flags| - 1]) + (if flags[|flags| - 1] then 1 else 0)
  }

  /** `validate_schedule`: count the available days of the week. */
  method ValidateSchedule(data: Form) returns (r: Option<Message>)
    ensures r.None? <==> ThreeDaysAvailable(data)
    ensures r.Some? ==> r.value == TooFewDays
  {
    var flags := Availability(data, WeekDays);
    var available := 0;
    var k := 0;
    while k < |WeekDays|
      invariant 0 <= k <= |WeekDays|
      invariant available == CountSet(flags[..k])
    {
      assert flags[..k + 1][..k] == flags[..k];
      if DayAvailable(data, WeekDays[k]) {
        available := available + 1;
      }
      k := k + 1;
    }
    assert flags[..k] == flags;
    CountAtLeastThree(flags);
    if available < 3 {
      return Some(TooFewDays);
    }
    return None;
  }

  /** Counting reaches three exactly when three distinct positions are set. */
  lemma {:induction false} CountAtLeastThree(flags: seq<bool>)
    ensures CountSet(flags) >= 3 <==> ThreeSet(flags)
    decreases |flags|
  {
    if |flags| > 0 {
      var init := flags[..|flags| - 1];
      CountAtLeastThree(init);
      CountAtLeastTwo(init);
      ThreeSetLast(flags);
    }
  }

  lemma {:induction false} CountAtLeastTwo(flags: seq<bool>)
    ensures CountSet(flags) >= 2 <==> TwoSet(flags)
    decreases |flags|
  {
    if |flags| > 0 {
      var init := flags[..|flags| - 1];
      CountAtLeastTwo(init);
      CountAtLeastOne(init);
      TwoSetLast(flags);
    }
  }

  lemma {:induction false} CountAtLeastOne(flags: seq<bool>)
    ensures CountSet(flags) >= 1 <==> OneSet(flags)
    decreases |flags|
  {
    if |flags| > 0 {
      var init := flags[..|flags| - 1];
      CountAtLeastOne(init);
      OneSetLast(flags);
    }
  }

  /** Three set positions: three before the last one, or two before it and
      the last one. */
  lemma {:induction false} ThreeSetLast(flags: seq<bool>)
    requires |flags| > 0
    ensures ThreeSet(flags) <==>
      ThreeSet(flags[..|flags| - 1]) || (TwoSet(flags[..|flags| - 1]) && flags[|flags| - 1])
  {
    var init := flags[..|flags| - 1];
    var last := |flags| - 1;
    if ThreeSet(init) {
      ThreeSetGrows(flags);
    }
    if TwoSet(init) && flags[last] {
      var i, j :| 0 <= i < j < |init| && init[i] && init[j];
      assert flags[i] && flags[j];
    }
    if ThreeSet(flags) {
      ThreeSetShrinks(flags);
    }
  }

  lemma {:induction false} ThreeSetGrows(flags: seq<bool>)
    requires |flags| > 0 && ThreeSet(flags[..|flags| - 1])
    ensures ThreeSet(flags)
  {
    var init := flags[..|flags| - 1];
    var i, j, k :| 0 <= i < j < k < |init| && init[i] && init[j] && init[k];
    assert flags[i] && flags[j] && flags[k];
  }

  lemma {:induction false} ThreeSetShrinks(flags: seq<bool>)
    requires |flags| > 0 && ThreeSet(flags)
    ensures ThreeSet(flags[..|flags| - 1]) || (TwoSet(flags[..|flags| - 1]) && flags[|flags| - 1])
  {
    var init := flags[..|flags| - 1];
    var i, j, k :| 0 <= i < j < k < |flags| && flags[i] && flags[j] && flags[k];
    assert init[i] && init[j];
    if k < |flags| - 1 {
      assert init[k];
    }
  }

  lemma {:induction false} TwoSetLast(flags: seq<bool>)
    requires |flags| > 0
    ensures TwoSet(flags) <==>
      TwoSet(flags[..|flags| - 1]) || (OneSet(flags[..|flags| - 1]) && flags[|flags| - 1])
  {
    var init := flags[..|flags| - 1];
    var last := |flags| - 1;
    if TwoSet(init) {
      var i, j :| 0 <= i < j < |init| && init[i] && init[j];
      assert flags[i] && flags[j];
    }
    if OneSet(init) && flags[last] {
      var i :| 0 <= i < |init| && init[i];
      assert flags[i];
    }
    if TwoSet(flags) {
      var i, j :| 0 <= i < j < |flags| && flags[i] && flags[j];
      assert init[i];
      if j < last {
        assert init[j];
      }
    }
  }

  lemma {:induction false} OneSetLast(flags: seq<bool>)
    requires |flags| > 0
    ensures OneSet(flags) <==> OneSet(flags[..|flags| - 1]) || flags[|flags| - 1]
  {
    var init := flags[..|flags| - 1];
    if OneSet(init) {
      var i :| 0 <= i < |init| && init[i];
      assert flags[i];
    }
    if OneSet(flags) {
      var i :| 0 <= i < |flags| && flags[i];
      if i < |init| {
        assert init[i];
      }
    }
  }

  // ---------------------------------------------------------------------
  // The whole submission

  /** The upper end of `weekly_volume`: "a-b" gives b (40 when b is empty),
      "N+" gives 40, anything else is read by `int()`, an empty value as 0. */
  function MaxHoursFromVolume(volume: Value): (r: Result<int>)
    ensures volume.Str? && '-' !in volume.s && |volume.s| > 0 && volume.s[|volume.s| - 1] == '+' ==> r == Ok(40)
    ensures volume.Str? && '-' in volume.s && Split(volume.s, '-')[1] == ""
      ==> r == Ok(40)
    ensures !Truthy(volume) ==> r == Ok(0)
    ensures volume.Int? ==> r == Ok(volume.i)
  {
    match volume
    case Str(s) =>
      if '-' in s then
        SplitHasTwo(s, '-');
        var upper := Split(s, '-')[1];
        if |upper| > 0 then ParsePyInt(upper) else Ok(40)
      else if |s| > 0 && s[|s| - 1] == '+' then Ok(40)
      else if |s| > 0 then ParsePyInt(s)
      else Ok(0)
    case _ => if Truthy(volume) then ToInt(volume) else Ok(0)
  }

  /** A range "a-b" yields b, whatever a is. */
  lemma {:induction false} MaxHoursOfRange(lower: string, upper: string)
    requires '-' !in lower && '-' !in upper && |upper| > 0 && AllDigits(upper)
    ensures MaxHoursFromVolume(Str(lower + "-" + upper)) == Ok(DigitsValue(upper))
  {
    RangeUpperPiece(lower, upper);
    ParseDigits(upper);
  }

  /** The second dash-separated piece of "a-b" is b. */
  lemma {:induction false} RangeUpperPiece(lower: string, upper: string)
    requires '-' !in lower && '-' !in upper
    ensures var s := lower + "-" + upper; '-' in s && Split(s, '-')[1] == upper
  {
    var s := lower + "-" + upper;
    assert s == lower + ['-'] + upper;
    assert s[|lower|] == '-';
    SplitAfter(lower, '-', upper);
    assert Split(upper, '-') == [upper];
  }

  /** What the validator reads from `data_str`: an empty string is `{}`,
      text that is not JSON is rejected before any other check. */
  datatype Payload = NotJson | Data(form: Form)

  /** The outcome of `validate_submission`, plus whether `record_submission`
      was called. */
  datatype Verdict = Verdict(valid: bool, errors: seq<Message>, recorded: bool)

  /** The stage of `validate_submission` that produces a message. */
  function Stage(m: Message): int {
    match m
    case EmailRequired => 0
    case EmailInvalid => 0
    case EmailDisposable => 0
    case RateLimited => 1
    case MissingField(_) => 2
    case RaceInfoRequired => 2
    case AgeOutOfRange => 3
    case HoursOutOfRange => 4
    case TooFewDays => 5
    case InvalidJson => 6
  }

  /** Whether the age check runs and what `int()` makes of the value. */
  function AgeCheck(data: Form): Result<Option<int>>
  {
    if "age" in data && Truthy(data["age"]) then
      match ToInt(data["age"])
      case Ok(a) => Ok(Some(a))
      case Err(e) => Err(e)
    else Ok(None)
  }

  function HoursCheck(data: Form): Result<Option<int>>
  {
    if "weekly_volume" in data then
      match MaxHoursFromVolume(data["weekly_volume"])
      case Ok(h) => Ok(Some(h))
      case Err(e) => Err(e)
    else Ok(None)
  }

  /** The cut-off date `record_submission` computes before cleaning the
      rate-limit file: `now.replace(day=now.day - 7)`. The same month with a
      day of 0 or less does not exist, so on the first seven days of a month
      it raises `ValueError`. */
  function RecordCutoff(today: Date): (r: Result<Date>)
    requires Valid(today)
    ensures r.Err? <==> today.day <= 7
    ensures r.Ok? ==> Valid(r.value) && Before(r.value, today)
    ensures r.Ok? ==> r.value.year == today.year && r.value.month == today.month && r.value.day + 7 == today.day
  {
    if today.day - 7 >= 1 then Ok(Date(today.year, today.month, today.day - 7))
    else Err("day is out of range for month")
  }

  /** `validate_submission`, with `today` standing for the clock. An `int()`
      that raises escapes the function, and so does the cut-off of
      `record_submission` on a valid submission early in a month; those are
      the `Err` outcomes. */
  method ValidateSubmission(email: string, payload: Payload, underRateLimit: bool, today: Date)
    returns (r: Result<Verdict>)
    requires Valid(today)
    ensures payload.NotJson? ==> r == Ok(Verdict(false, [InvalidJson], false))
    ensures payload.Data? && (AgeCheck(payload.form).Err? || HoursCheck(payload.form).Err?) ==> r.Err?
    ensures payload.Data? && r.Err? && AgeCheck(payload.form).Ok? && HoursCheck(payload.form).Ok? ==>
      today.day <= 7 && SubmissionErrorsOk(email, payload.form, underRateLimit, [])
    ensures payload.Data? && today.day > 7 ==> (r.Err? <==> AgeCheck(payload.form).Err? || HoursCheck(payload.form).Err?)
    ensures r.Ok? && today.day <= 7 ==> !r.value.valid
    ensures r.Ok? ==> (r.value.valid <==> |r.value.errors| == 0)
    ensures r.Ok? ==> (r.value.recorded <==> r.value.valid)
    ensures r.Ok? && payload.Data? ==> SubmissionErrorsOk(email, payload.form, underRateLimit, r.value.errors)
  {
    if payload.NotJson? {
      return Ok(Verdict(false, [InvalidJson], false));
    }
    var data := payload.form;
    var age := AgeCheck(data);
    if age.Err? {
      return Err(age.error);
    }
    var hours := HoursCheck(data);
    if hours.Err? {
      return Err(hours.error);
    }
    var errors := CollectMessages(email, data, underRateLimit);
    var valid := |errors| == 0;
    if valid {
      var cutoff := RecordCutoff(today);
      if cutoff.Err? {
        return Err(cutoff.error);
      }
    }
    return Ok(Verdict(valid, errors, valid));
  }

  /** The messages of every check, in the order the checks run, once the
      two `int()` readings are known to succeed. (They raise before any
      message is returned, so reading them first changes no outcome.) */
  method CollectMessages(email: string, data: Form, underRateLimit: bool) returns (errors: seq<Message>)
    requires AgeCheck(data).Ok? && HoursCheck(data).Ok?
    ensures SubmissionErrorsOk(email, data, underRateLimit, errors)
  {
    var emailCheck := ValidateEmail(email);
    var emailPart := if emailCheck.Some? then [emailCheck.value] else [];
    var ratePart := if underRateLimit then [] else [RateLimited];
    var requiredValid, requiredErrors := ValidateRequiredFields(data);
    var requiredPart := if requiredValid then [] else requiredErrors;
    forall m | m in requiredPart
      ensures Stage(m) == 2
    {
      assert RequiredRank(m) < 4;
    }
    var age := AgeCheck(data).value;
    var agePart := if age.Some? && ValidateAge(age.value).Some? then [AgeOutOfRange] else [];
    var hours := HoursCheck(data).value;
    var hoursPart := if hours.Some? && ValidateWeeklyHours(hours.value).Some? then [HoursOutOfRange] else [];
    var schedule := ValidateSchedule(data);
    var schedulePart := if schedule.Some? then [TooFewDays] else [];
    errors := emailPart + ratePart + requiredPart + agePart + hoursPart + schedulePart;
    SubmissionAssembled(emailCheck, underRateLimit, data, RaceInfoMissing(data),
      AgeFails(data), HoursFails(data), ThreeDaysAvailable(data),
      emailPart, ratePart, requiredPart, agePart, hoursPart, schedulePart);
  }

  /** What each check contributes, put together in the order of the checks. */
  lemma {:induction false} SubmissionAssembled(emailResult: Option<Message>, underRateLimit: bool, data: Form,
                            raceMissing: bool, ageFails: bool, hoursFails: bool, scheduleOk: bool,
                            emailPart: seq<Message>, ratePart: seq<Message>, requiredPart: seq<Message>,
                            agePart: seq<Message>, hoursPart: seq<Message>, schedulePart: seq<Message>)
    requires emailResult.Some? ==> Stage(emailResult.value) == 0
    requires emailPart == (if emailResult.Some? then [emailResult.value] else [])
    requires ratePart == (if underRateLimit then [] else [RateLimited])
    requires forall m :: m in requiredPart ==> Stage(m) == 2 && RequiredRank(m) < 4
    requires forall i, j :: 0 <= i < j < |requiredPart| ==> RequiredRank(requiredPart[i]) < RequiredRank(requiredPart[j])
    requires forall f :: f in RequiredFields ==> (MissingField(f) in requiredPart <==> !Truthy(Get(data, f)))
    requires RaceInfoRequired in requiredPart <==> raceMissing
    requires agePart == (if ageFails then [AgeOutOfRange] else [])
    requires hoursPart == (if hoursFails then [HoursOutOfRange] else [])
    requires schedulePart == (if scheduleOk then [] else [TooFewDays])
    ensures AccumulatedOk(emailResult, underRateLimit, data, raceMissing, ageFails, hoursFails, scheduleOk,
      emailPart + ratePart + requiredPart + agePart + hoursPart + schedulePart)
  {
    RequiredPartSorted(requiredPart);
    AssembledSorted(emailPart, ratePart, requiredPart, agePart, hoursPart, schedulePart);
    AssembledReports(emailResult, underRateLimit, data, raceMissing, ageFails, hoursFails, scheduleOk,
      emailPart, ratePart, requiredPart, agePart, hoursPart, schedulePart);
  }

  /** The field check's messages, all of one stage and in field order, are in
      message order. */
  lemma {:induction false} RequiredPartSorted(requiredPart: seq<Message>)
    requires forall m :: m in requiredPart ==> Stage(m) == 2
    requires forall i, j :: 0 <= i < j < |requiredPart| ==> RequiredRank(requiredPart[i]) < RequiredRank(requiredPart[j])
    ensures OrderSorted(requiredPart)
  {
    forall i, j | 0 <= i < j < |requiredPart|
      ensures Order(requiredPart[i]) < Order(requiredPart[j])
    {
      assert requiredPart[i] in requiredPart && requiredPart[j] in requiredPart;
    }
  }

  lemma {:induction false} AssembledReports(emailResult: Option<Message>, underRateLimit: bool, data: Form,
                         raceMissing: bool, ageFails: bool, hoursFails: bool, scheduleOk: bool,
                         emailPart: seq<Message>, ratePart: seq<Message>, requiredPart: seq<Message>,
                         agePart: seq<Message>, hoursPart: seq<Message>, schedulePart: seq<Message>)
    requires emailResult.Some? ==> Stage(emailResult.value) == 0
    requires emailPart == (if emailResult.Some? then [emailResult.value] else [])
    requires ratePart == (if underRateLimit then [] else [RateLimited])
    requires forall m :: m in requiredPart ==> Stage(m) == 2 && RequiredRank(m) < 4
    requires forall f :: f in RequiredFields ==> (MissingField(f) in requiredPart <==> !Truthy(Get(data, f)))
    requires RaceInfoRequired in requiredPart <==> raceMissing
    requires agePart == (if ageFails then [AgeOutOfRange] else [])
    requires hoursPart == (if hoursFails then [HoursOutOfRange] else [])
    requires schedulePart == (if scheduleOk then [] else [TooFewDays])
    ensures EachCheckReported(emailResult, underRateLimit, data, raceMissing, ageFails, hoursFails, scheduleOk,
      emailPart + ratePart + requiredPart + agePart + hoursPart + schedulePart)
  {
    var errors := emailPart + ratePart + requiredPart + agePart + hoursPart + schedulePart;
    AssembledFixedMessages(underRateLimit, raceMissing, ageFails, hoursFails, scheduleOk,
      emailPart, ratePart, requiredPart, agePart, hoursPart, schedulePart);
    AssembledEmail(emailResult, emailPart, ratePart, requiredPart, agePart, hoursPart, schedulePart);
    AssembledFields(data, emailPart, ratePart, requiredPart, agePart, hoursPart, schedulePart);
  }

  /** The e-mail message, and only it, is the stage-0 message. */
  lemma {:induction false} AssembledEmail(emailResult: Option<Message>,
                       emailPart: seq<Message>, ratePart: seq<Message>, requiredPart: seq<Message>,
                       agePart: seq<Message>, hoursPart: seq<Message>, schedulePart: seq<Message>)
    requires emailPart == (if emailResult.Some? then [emailResult.value] else [])
    requires forall m :: m in ratePart ==> Stage(m) == 1
    requires forall m :: m in requiredPart ==> Stage(m) == 2
    requires forall m :: m in agePart ==> Stage(m) == 3
    requires forall m :: m in hoursPart ==> Stage(m) == 4
    requires forall m :: m in schedulePart ==> Stage(m) == 5
    ensures var errors := emailPart + ratePart + requiredPart + agePart + hoursPart + schedulePart;
      && (forall m :: m in errors && Stage(m) == 0 ==> Some(m) == emailResult)
      && (emailResult.Some? ==> emailResult.value in errors)
  {
    var errors := emailPart + ratePart + requiredPart + agePart + hoursPart + schedulePart;
    if emailResult.Some? {
      InSix(emailResult.value, emailPart, ratePart, requiredPart, agePart, hoursPart, schedulePart);
    }
    forall m | m in errors && Stage(m) == 0
      ensures Some(m) == emailResult
    {
      InSix(m, emailPart, ratePart, requiredPart, agePart, hoursPart, schedulePart);
    }
  }

  /** The messages every check but the e-mail and field checks contributes. */
  lemma {:induction false} AssembledFixedMessages(underRateLimit: bool, raceMissing: bool, ageFails: bool,
                               hoursFails: bool, scheduleOk: bool,
                               emailPart: seq<Message>, ratePart: seq<Message>, requiredPart: seq<Message>,
                               agePart: seq<Message>, hoursPart: seq<Message>, schedulePart: seq<Message>)
    requires forall m :: m in emailPart ==> Stage(m) == 0
    requires ratePart == (if underRateLimit then [] else [RateLimited])
    requires forall m :: m in requiredPart ==> Stage(m) == 2
    requires RaceInfoRequired in requiredPart <==> raceMissing
    requires agePart == (if ageFails then [AgeOutOfRange] else [])
    requires hoursPart == (if hoursFails then [HoursOutOfRange] else [])
    requires schedulePart == (if scheduleOk then [] else [TooFewDays])
    ensures var errors := emailPart + ratePart + requiredPart + agePart + hoursPart + schedulePart;
      && InvalidJson !in errors
      && (RateLimited in errors <==> !underRateLimit)
      && (RaceInfoRequired in errors <==> raceMissing)
      && (AgeOutOfRange in errors <==> ageFails)
      && (HoursOutOfRange in errors <==> hoursFails)
      && (TooFewDays in errors <==> !scheduleOk)
  {
    InSix(InvalidJson, emailPart, ratePart, requiredPart, agePart, hoursPart, schedulePart);
    InSix(RateLimited, emailPart, ratePart, requiredPart, agePart, hoursPart, schedulePart);
    InSix(RaceInfoRequired, emailPart, ratePart, requiredPart, agePart, hoursPart, schedulePart);
    InSix(AgeOutOfRange, emailPart, ratePart, requiredPart, agePart, hoursPart, schedulePart);
    InSix(HoursOutOfRange, emailPart, ratePart, requiredPart, agePart, hoursPart, schedulePart);
    InSix(TooFewDays, emailPart, ratePart, requiredPart, agePart, hoursPart, schedulePart);
  }

  /** A missing-field message comes only from the field check, and only for
      a required field. */
  lemma {:induction false} AssembledFields(data: Form,
                        emailPart: seq<Message>, ratePart: seq<Message>, requiredPart: seq<Message>,
                        agePart: seq<Message>, hoursPart: seq<Message>, schedulePart: seq<Message>)
    requires forall m :: m in emailPart ==> Stage(m) == 0
    requires forall m :: m in ratePart ==> Stage(m) == 1
    requires forall m :: m in requiredPart ==> RequiredRank(m) < 4
    requires forall f :: f in RequiredFields ==> (MissingField(f) in requiredPart <==> !Truthy(Get(data, f)))
    requires forall m :: m in agePart ==> Stage(m) == 3
    requires forall m :: m in hoursPart ==> Stage(m) == 4
    requires forall m :: m in schedulePart ==> Stage(m) == 5
    ensures var errors := emailPart + ratePart + requiredPart + agePart + hoursPart + schedulePart;
      && (forall f :: f in RequiredFields ==> (MissingField(f) in errors <==> !Truthy(Get(data, f))))
      && (forall m :: m in errors && m.MissingField? ==> m.field in RequiredFields)
  {
    var errors := emailPart + ratePart + requiredPart + agePart + hoursPart + schedulePart;
    forall f | f in RequiredFields
      ensures MissingField(f) in errors <==> !Truthy(Get(data, f))
    {
      InSix(MissingField(f), emailPart, ratePart, requiredPart, agePart, hoursPart, schedulePart);
    }
    forall m | m in errors && m.MissingField?
      ensures m.field in RequiredFields
    {
      InSix(m, emailPart, ratePart, requiredPart, agePart, hoursPart, schedulePart);
      assert m in requiredPart;
      assert m.field == RequiredFields[RequiredRank(m)];
    }
  }

  lemma {:induction false} InSix(m: Message, p0: seq<Message>, p1: seq<Message>, p2: seq<Message>,
              p3: seq<Message>, p4: seq<Message>, p5: seq<Message>)
    ensures m in p0 + p1 + p2 + p3 + p4 + p5 <==>
      m in p0 || m in p1 || m in p2 || m in p3 || m in p4 || m in p5
  {
  }

  /** Six lists, each in message order, whose messages belong to stages 0 to
      5 in turn make one list in message order. */
  lemma {:induction false} AssembledSorted(p0: seq<Message>, p1: seq<Message>, p2: seq<Message>,
                        p3: seq<Message>, p4: seq<Message>, p5: seq<Message>)
    requires forall m :: m in p0 ==> Stage(m) == 0
    requires forall m :: m in p1 ==> Stage(m) == 1
    requires forall m :: m in p2 ==> Stage(m) == 2
    requires forall m :: m in p3 ==> Stage(m) == 3
    requires forall m :: m in p4 ==> Stage(m) == 4
    requires forall m :: m in p5 ==> Stage(m) == 5
    requires OrderSorted(p0) && OrderSorted(p1) && OrderSorted(p2)
    requires OrderSorted(p3) && OrderSorted(p4) && OrderSorted(p5)
    ensures OrderSorted(p0 + p1 + p2 + p3 + p4 + p5)
  {
    StagedConcat([], p0, 0);
    assert [] + p0 == p0;
    StagedConcat(p0, p1, 1);
    StagedConcat(p0 + p1, p2, 2);
    StagedConcat(p0 + p1 + p2, p3, 3);
    StagedConcat(p0 + p1 + p2 + p3, p4, 4);
    StagedConcat(p0 + p1 + p2 + p3 + p4, p5, 5);
  }

  /** A message's place in the list `validate_submission` returns: first its
      stage, then, within the field check, the field order. */
  function Order(m: Message): int {
    5 * Stage(m) + RequiredRank(m)
  }

  /** Strictly increasing in message order, so no message appears twice. */
  predicate OrderSorted(errors: seq<Message>) {
    forall i, j :: 0 <= i < j < |errors| ==> Order(errors[i]) < Order(errors[j])
  }

  predicate OrdersBelow(errors: seq<Message>, k: int) {
    forall m :: m in errors ==> Order(m) < k
  }

  /** Appending messages of one later stage to a list in message order keeps
      it in message order. */
  lemma {:induction false} StagedConcat(a: seq<Message>, b: seq<Message>, t: int)
    requires OrderSorted(a) && OrdersBelow(a, 5 * t)
    requires OrderSorted(b) && forall m :: m in b ==> Stage(m) == t
    ensures OrderSorted(a + b) && OrdersBelow(a + b, 5 * t + 5)
  {
    var ab := a + b;
    forall i, j | 0 <= i < j < |ab|
      ensures Order(ab[i]) < Order(ab[j])
    {
      if j < |a| {
        assert ab[i] == a[i] && ab[j] == a[j];
      } else if i >= |a| {
        assert ab[i] == b[i - |a|] && ab[j] == b[j - |a|];
      } else {
        assert ab[i] == a[i] && a[i] in a;
        assert ab[j] == b[j - |a|] && b[j - |a|] in b;
      }
    }
    forall m | m in ab
      ensures Order(m) < 5 * t + 5
    {
      if m in b {
        assert Stage(m) == t;
      }
    }
  }

  /** The promise about the accumulated messages: stage order, and each
      message present exactly when its check fails. */
  predicate AgeFails(data: Form)
    requires AgeCheck(data).Ok?
  {
    AgeCheck(data).value.Some? && ValidateAge(AgeCheck(data).value.value).Some?
  }

  predicate HoursFails(data: Form)
    requires HoursCheck(data).Ok?
  {
    HoursCheck(data).value.Some? && ValidateWeeklyHours(HoursCheck(data).value.value).Some?
  }

  /** The promise about the accumulated messages, given each check's verdict:
      message order without repeats, and each message present exactly when
      its check fails. */
  predicate AccumulatedOk(emailResult: Option<Message>, underRateLimit: bool, data: Form,
                          raceMissing: bool, ageFails: bool, hoursFails: bool, scheduleOk: bool,
                          errors: seq<Message>)
  {
    OrderSorted(errors)
    && EachCheckReported(emailResult, underRateLimit, data, raceMissing, ageFails, hoursFails, scheduleOk, errors)
  }

  predicate EachCheckReported(emailResult: Option<Message>, underRateLimit: bool, data: Form,
                              raceMissing: bool, ageFails: bool, hoursFails: bool, scheduleOk: bool,
                              errors: seq<Message>)
  {
    && InvalidJson !in errors
    && (forall m :: m in errors && Stage(m) == 0 ==> Some(m) == emailResult)
    && (emailResult.Some? ==> emailResult.value in errors)
    && (RateLimited in errors <==> !underRateLimit)
    && (forall f :: f in RequiredFields ==> (MissingField(f) in errors <==> !Truthy(Get(data, f))))
    && (forall m :: m in errors && m.MissingField? ==> m.field in RequiredFields)
    && (RaceInfoRequired in errors <==> raceMissing)
    && (AgeOutOfRange in errors <==> ageFails)
    && (HoursOutOfRange in errors <==> hoursFails)
    && (TooFewDays in errors <==> !scheduleOk)
  }

  /** The same promise in terms of the submission itself. */
  predicate SubmissionErrorsOk(email: string, data: Form, underRateLimit: bool, errors: seq<Message>)
    requires AgeCheck(data).Ok? && HoursCheck(data).Ok?
  {
    AccumulatedOk(ValidateEmail(email), underRateLimit, data, RaceInfoMissing(data),
      AgeFails(data), HoursFails(data), ThreeDaysAvailable(data), errors)
  }

  /** The promise leaves no freedom: two message lists that both meet it are
      the same list, so it fixes the list `validate_submission` returns. */
  lemma {:induction false} SubmissionMessagesDetermined(email: string, data: Form, underRateLimit: bool,
                                                        a: seq<Message>, b: seq<Message>)
    requires AgeCheck(data).Ok? && HoursCheck(data).Ok?
    requires SubmissionErrorsOk(email, data, underRateLimit, a)
    requires SubmissionErrorsOk(email, data, underRateLimit, b)
    ensures a == b
  {
    var emailResult, raceMissing := ValidateEmail(email), RaceInfoMissing(data);
    var ageFails, hoursFails, scheduleOk := AgeFails(data), HoursFails(data), ThreeDaysAvailable(data);
    forall m
      ensures m in a <==> m in b
    {
      ReportedExactly(emailResult, underRateLimit, data, raceMissing, ageFails, hoursFails, scheduleOk, a, m);
      ReportedExactly(emailResult, underRateLimit, data, raceMissing, ageFails, hoursFails, scheduleOk, b, m);
    }
    OrderSortedUnique(a, b);
  }

  /** Whether a message belongs in the list, from the checks' verdicts alone. */
  predicate Reported(emailResult: Option<Message>, underRateLimit: bool, data: Form,
                     raceMissing: bool, ageFails: bool, hoursFails: bool, scheduleOk: bool, m: Message)
  {
    match m
    case EmailRequired => emailResult == Some(m)
    case EmailInvalid => emailResult == Some(m)
    case EmailDisposable => emailResult == Some(m)
    case RateLimited => !underRateLimit
    case MissingField(f) => f in RequiredFields && !Truthy(Get(data, f))
    case RaceInfoRequired => raceMissing
    case AgeOutOfRange => ageFails
    case HoursOutOfRange => hoursFails
    case TooFewDays => !scheduleOk
    case InvalidJson => false
  }

  lemma {:induction false} ReportedExactly(emailResult: Option<Message>, underRateLimit: bool, data: Form,
                                           raceMissing: bool, ageFails: bool, hoursFails: bool, scheduleOk: bool,
                                           errors: seq<Message>, m: Message)
    requires EachCheckReported(emailResult, underRateLimit, data, raceMissing, ageFails, hoursFails, scheduleOk, errors)
    ensures m in errors <==> Reported(emailResult, underRateLimit, data, raceMissing, ageFails, hoursFails, scheduleOk, m)
  {
    if Stage(m) == 0 {
      if emailResult == Some(m) {
        assert emailResult.value in errors;
      }
    }
  }

  /** Two lists in strict message order with the same members are equal. */
  lemma {:induction false} OrderSortedUnique(a: seq<Message>, b: seq<Message>)
    requires OrderSorted(a) && OrderSorted(b)
    requires forall m :: m in a <==> m in b
    ensures a == b
    decreases |a|
  {
    assert |a| > 0 ==> a[0] in a;
    assert |b| > 0 ==> b[0] in b;
    if |a| > 0 && |b| > 0 {
      SameHead(a, b);
      SameTailMembers(a, b);
      OrderSortedUnique(a[1..], b[1..]);
      assert a == [a[0]] + a[1..] && b == [b[0]] + b[1..];
    }
  }

  /** The first message of a list in strict message order is its least one. */
  lemma {:induction false} SameHead(a: seq<Message>, b: seq<Message>)
    requires |a| > 0 && |b| > 0
    requires OrderSorted(a) && OrderSorted(b)
    requires a[0] in b && b[0] in a
    ensures a[0] == b[0]
  {
    var j :| 0 <= j < |b| && b[j] == a[0];
    var i :| 0 <= i < |a| && a[i] == b[0];
    assert Order(a[0]) <= Order(a[i]);
    assert j == 0;
  }

  lemma {:induction false} SameTailMembers(a: seq<Message>, b: seq<Message>)
    requires |a| > 0 && |b| > 0 && a[0] == b[0]
    requires OrderSorted(a) && OrderSorted(b)
    requires forall m :: m in a <==> m in b
    ensures forall m :: m in a[1..] <==> m in b[1..]
  {
    forall m | m in a[1..]
      ensures m in b[1..]
    {
      TailMember(a, b, m);
    }
    forall m | m in b[1..]
      ensures m in a[1..]
    {
      TailMember(b, a, m);
    }
  }

  lemma {:induction false} TailMember(a: seq<Message>, b: seq<Message>, m: Message)
    requires |a| > 0 && |b| > 0 && a[0] == b[0]
    requires OrderSorted(a) && OrderSorted(b)
    requires m in a[1..] && m in b
    ensures m in b[1..]
  {
    var k :| 0 <= k < |a[1..]| && a[1..][k] == m;
    assert Order(a[0]) < Order(a[k + 1]);
    var l :| 0 <= l < |b| && b[l] == m;
    assert l != 0;
    assert b[1..][l - 1] == m;
  }
}
